=== FILE: README.md ===
# A verified model of the text logic of an LLM-proxy web app

The app is a Next.js front end with a few API routes. It answers questions about an
uploaded PDF by asking a chat model about each chunk of the document. It reads a web page
into markdown. It limits callers per time window. It formats, counts and edits the
answers it shows. This project models the sequential logic of those parts in Dafny and
proves properties of it:

- the PDF route: chunking, question classification, reply scoring, merging of numbered
  lists, and the request validation and answer selection of `POST`;
- the website-reading route: the unwanted-element filter, title priority, domain names,
  the HTML-to-markdown tree walk, and the finishing steps;
- the per-caller rate limiter, as a pure state transition over a map of windows;
- the page's helpers: the PDF answer formatter, word and character counts, the follow-up
  prompt, and the conversation edits;
- the content panel's helpers: Farsi digits, the latest operation and its language,
  search queries, the operation list, and text statistics with word frequencies;
- the parse of the labelled search summaries in the generation route.

Strings are `seq<char>`, so a string is a sequence of Unicode scalar values; JavaScript
counts UTF-16 code units instead (see "## Left out"). Case mapping is ASCII only.
Each regular expression the source uses is written out as a scanner for that one
pattern. External services are function parameters. The chat-completion service is
`PdfRoute.Chat`. The fetch and its parsed page are `ScrapeRoute.Fetch`. The URL parser is
`Markdown.HostOf`. Timestamps and `now` are plain arguments. The tree walk takes the table delimiter line as a
parameter (`Markdown.Delimiter`). The route, `ScrapeRoute.Scrape`, passes the line as
the code builds it (`Markdown.SeparatorAsWritten`); `Markdown.Separator` is the intended
line.

The PDF route's chunk loop is fed the replies in chunk order (`PdfRoute.Replies`). The
service is a function here, so this equals calling it chunk by chunk. The loop stops at
the first failure and does not look at any later reply. A request's system message is
one of two fixed texts: `PdfRoute.Instructions` names which, and `PdfRoute.SystemText`
gives it.

Files, one module each:

| file | module | what it holds |
|---|---|---|
| wrappers.dfy | Wrappers | `Option` |
| http.dfy | Http | a JSON body field: undefined, null or a string |
| strings.dfy | Strings | JavaScript string operations: trim, split, join, indexOf, case, digits |
| pdf_chunks.dfy | PdfChunks | `splitIntoChunks` and its limits |
| pdf_scoring.dfy | PdfScoring | `isSpecificQuestion`, `scoreResponseRelevance` |
| pdf_merge.dfy | PdfMerge | `combineNumberedLists` |
| pdf_route.dfy | PdfRoute | `POST` of the PDF route |
| dom.dfy | Dom | the parsed page as a tree, selector lookups, element removal |
| markdown.dfy | Markdown | `getDomainName`, `processNode`, the finishing steps |
| scrape_route.dfy | ScrapeRoute | `POST` of the website-reading route |
| rate_limit.dfy | RateLimit | `rateLimit(...).check` |
| summaries.dfy | SearchSummaries | the labelled-summary parse of the generation route |
| conversations.dfy | Conversations | the page's formatter, counts and conversation edits |
| operations.dfy | ContentOperations | the content panel's operations, Farsi digits, search queries |
| sorting.dfy | Sorting | stable sort by a key, and filtering |
| text_stats.dfy | TextStats | `calculateStats` |

## Model

| member | source | states |
|---|---|---|
| PdfChunks.SplitIntoChunks | app/api/process-pdf/route.js:14-28 | the chunks concatenate to the text; every chunk is non-empty; every chunk but the last is exactly `maxTokens*4` long and the last is at most that |
| PdfChunks.ChunkCount | app/api/process-pdf/route.js:18-25 | the number of chunks is the text length divided by the chunk size, rounded up |
| PdfChunks.ChunkingUnique | app/api/process-pdf/route.js:14-28 | only one list of chunks meets that description, so it determines the result |
| PdfChunks.FirstChunk | app/api/process-pdf/route.js:20-23 | the first chunk is the first `size` characters, or the whole text when it is shorter |
| PdfChunks.SplitIntoChunksLoop | app/api/process-pdf/route.js:14-28 | the source's loop computes the same chunks as the recursive definition |
| PdfScoring.ContainsAny | app/api/process-pdf/route.js:86-94 | true exactly when some keyword occurs as a substring |
| PdfScoring.IsSpecificQuestion | app/api/process-pdf/route.js:53-95 | a general keyword in the lower-cased question makes it general, whatever else it holds; otherwise it is specific exactly when a specific keyword occurs |
| PdfScoring.KeepTerms | app/api/process-pdf/route.js:106-112 | keeps exactly the words longer than 3 characters that are not stop words, each as many times as it occurs |
| PdfScoring.KeepTermsAppend | app/api/process-pdf/route.js:106-112 | keeping terms works word by word and keeps their order: it splits over concatenation, keeps a qualifying word and drops any other |
| PdfScoring.Terms | app/api/process-pdf/route.js:103-112 | every term qualifies and holds no white space; each qualifying word of the lower-cased question, split on white space, is a term as many times as it occurs there, and nothing else is |
| PdfScoring.Hits | app/api/process-pdf/route.js:127-130 | never more hits than terms |
| PdfScoring.HitsFound | app/api/process-pdf/route.js:127-130 | the hits are the number of terms, repeats included, that the text contains |
| PdfScoring.HitsExtremes | app/api/process-pdf/route.js:127-130 | the count of terms found in the reply is 0 exactly when none occurs, and all of them exactly when every one occurs |
| PdfScoring.CountHits | app/api/process-pdf/route.js:127-130 | the source's loop over the terms counts the same hits |
| PdfScoring.HitsAppend | app/api/process-pdf/route.js:127-130 | the count over two term lists is the sum of the counts |
| PdfScoring.Score | app/api/process-pdf/route.js:98-143 | a reply holding the sentinel scores 0; otherwise exactly 5 for a citation phrase, plus 2 for every question term, repeats included, that the lower-cased reply contains, plus 3 for a digit when the question asks for a number; so at most 8 + 2 per term |
| PdfScoring.ScoreWithoutTerms | app/api/process-pdf/route.js:98-143 | with no term hit, the score is one of 0, 3, 5 and 8 |
| PdfScoring.QuestionCaseIrrelevant | app/api/process-pdf/route.js:86-112 | classification and score do not depend on the case the question is typed in |
| PdfScoring.ScoreLoop | app/api/process-pdf/route.js:98-143 | the source's accumulating loop gives the same score |
| PdfMerge.ItemLen | app/api/process-pdf/route.js:42-44 | a list marker at the start of a string is at least three characters and ends with a full stop and one white space character |
| PdfMerge.ItemDigits | app/api/process-pdf/route.js:42-44 | everything in a list marker before its full stop is a digit |
| PdfMerge.Unindent | app/api/process-pdf/route.js:42 | removing the indentation in front of list items removes white space only, so it never lengthens the text |
| PdfMerge.UnindentIdentity | app/api/process-pdf/route.js:42 | an answer without indented list items is left as it is |
| PdfMerge.Renumber | app/api/process-pdf/route.js:44 | renumbering one answer advances the counter by exactly one per list marker at a line start |
| PdfMerge.RenumberIdentity | app/api/process-pdf/route.js:44 | an answer without list markers is left as it is |
| PdfMerge.RenumberLines | app/api/process-pdf/route.js:44 | for lines joined by line feeds, each starting with a list marker and holding no line terminator, the markers become `**n.** `, `**n+1.** `, … in line order, the rest of every line is kept, and the counter ends at n plus the number of lines |
| PdfMerge.UnindentLines | app/api/process-pdf/route.js:42 | a numbered list whose lines start with their markers has no indentation to drop |
| PdfMerge.ProcessLines | app/api/process-pdf/route.js:40-44 | processing an answer that is such a list, from counter n, gives its lines the bold markers n, n+1, … and passes the counter on |
| PdfMerge.Combine | app/api/process-pdf/route.js:31-50 | numbering from 1, the merge is the answers without the sentinel, processed in order with one running counter and joined by blank lines, with no separator in front of the first non-empty one |
| PdfMerge.CombineIsJoin | app/api/process-pdf/route.js:31-50 | the merge is the answers without the sentinel, processed in order and joined by blank lines, with no separator in front; no answers give "" |
| PdfMerge.CombineAllIrrelevant | app/api/process-pdf/route.js:35-37 | answers that all hold the sentinel add nothing |
| PdfMerge.NumberingContinues | app/api/process-pdf/route.js:33-47 | one counter runs across all merged answers, advancing once per list marker |
| PdfRoute.GroupDigitsRoundTrip | app/api/process-pdf/route.js:161-163 | `toLocaleString` grouping only inserts commas: removing them gives the digits back |
| PdfRoute.EstimatedTokens | app/api/process-pdf/route.js:156-158 | the token estimate is the length divided by 4, rounded to nearest |
| PdfRoute.ChunkPrompt | app/api/process-pdf/route.js:185-207 | the request for chunk i starts with `[Part i+1/n] ` |
| PdfRoute.Collect | app/api/process-pdf/route.js:185-225 | the chunk loop pools at most one entry per chunk |
| PdfRoute.CollectAborts | app/api/process-pdf/route.js:185-225 | the chunk loop aborts exactly when some call fails |
| PdfRoute.CollectEntries | app/api/process-pdf/route.js:213-224 | every pooled entry is a reply without the sentinel, carrying its relevance score for the question |
| PdfRoute.CollectPools | app/api/process-pdf/route.js:185-225 | when no call fails, the pool is exactly the replies without the sentinel, in chunk order, each with its text, its score for the question and its usage |
| PdfRoute.AbortReportsFirstFailure | app/api/process-pdf/route.js:185-267 | an abort carries the message of the first failing call |
| PdfRoute.PoolKeepsRelevant | app/api/process-pdf/route.js:213-224 | when every reply is relevant, each one is pooled in chunk order with its score and token usage, an absent reply counting as "" |
| PdfRoute.PoolDropsIrrelevant | app/api/process-pdf/route.js:215-224 | when every reply holds the sentinel, nothing is pooled |
| PdfRoute.BestIndex | app/api/process-pdf/route.js:229-237 | the chosen reply has the maximum score and comes before any other with that score |
| PdfRoute.FirstMaxUnique | app/api/process-pdf/route.js:229-237 | only one position is the first maximum |
| PdfRoute.SumTokens | app/api/process-pdf/route.js:241-245 | the totals are 0 with no replies, a single reply's usage for one, and at least every reply's usage |
| PdfRoute.SumTokensAppend | app/api/process-pdf/route.js:241-245 | the totals of a pool split in two are the sums of the totals of the parts |
| PdfRoute.Final | app/api/process-pdf/route.js:248-254 | the answer is trimmed and non-empty: the trimmed text when that is not blank, and exactly the fallback message when it is |
| PdfRoute.Finish | app/api/process-pdf/route.js:227-260 | the route answers with the fixed model and a trimmed, non-empty content |
| PdfRoute.SpecificTakesBest | app/api/process-pdf/route.js:229-260 | a specific question gets the first best reply with that reply's token usage |
| PdfRoute.GeneralMerges | app/api/process-pdf/route.js:238-260 | any other question gets the merged replies with the summed token usage |
| PdfRoute.Process | app/api/process-pdf/route.js:180-267 | once the request is valid, the route either fails with 500 or answers with the fixed model and a trimmed, non-empty content |
| PdfRoute.NothingRelevant | app/api/process-pdf/route.js:248-251 | when every chunk's reply holds the sentinel, the answer is the fallback message with zero tokens |
| PdfRoute.Post | app/api/process-pdf/route.js:145-268 | 413 exactly for content over 200000 characters, checked first; 400 exactly for missing content or question; an answer is trimmed and non-empty |
| PdfRoute.PostAsWritten | app/api/process-pdf/route.js:145-268 | as written: missing or null content gives 500; 413 exactly for content over 200000 characters; 400 exactly for content within the limit when content or question is missing or empty; an answer is trimmed and non-empty |
| PdfRoute.PostAgreesOnText | app/api/process-pdf/route.js:155-178 | the corrected route and the route as written agree whenever the content is a string |
| PdfRoute.MissingDocumentCounterexample | app/api/process-pdf/route.js:155-178 | with the content missing, the route as written fails with 500 where the corrected one gives 400 |
| PdfRoute.RejectionIgnoresChat | app/api/process-pdf/route.js:155-178 | a 413 or 400 rejection happens before any chat call |
| Dom.Children | app/api/scrape-website/route.js:81-178 | children are smaller than their parent, so the walk ends |
| Dom.FindAll | app/api/scrape-website/route.js:107-170 | `find` collects matching descendants in document order, each no bigger than the tree searched |
| Dom.FindAllAppend | app/api/scrape-website/route.js:107-120 | searching a forest searches each tree in turn |
| Dom.FindAllComplete | app/api/scrape-website/route.js:107-120 | every matching node, at any depth, is found |
| Dom.First | app/api/scrape-website/route.js:37-54 | `.first()` gives a node exactly when the search finds one, and that node matches |
| Dom.ForestTextAppend | app/api/scrape-website/route.js:51-61 | the text of a forest is the text of its trees in order |
| Dom.Prune | app/api/scrape-website/route.js:32-34 | removing elements never makes the tree bigger |
| Dom.PruneRemovesAll | app/api/scrape-website/route.js:32-34 | after removal no element matching the removed selectors is left |
| Dom.PruneNothing | app/api/scrape-website/route.js:32-34 | when nothing matches, removal changes nothing |
| Dom.PruneIdempotent | app/api/scrape-website/route.js:32-34 | removing twice is removing once |
| Markdown.Capitalize | app/api/scrape-website/route.js:74 | upper-casing the first letter changes case only |
| Markdown.DomainName | app/api/scrape-website/route.js:65-78 | the input itself when the URL does not parse; "Yahoo Finance" for a host containing finance.yahoo.com; otherwise the host without its first `www.`, up to its first dot, with the first letter upper-cased |
| Markdown.FirstLabel | app/api/scrape-website/route.js:69 | the first part of a split on "." is the text up to its first dot |
| Markdown.ListItems | app/api/scrape-website/route.js:107-120 | each list item found gives one line |
| Markdown.ListItemsLines | app/api/scrape-website/route.js:107-120 | a list renders as one line per item, in order: the bullet, or the item's position counted from 1 and a dot, then the item's markdown and a line feed |
| Markdown.Cells | app/api/scrape-website/route.js:152-157 | each cell gives its own markdown, trimmed, in order |
| Markdown.Rows | app/api/scrape-website/route.js:149-170 | one line per row, and after the first row one more, the delimiter line |
| Markdown.RowsLines | app/api/scrape-website/route.js:149-170 | row k gives line k, or line k + 1 after the delimiter when the table starts there: its `th` and `td` cells, rendered and trimmed, joined by " \| " |
| Markdown.RowsLater | app/api/scrape-website/route.js:149-170 | past the first row, the lines are exactly the rows' own lines |
| Markdown.RowsHead | app/api/scrape-website/route.js:149-170 | the first row's line comes first, and the later rows' lines follow it and the delimiter |
| Markdown.TableDelimiter | app/api/scrape-website/route.js:152-167 | the second line of a table is the delimiter line for the number of cells in its first row |
| Markdown.TableDelimiterAsWritten | app/api/scrape-website/route.js:160-166 | as the route builds it, that line has three cells per cell of the first row |
| Markdown.TableDelimiterCorrected | app/api/scrape-website/route.js:160-166 | with the intended delimiter, that line has one cell per cell of the first row |
| Markdown.RenderWrapped | app/api/scrape-website/route.js:92-144 | a paragraph, heading, bold, italic, quote, code or preformatted element, or an unknown one, renders as its opening marker, its children's markdown and its closing marker, per the tag table `Markdown.Wrap` |
| Markdown.RenderLeaves | app/api/scrape-website/route.js:84-98 | text is kept as it is; comments, `script` and `style` give nothing; `br` gives a line feed |
| Markdown.WalkAppend | app/api/scrape-website/route.js:81-92 | the markdown of a forest is the markdown of its nodes in order |
| Markdown.PlainNodeText | app/api/scrape-website/route.js:84-172 | a tree of text and unstyled elements renders as its text |
| Markdown.PlainForestText | app/api/scrape-website/route.js:84-172 | the same for a forest |
| Markdown.SeparatorAsWrittenCells | app/api/scrape-website/route.js:160-166 | the separator as written has 3n cells for a first row of n cells |
| Markdown.SeparatorCells | app/api/scrape-website/route.js:160-166 | the corrected separator has one cell of three dashes per column |
| Markdown.CollapseRun | app/api/scrape-website/route.js:189-191 | a white-space run with three or more line feeds keeps two of them; otherwise it keeps its line feeds |
| Markdown.Collapse | app/api/scrape-website/route.js:189-191 | the text's first visible character stays first |
| Markdown.CollapseAfterRun | app/api/scrape-website/route.js:189-191 | collapsing works run by run |
| Markdown.CollapseIdempotent | app/api/scrape-website/route.js:189-191 | collapsing twice is collapsing once |
| Markdown.CollapseKeepsContent | app/api/scrape-website/route.js:189-191 | collapsing removes white space only |
| Markdown.WithTitle | app/api/scrape-website/route.js:195 | a non-empty title gives `# title`, a blank line, then the text; an empty title leaves the text as it is |
| Markdown.Truncate | app/api/scrape-website/route.js:198-209 | text of at most 100000 characters is kept; longer text is cut to its first 100000 characters followed by the truncation note |
| Markdown.TruncateIdempotent | app/api/scrape-website/route.js:198-209 | truncating twice is truncating once |
| ScrapeRoute.SelectorTitle | app/api/scrape-website/route.js:37-54 | a title is found exactly when some title selector matches, and it is trimmed |
| ScrapeRoute.SelectorTitlePriority | app/api/scrape-website/route.js:37-54 | the first selector that matches decides the title, even when its text is empty |
| ScrapeRoute.Title | app/api/scrape-website/route.js:37-62 | a non-empty selector title wins; otherwise the Open Graph title, then the Twitter title, each only when non-empty; otherwise the text of the `title` elements |
| ScrapeRoute.TitleFallback | app/api/scrape-website/route.js:57-62 | when the selectors give no title or an empty one and there is no meta title, the title is the text of the `title` elements |
| ScrapeRoute.MainContent | app/api/scrape-website/route.js:181-187 | the main-content matches when there are any, otherwise the `body` elements; elements only |
| ScrapeRoute.WalkContents | app/api/scrape-website/route.js:181-189 | the text walked is the children of every selected element, in order, each element's children walked on their own |
| ScrapeRoute.BodyText | app/api/scrape-website/route.js:189-192 | the body text is trimmed |
| ScrapeRoute.Scrape | app/api/scrape-website/route.js:189-209 | the content is the body text, under `# title` and a blank line when the page has a title, kept whole up to 100000 characters and otherwise cut to its first 100000 followed by the truncation note; tables get the delimiter line as the route builds it |
| ScrapeRoute.TitledContent | app/api/scrape-website/route.js:195-209 | the heading and the length limit, spelled out over the title and the body |
| ScrapeRoute.ScrapeIgnoresUnwanted | app/api/scrape-website/route.js:32-34 | the content of a page does not depend on its unwanted elements |
| ScrapeRoute.UntitledPage | app/api/scrape-website/route.js:195-209 | an untitled page gives its truncated body text alone |
| ScrapeRoute.Post | app/api/scrape-website/route.js:4-216 | 400 exactly for a missing or unparseable URL, with its message; 500 for a failed fetch; content exactly when the fetch succeeds |
| ScrapeRoute.RejectionIgnoresFetch | app/api/scrape-website/route.js:8-20 | a bad URL is rejected before any fetch |
| RateLimit.New | lib/rate-limit.js:1-3 | a limiter starts with no windows |
| RateLimit.CallerKey | lib/rate-limit.js:7 | the caller is the forwarded-for header, or "anonymous" without one |
| RateLimit.Check | lib/rate-limit.js:7-30 | refused exactly inside an open window with nothing left; a first or expired window opens with `limit - 1` left; otherwise one is taken; other callers' windows are unchanged |
| RateLimit.ExpiredIsForgotten | lib/rate-limit.js:16-22 | a window older than the interval acts as if there were none |
| RateLimit.WindowBudget | lib/rate-limit.js:24-30 | within one window, as many calls succeed as were left, and no more |
| RateLimit.AtMostLimitPerWindow | lib/rate-limit.js:10-30 | with a limit of at least 1, at most `limit` calls succeed in one window |
| RateLimit.NonPositiveLimitNeverRefuses | lib/rate-limit.js:10-30 | with a limit of 0 or less, no call is refused |
| RateLimit.NegativeNeverRefuses | lib/rate-limit.js:24-30 | a window left negative never refuses |
| SearchSummaries.Lookup | components/ContentDisplay.jsx:176 | a summary is used only when it is a non-empty string of one of the four platforms |
| SearchSummaries.LineAt | app/api/generate/route.js:105-120 | `[^\n]+` takes the text up to the first line feed |
| SearchSummaries.Capture | app/api/generate/route.js:105-120 | the pattern matches only where the label occurs; the capture is one non-empty line |
| SearchSummaries.CaptureOfLine | app/api/generate/route.js:105-120 | a label followed by white space and a line captures that line, even across line feeds |
| SearchSummaries.LabelValue | app/api/generate/route.js:105-120 | a label's value is the trimmed capture when it is not blank |
| SearchSummaries.FirstWords | app/api/generate/route.js:112-113 | the text up to its n-th space, or all of it when it has fewer spaces; empty for n = 0 |
| SearchSummaries.WikiWords | app/api/generate/route.js:108-111 | empty without a capture or with a blank one; otherwise words joined by single spaces that split back into the first three white-space separated words of the trimmed capture |
| SearchSummaries.SplitJoinWords | app/api/generate/route.js:108-111 | words without white space, joined by single spaces, split back into the same words |
| SearchSummaries.Parse | app/api/generate/route.js:103-121 | each label's value wins (for Wikipedia, its first three words); a missing one falls back to exactly the first 100 (Google) or 50 (YouTube, Amazon) characters of the content, or the content up to its third space (Wikipedia) |
| SearchSummaries.UnlabelledReply | app/api/generate/route.js:103-121 | a reply with no labels gives all four fallbacks |
| Conversations.FormatParagraph | app/page.js:94-113 | a list paragraph gets `**` in front and `**` right after the full stop of its marker (`<digits>.` becomes `**<digits>.**`), the rest kept; a heading is wrapped in `**`; any other paragraph is unchanged |
| Conversations.FormatAnswer | app/page.js:93-113 | formatting only adds asterisks, and the formatted answer has the same paragraphs, each formatted on its own |
| Conversations.WordCount | app/page.js:464-468 | the word count is the number of runs of non-white-space characters in the trimmed text, with 1 for blank text |
| Conversations.ConversationCounts | app/page.js:508-517 | zero counts exactly with no conversation; otherwise the word count and the length of the last answer |
| Conversations.IsNewConversation | app/page.js:127 | a prompt mentioning `follow-up` or `FOLLOW-UP` never starts a new conversation |
| Conversations.NewConversationIgnoresCase | app/page.js:127-130 | whether a prompt starts a new conversation does not depend on its case |
| Conversations.Pending | app/page.js:127-130 | while the request is out, a new conversation's list is empty and a follow-up's is unchanged |
| Conversations.Generate | app/page.js:126-164 | a failed request leaves the pending list: nothing for a new conversation, the old entries for a follow-up; a reply appends its entry to the pending list |
| Conversations.GenerateOutcomes | app/page.js:126-164 | a reply extends exactly the list a failure would have left, by its one entry |
| Conversations.AfterGenerate | app/page.js:127-156 | a new conversation holds only the new answer; a follow-up prompt keeps the old entries |
| Conversations.AfterPdfAnswer | app/page.js:116-123 | the formatted PDF answer is appended without summaries and says what the answer says |
| Conversations.FollowUpPrompt | app/page.js:237-251 | no request for an empty follow-up; the request starts with the conversation and ends with the question |
| Conversations.FollowUpQuotesAll | app/page.js:241-251 | the follow-up request quotes every earlier question and answer |
| Conversations.AfterFollowUp | app/page.js:256-263 | the follow-up answer is appended and the rest kept |
| Conversations.WithResponse | app/page.js:859-866 | saving an edited answer changes only that answer |
| Conversations.WithQuestion | app/page.js:453-458 | replacing a question changes only that question |
| Conversations.CancelEdit | app/page.js:402-411 | cancelling an answer edit puts the saved answer into that entry and changes nothing else |
| Conversations.CancelPromptEdit | app/page.js:453-462 | cancelling a question edit puts the saved question into that entry and changes nothing else |
| Conversations.CancelRestores | app/page.js:393-462 | cancelling an answer or question edit gives back the conversation as it was |
| Conversations.SavePromptEdit | app/page.js:431-437 | saving an edited question drops the later entries and the entry's summaries, and keeps the earlier ones |
| ContentOperations.ToFarsi | components/ContentDisplay.jsx:47-50 | each ASCII digit becomes the Farsi digit of the same value; other characters are kept |
| ContentOperations.FarsiRoundTrip | components/ContentDisplay.jsx:47-50 | no ASCII digit is left, and mapping back restores any text without Farsi digits |
| ContentOperations.FarsiNumeral | components/ContentDisplay.jsx:47-50 | a number becomes a non-empty string of Farsi digits |
| ContentOperations.FarsiNumeralRoundTrip | components/ContentDisplay.jsx:47-50 | reading the Farsi digits back gives the number |
| ContentOperations.LatestIndex | components/ContentDisplay.jsx:155-156 | the stable descending sort puts first the earliest operation with the latest timestamp |
| ContentOperations.LatestUnique | components/ContentDisplay.jsx:155-156 | only one operation is latest |
| ContentOperations.LatestContent | components/ContentDisplay.jsx:151-158 | the original response without operations; otherwise the latest operation's text |
| ContentOperations.LatestLanguage | components/ContentDisplay.jsx:160-169 | none without operations; otherwise the latest operation's language when it is a translation, and none when it is not |
| ContentOperations.AddSummary | components/ContentDisplay.jsx:233-249 | a non-empty summary appends exactly one summary operation, in the language that was shown, and keeps the others; an empty one adds nothing |
| ContentOperations.AddTranslation | components/ContentDisplay.jsx:340-348 | a translation appends exactly one translation operation, in the target language, and keeps the others |
| ContentOperations.SaveEdit | components/ContentDisplay.jsx:262-270 | saving appends exactly one edit carrying the current latest language |
| ContentOperations.NewestShown | components/ContentDisplay.jsx:151-169 | an operation newer than all others becomes the latest |
| ContentOperations.LastOperationShown | components/ContentDisplay.jsx:151-270 | a new translation is shown with its language; a saved edit or a new summary is shown with no language |
| ContentOperations.RemoveAt | components/ContentDisplay.jsx:723-727 | removal keeps exactly the operations with another timestamp |
| ContentOperations.RemoveAtCount | components/ContentDisplay.jsx:723-727 | it removes one operation per match, and none when nothing matches |
| ContentOperations.RemoveAtAppend | components/ContentDisplay.jsx:723-727 | removal keeps the order of what remains |
| ContentOperations.RemoveAtIdempotent | components/ContentDisplay.jsx:723-727 | removing twice is removing once |
| ContentOperations.NoneAt | components/ContentDisplay.jsx:723-727 | nothing with that timestamp is left |
| ContentOperations.SearchQuery | components/ContentDisplay.jsx:172-192 | a stored summary wins; otherwise a prefix of the latest content: for Wikipedia the text up to its third space, or all of it with fewer spaces; the first 50 characters for YouTube and Amazon; the first 100 for anything else |
| ContentOperations.QueriesMatchFallbacks | components/ContentDisplay.jsx:172-192 | without stored summaries the query is the generation route's fallback for that platform |
| Sorting.InsertSorted | components/ContentDisplay.jsx:298-300 | inserting into a sorted list keeps it sorted |
| Sorting.InsertPermutes | components/ContentDisplay.jsx:298-300 | inserting adds exactly the one element |
| Sorting.SortBy | components/ContentDisplay.jsx:298-300 | the sort is a sorted permutation |
| Sorting.SortStable | components/ContentDisplay.jsx:298-300 | the sort is stable: elements with equal keys keep their order |
| Sorting.Filter | components/ContentDisplay.jsx:289-292 | every element a filter keeps passes it, and it keeps no more elements than it is given |
| Sorting.FilterMembers | components/ContentDisplay.jsx:289-292 | every element kept comes from the input, and every element of the input that passes is kept |
| Sorting.FilterPartition | components/ContentDisplay.jsx:289-292 | each element passes or fails, never both |
| Sorting.FilterCount | components/ContentDisplay.jsx:289-292 | a filter keeps every passing element as many times as it occurs, and no other |
| Sorting.FilterAppend | components/ContentDisplay.jsx:289-292 | filtering keeps the order |
| TextStats.Clean | components/ContentDisplay.jsx:289 | a cleaned word has no punctuation and no capital letter |
| TextStats.Counted | components/ContentDisplay.jsx:288-296 | exactly the cleaned words longer than two characters are counted, each as many times as it occurs |
| TextStats.Bump | components/ContentDisplay.jsx:292 | one occurrence adds one to its own word's count and leaves the others, or adds an entry with count 1 at the end |
| TextStats.BumpNew | components/ContentDisplay.jsx:292 | the entry is added exactly when the word has none yet |
| TextStats.BumpDistinct | components/ContentDisplay.jsx:292 | the words of the entries stay distinct |
| TextStats.Tally | components/ContentDisplay.jsx:288-296 | one entry per distinct word, whose count is how often it occurs |
| TextStats.TallyAsWritten | components/ContentDisplay.jsx:288-296 | as written, the tally has at most one property per word, each named by a word of the text, and none named `__proto__` |
| TextStats.TallyAsWrittenAgrees | components/ContentDisplay.jsx:288-296 | the tally as written agrees with the correct one unless a word is `constructor` or `__proto__` |
| TextStats.PrototypeWordsMiscounted | components/ContentDisplay.jsx:288-296 | `constructor` twice counts as a string, and `__proto__` is never counted |
| TextStats.Entries | components/ContentDisplay.jsx:298 | `Object.entries` is a permutation: integer-like keys first in ascending order, then the rest in insertion order |
| TextStats.TopWords | components/ContentDisplay.jsx:287-305 | at most ten distinct counted words, counts non-increasing and true; a word left out is outnumbered by all ten listed |
| TextStats.SpaceCount | components/ContentDisplay.jsx:285 | `split(" ").length - 1` is the number of U+0020 characters |
| TextStats.Calculate | components/ContentDisplay.jsx:282-305 | characters are the length; spaces the U+0020 count; words the page's word count; the top words as above |

## Left out

- The OpenAI calls are not modelled. The chat-completion service of the PDF route is a parameter. The generation, summary and translation calls are represented only by the text they return.
- `fetch`, the HTML parser and `new URL` are not modelled. The page is given as a parsed tree, and the host name as a function of the URL.
- Dom.FindAll: selector matching covers the forms the route uses (tag, class, id, attribute value, tag lists). The main-content lookup is a union selector, and its results are in document order of the whole forest.
- Request bodies are given as already-parsed fields. JSON parsing and the 500 for a body that is not JSON are not modelled.
- React state, rendering, local storage, the clipboard, `window.open`, PDF export and PDF text extraction are UI and I/O and are not modelled.
- The word density in `calculateStats` is a floating-point `toFixed` value and is not modelled.
- `toLowerCase` and `toUpperCase` are ASCII only. Full Unicode case mapping is left out.
- Lengths and positions count Unicode scalar values, where JavaScript counts UTF-16 code units. A character outside the Basic Multilingual Plane, such as an emoji, counts 1 here and 2 in the source, and a JavaScript slice can cut it in half. For text holding such characters the following do not give the source's numbers: the chunk boundaries of `PdfChunks.SplitIntoChunks`; the 200000-character limit of `PdfRoute.Post` and `PdfRoute.PostAsWritten`; `PdfRoute.EstimatedTokens`; the 100000-character cut of `Markdown.Truncate` and `ScrapeRoute.Scrape`; the character counts of `Conversations.ConversationCounts` and `TextStats.Calculate`; the 50- and 100-character fallbacks of `SearchSummaries.Parse` and `ContentOperations.SearchQuery`.
- PdfRoute.GroupDigitsRoundTrip: it states the en-US grouping of `toLocaleString` only. Other locales are not modelled.
- PdfChunks.SplitIntoChunks: requires `maxTokens > 0`. With 0 the source's loop never ends. The route always passes 3000.
- Conversations.WithResponse, Conversations.WithQuestion, Conversations.CancelEdit, Conversations.CancelPromptEdit, Conversations.SavePromptEdit: require the index to be that of an existing entry. The page calls them only from an entry's own buttons.
- The rate limiter's `uniqueTokenPerInterval` option is unused by the source and is not modelled. Its `async` is not modelled either, since no concurrency is involved.
- The formatter duplicated at `components/ContentDisplay.jsx:507-526` is the same function as `Conversations.FormatParagraph` and is not modelled again.
- Operation ids, the loading sets, and cancelling or aborting a translation are UI state and are not modelled.
- ScrapeRoute.Scrape: the walk it uses builds the table delimiter line as the route does, with three cells per column (see Findings). The intended line is `Markdown.Separator`; `Markdown.TableDelimiterCorrected` states what it gives.
- TextStats.Calculate: the top words come from the tally of `TextStats.Tally`, which counts every word. As written, the count of "constructor" becomes a string, so the comparator of the sort subtracts a string from numbers and gets NaN, and the order is implementation-defined. That order is not modelled. `TextStats.TallyAsWrittenAgrees` shows the two tallies agree on texts without such words.
- TextStats.TopWords: the same as for `TextStats.Calculate`.
- `convertToFarsiNumbers` is defined but never called in the file. It is still modelled, as `ContentOperations.ToFarsi` and `ContentOperations.FarsiNumeral`.

Notes on the code:

- Question terms are counted with repeats, as the code does: a term that appears twice in the question adds 2 twice.
- A saved edit records the current language, but `getLatestLanguage` reports a language only for a translation. So after any edit, and after any summary, the latest language is null. `ContentOperations.LastOperationShown` states this.
- A stored search summary is used only when it is a non-empty string. The empty string falls back like a missing one.

## Findings

| source | as written | input that shows it | evidently intended | confidence | as-written member | corrected member |
|---|---|---|---|---|---|---|
| app/api/process-pdf/route.js:155-178 | reads `pdfContent.length` before the missing-field check | a body without `pdfContent` | 400 "PDF content and question are required" | not executed; the 500 comes from the TypeError the catch turns into "Failed to process PDF: …" | PdfRoute.MissingDocumentCounterexample | PdfRoute.Post |
| app/api/scrape-website/route.js:160-166 | the delimiter line repeats `-` `3 * n` times, splits that string into its characters and joins them, giving `3 * n` cells of one dash | a table whose first row has 2 cells | one `---` cell per column, here `--- \| ---` | not executed | Markdown.TableDelimiterAsWritten | Markdown.TableDelimiterCorrected |
| components/ContentDisplay.jsx:288-296 | counts words in a plain `{}` object, so a word can collide with a property `Object.prototype` already has | the text "constructor constructor", and any text holding "__proto__" | "constructor" counted 2, "__proto__" counted like any other word | not executed; "constructor" becomes the string "function Object() { [native code] }11", and assigning to "__proto__" is ignored | TextStats.PrototypeWordsMiscounted | TextStats.TallyAsWrittenAgrees |

=== FILE: conversations.dfy ===
/**
 The conversation the main page keeps: the list of questions and answers, how an answer
 to a question about a PDF is formatted, the word and character counts, the follow-up
 prompt, and the edits a user can make and cancel.
 */
module Conversations {
  import opened Wrappers
  import opened Strings
  import opened PdfMerge
  import opened SearchSummaries

  /** One question and its answer, with the search summaries that came with it, if any. */
  datatype Entry = Entry(question: string, response: string, summaries: Option<Summaries>)

  /** The saved question and answer an edit can be cancelled back to. */
  datatype Original = Original(question: string, response: string)

  datatype Counts = Counts(words: nat, chars: nat)

  const PARAGRAPH_BREAK: string := "\n\n"
  const FOLLOW_UP_MARK: string := "follow-up"

  // ---------------------------------------------------------------------------
  // Formatting an answer about a PDF
  // ---------------------------------------------------------------------------

  predicate IsStar(c: char) {
    c == '*'
  }

  /** The paragraph reads as a heading: no lower-case letter, or a final colon. */
  predicate IsHeading(p: string) {
    ToUpper(p) == p || EndsWith(p, ":")
  }

  /**
   One paragraph: a paragraph starting with a list marker gets its number and full stop
   in bold; otherwise a heading is put in bold whole; anything else is kept.
   */
  function FormatParagraph(p: string): (r: string)
    ensures ItemLen(p) > 0 ==> StartsWith(r, "**") && EndsWith(r, p[ItemLen(p) - 1..])
    ensures ItemLen(p) == 0 && IsHeading(p) ==> StartsWith(r, "**") && EndsWith(r, "**")
    ensures r == p <==> ItemLen(p) == 0 && !IsHeading(p)
    ensures r != p ==> |r| == |p| + 4
    ensures ItemLen(p) > 0 ==> r[..ItemLen(p) + 3] == "**" + p[..ItemLen(p) - 1] + "**"
  {
    var k := ItemLen(p);
    if k > 0 then "**" + p[..k - 1] + "**" + p[k - 1..]
    else if IsHeading(p) then "**" + p + "**"
    else p
  }

  function FormatAll(ps: seq<string>): (rs: seq<string>)
    ensures |rs| == |ps|
    ensures forall k :: 0 <= k < |ps| ==> rs[k] == FormatParagraph(ps[k])
    decreases |ps|
  {
    if |ps| == 0 then [] else [FormatParagraph(ps[0])] + FormatAll(ps[1..])
  }

  /**
   The answer split into paragraphs at blank lines, each formatted, and joined again. It
   differs from the answer received only in asterisks, and it has the same paragraphs,
   each formatted on its own.
   */
  function FormatAnswer(content: string): (r: string)
    ensures Remove(r, IsStar) == Remove(content, IsStar)
    ensures Split(r, PARAGRAPH_BREAK) == FormatAll(Split(content, PARAGRAPH_BREAK))
  {
    var r := Join(PARAGRAPH_BREAK, FormatAll(Split(content, PARAGRAPH_BREAK)));
    FormattedKeepsText(content, r);
    FormattedParagraphs(content, r);
    r
  }

  /** Formatting a paragraph only adds asterisks. */
  lemma FormatKeepsText(p: string)
    ensures Remove(FormatParagraph(p), IsStar) == Remove(p, IsStar)
  {
    var k := ItemLen(p);
    if k > 0 {
      var a, b := p[..k - 1], p[k - 1..];
      assert p == a + b;
      StarsAround(a, b, FormatParagraph(p));
    } else if IsHeading(p) {
      assert p == p + "";
      StarsAround(p, "", FormatParagraph(p));
    }
  }

  /** Bold markers put around `a` add nothing but asterisks. */
  lemma StarsAround(a: string, b: string, r: string)
    requires r == "**" + a + "**" + b
    ensures Remove(r, IsStar) == Remove(a + b, IsStar)
  {
    var stars := "**";
    RemoveAll(stars, IsStar);
    var x := stars + a;
    RemoveAppend(stars, a, IsStar);
    assert Remove(x, IsStar) == Remove(a, IsStar);
    var y := x + stars;
    RemoveAppend(x, stars, IsStar);
    assert Remove(y, IsStar) == Remove(a, IsStar);
    RemoveAppend(y, b, IsStar);
    RemoveAppend(a, b, IsStar);
  }

  /** When corresponding parts differ only in asterisks, so do their joins. */
  lemma {:induction false} JoinKeepsText(sep: string, xs: seq<string>, ys: seq<string>)
    requires |xs| == |ys|
    requires forall k :: 0 <= k < |xs| ==> Remove(xs[k], IsStar) == Remove(ys[k], IsStar)
    ensures Remove(Join(sep, xs), IsStar) == Remove(Join(sep, ys), IsStar)
    decreases |xs|
  {
    if |xs| > 1 {
      JoinKeepsText(sep, xs[1..], ys[1..]);
      var x, y := Join(sep, xs[1..]), Join(sep, ys[1..]);
      RemoveAppend(xs[0] + sep, x, IsStar);
      RemoveAppend(xs[0], sep, IsStar);
      RemoveAppend(ys[0] + sep, y, IsStar);
      RemoveAppend(ys[0], sep, IsStar);
    }
  }

  /** Formatting an answer only adds asterisks: with them removed it is the answer as received. */
  lemma FormattedKeepsText(content: string, r: string)
    requires r == Join(PARAGRAPH_BREAK, FormatAll(Split(content, PARAGRAPH_BREAK)))
    ensures Remove(r, IsStar) == Remove(content, IsStar)
  {
    var parts := Split(content, PARAGRAPH_BREAK);
    forall k | 0 <= k < |parts| ensures Remove(FormatAll(parts)[k], IsStar) == Remove(parts[k], IsStar) {
      FormatKeepsText(parts[k]);
    }
    JoinKeepsText(PARAGRAPH_BREAK, FormatAll(parts), parts);
    JoinSplit(content, PARAGRAPH_BREAK);
  }

  /** No blank line inside. */
  predicate Breakless(p: string) {
    forall i :: 0 <= i < |p| - 1 ==> !(p[i] == '\n' && p[i + 1] == '\n')
  }

  /** What a split at blank lines leaves of a paragraph: no blank line, and no final line feed unless it is the last. */
  predicate IsParagraph(p: string, last: bool) {
    Breakless(p) && (last || |p| == 0 || p[|p| - 1] != '\n')
  }

  lemma BreaklessIff(p: string)
    ensures Breakless(p) <==> !Contains(p, PARAGRAPH_BREAK)
  {
    if !Breakless(p) {
      var i :| 0 <= i < |p| - 1 && p[i] == '\n' && p[i + 1] == '\n';
      assert p[i..i + 2] == PARAGRAPH_BREAK;
      assert OccursAt(p, PARAGRAPH_BREAK, i);
    }
    if Contains(p, PARAGRAPH_BREAK) {
      ContainsIff(p, PARAGRAPH_BREAK);
      var i: nat :| OccursAt(p, PARAGRAPH_BREAK, i);
      assert p[i..i + 2][0] == p[i] && p[i..i + 2][1] == p[i + 1];
    }
  }

  lemma BreaklessAppend(a: string, b: string)
    requires Breakless(a) && Breakless(b)
    requires |a| == 0 || |b| == 0 || a[|a| - 1] != '\n' || b[0] != '\n'
    ensures Breakless(a + b)
  {
    var s := a + b;
    forall i | 0 <= i < |s| - 1 ensures !(s[i] == '\n' && s[i + 1] == '\n') {
      if i + 1 < |a| {
        assert s[i] == a[i] && s[i + 1] == a[i + 1];
      } else if i >= |a| {
        assert s[i] == b[i - |a|] && s[i + 1] == b[i + 1 - |a|];
      }
    }
  }

  /** The parts of a split at blank lines are paragraphs. */
  lemma SplitParagraphs(content: string, k: nat)
    requires k < |Split(content, PARAGRAPH_BREAK)|
    ensures IsParagraph(Split(content, PARAGRAPH_BREAK)[k], k == |Split(content, PARAGRAPH_BREAK)| - 1)
  {
    var parts := Split(content, PARAGRAPH_BREAK);
    var p := parts[k];
    SplitSplittable(content, PARAGRAPH_BREAK);
    BreaklessIff(p);
    if k < |parts| - 1 && |p| > 0 {
      assert NoEarlySeparator(p, PARAGRAPH_BREAK);
      assert !OccursAt(p + PARAGRAPH_BREAK, PARAGRAPH_BREAK, |p| - 1);
      assert (p + PARAGRAPH_BREAK)[|p| - 1..|p| + 1] == [p[|p| - 1], '\n'];
    }
  }

  /** A paragraph stays one when formatted. */
  lemma FormatKeepsParagraph(p: string, last: bool)
    requires IsParagraph(p, last)
    ensures IsParagraph(FormatParagraph(p), last)
  {
    var k := ItemLen(p);
    assert Breakless("**");
    if k > 0 {
      var a, b := p[..k - 1], p[k - 1..];
      ItemDigits(p);
      assert forall i :: 0 <= i < |a| ==> a[i] != '\n';
      assert Breakless(a);
      assert Breakless(b) by {
        forall i | 0 <= i < |b| - 1 ensures !(b[i] == '\n' && b[i + 1] == '\n') {
          assert b[i] == p[k - 1 + i] && b[i + 1] == p[k + i];
        }
      }
      BreaklessAppend("**", a);
      BreaklessAppend("**" + a, "**");
      BreaklessAppend("**" + a + "**", b);
      assert |b| > 0 && b[|b| - 1] == p[|p| - 1];
    } else if IsHeading(p) {
      BreaklessAppend("**", p);
      BreaklessAppend("**" + p, "**");
    }
  }

  /** A paragraph that is not the last can be followed by a blank line without moving the split. */
  lemma ParagraphNoEarlyBreak(p: string)
    requires IsParagraph(p, false)
    ensures NoEarlySeparator(p, PARAGRAPH_BREAK)
  {
    var s := p + PARAGRAPH_BREAK;
    forall j | 0 <= j < |p| ensures !OccursAt(s, PARAGRAPH_BREAK, j) {
      assert s[j..j + 2] == [s[j], s[j + 1]];
      assert s[j] == p[j];
      assert j + 1 < |p| ==> s[j + 1] == p[j + 1];
    }
  }

  /**
   The formatted answer has the same paragraphs as the answer received: splitting it at
   blank lines gives back each received paragraph, formatted, and so as many of them.
   */
  lemma FormattedParagraphs(content: string, r: string)
    requires r == Join(PARAGRAPH_BREAK, FormatAll(Split(content, PARAGRAPH_BREAK)))
    ensures Split(r, PARAGRAPH_BREAK) == FormatAll(Split(content, PARAGRAPH_BREAK))
  {
    var parts := Split(content, PARAGRAPH_BREAK);
    var formatted := FormatAll(parts);
    forall k | 0 <= k < |formatted| ensures !Contains(formatted[k], PARAGRAPH_BREAK) {
      SplitParagraphs(content, k);
      FormatKeepsParagraph(parts[k], k == |parts| - 1);
      BreaklessIff(formatted[k]);
    }
    forall k | 0 <= k < |formatted| - 1 ensures NoEarlySeparator(formatted[k], PARAGRAPH_BREAK) {
      SplitParagraphs(content, k);
      FormatKeepsParagraph(parts[k], false);
      ParagraphNoEarlyBreak(formatted[k]);
    }
    SplitJoin(formatted, PARAGRAPH_BREAK);
  }

  // ---------------------------------------------------------------------------
  // Counts
  // ---------------------------------------------------------------------------

  /**
   `text.trim().split(/\s+/).length`: the number of words, that is of runs of
   non-white-space characters, except that blank text counts as one.
   */
  function WordCount(text: string): (n: nat)
    ensures n >= 1
    ensures n == if Trim(text) == "" then 1 else RunStarts(Trim(text), IsJsSpace, true)
  {
    var t := Trim(text);
    if t == "" then |SplitSpaces(t)|
    else
      SplitRunsCount(t, IsJsSpace);
      |SplitSpaces(t)|
  }

  /** The counts shown for a conversation: those of its last answer, or zero when there is none. */
  function ConversationCounts(convs: seq<Entry>): (c: Counts)
    ensures |convs| == 0 <==> c == Counts(0, 0)
    ensures |convs| > 0 ==> c.chars == |convs[|convs| - 1].response|
    ensures |convs| > 0 ==> c.words == WordCount(convs[|convs| - 1].response)
  {
    if |convs| == 0 then Counts(0, 0)
    else
      var last := convs[|convs| - 1].response;
      Counts(WordCount(last), |last|)
  }

  // ---------------------------------------------------------------------------
  // Asking and following up
  // ---------------------------------------------------------------------------

  /** A prompt that does not mention a follow-up, in any case, starts a new conversation. */
  predicate IsNewConversation(prompt: string)
    ensures Contains(prompt, FOLLOW_UP_MARK) ==> !IsNewConversation(prompt)
    ensures Contains(prompt, "FOLLOW-UP") ==> !IsNewConversation(prompt)
  {
    ContainsLower(prompt, FOLLOW_UP_MARK);
    ContainsLower(prompt, "FOLLOW-UP");
    assert ToLower(FOLLOW_UP_MARK) == FOLLOW_UP_MARK;
    assert ToLower("FOLLOW-UP") == FOLLOW_UP_MARK;
    !Contains(ToLower(prompt), FOLLOW_UP_MARK)
  }

  /** Whether a prompt starts a new conversation does not depend on the case it is typed in. */
  lemma NewConversationIgnoresCase(prompt: string)
    ensures IsNewConversation(ToUpper(prompt)) == IsNewConversation(prompt)
  {
    LowerOfUpper(prompt);
  }

  /**
   The list while a generate request is out: a prompt that starts a new conversation
   clears it before the request is sent, a follow-up keeps it.
   */
  function Pending(convs: seq<Entry>, prompt: string): (r: seq<Entry>)
    ensures IsNewConversation(prompt) ==> r == []
    ensures !IsNewConversation(prompt) ==> r == convs
  {
    if IsNewConversation(prompt) then [] else convs
  }

  /** What a successful generate request returns: the content and the search summaries. */
  datatype Reply = Reply(content: string, summaries: Option<Summaries>)

  /**
   The list once a generate request ends. A reply adds its entry to the pending list; a
   failure (an error status, or a request that throws) leaves the pending list as it is,
   so a failed request for a new conversation leaves no entry at all.
   */
  function Generate(convs: seq<Entry>, prompt: string, reply: Option<Reply>): (r: seq<Entry>)
    ensures reply.None? && IsNewConversation(prompt) ==> r == []
    ensures reply.None? && !IsNewConversation(prompt) ==> r == convs
    ensures reply.Some? ==> |r| >= 1 && r[..|r| - 1] == Pending(convs, prompt)
    ensures reply.Some? ==> r[|r| - 1] == Entry(prompt, reply.value.content, reply.value.summaries)
  {
    match reply
    case None => Pending(convs, prompt)
    case Some(Reply(content, summaries)) => AfterGenerate(convs, prompt, content, summaries)
  }

  /** A reply extends exactly the list a failure would have left. */
  lemma GenerateOutcomes(convs: seq<Entry>, prompt: string, reply: Reply)
    ensures Generate(convs, prompt, Some(reply)) == Generate(convs, prompt, None) + [Entry(prompt, reply.content, reply.summaries)]
  {
    var r := Generate(convs, prompt, Some(reply));
    assert r == r[..|r| - 1] + [r[|r| - 1]];
  }

  /** After a generated answer: a new conversation holds just that answer; a follow-up is appended. */
  function AfterGenerate(convs: seq<Entry>, prompt: string, content: string, summaries: Option<Summaries>): (r: seq<Entry>)
    ensures |r| >= 1 && r[|r| - 1] == Entry(prompt, content, summaries)
    ensures r[..|r| - 1] == if IsNewConversation(prompt) then [] else convs
  {
    (if IsNewConversation(prompt) then [] else convs) + [Entry(prompt, content, summaries)]
  }

  /** After an answer about a PDF: the formatted answer is appended, without summaries. */
  function AfterPdfAnswer(convs: seq<Entry>, prompt: string, content: string): (r: seq<Entry>)
    ensures |r| == |convs| + 1 && r[|convs|].summaries.None?
    ensures r[..|convs|] == convs
    ensures Remove(r[|convs|].response, IsStar) == Remove(content, IsStar)
  {
    convs + [Entry(prompt, FormatAnswer(content), None)]
  }

  /** One question and answer as the follow-up prompt quotes it. */
  function Quote(e: Entry): string {
    "Question: " + e.question + "\nResponse: " + e.response
  }

  function Quotes(convs: seq<Entry>): (qs: seq<string>)
    ensures |qs| == |convs|
    ensures forall k :: 0 <= k < |convs| ==> qs[k] == Quote(convs[k])
    decreases |convs|
  {
    if |convs| == 0 then [] else [Quote(convs[0])] + Quotes(convs[1..])
  }

  /**
   The prompt sent for a follow-up question: the whole conversation quoted, then the
   question. There is none for an empty question.
   */
  function FollowUpPrompt(convs: seq<Entry>, followUp: string): (r: Option<string>)
    ensures r.None? <==> followUp == ""
    ensures r.Some? ==> StartsWith(r.value, "Previous conversation:\n") && EndsWith(r.value, followUp)
  {
    if followUp == "" then None
    else
      var prompt := "Previous conversation:\n" + Join(PARAGRAPH_BREAK, Quotes(convs)) + ("\n\nFollow-up question: " + followUp);
      assert prompt[|prompt| - |followUp|..] == followUp;
      Some(prompt)
  }

  /** The follow-up prompt quotes every earlier question and answer. */
  lemma FollowUpQuotesAll(convs: seq<Entry>, followUp: string, k: nat)
    requires followUp != "" && k < |convs|
    ensures Contains(FollowUpPrompt(convs, followUp).value, Quote(convs[k]))
  {
    var context := Join(PARAGRAPH_BREAK, Quotes(convs));
    JoinHasPart(PARAGRAPH_BREAK, Quotes(convs), k);
    ContainsInMiddle("Previous conversation:\n", context, "\n\nFollow-up question: " + followUp, Quote(convs[k]));
  }

  /** After a follow-up answer: appended to the conversation. */
  function AfterFollowUp(convs: seq<Entry>, followUp: string, content: string, summaries: Option<Summaries>): (r: seq<Entry>)
    ensures |r| == |convs| + 1 && r[..|convs|] == convs
    ensures r[|convs|] == Entry(followUp, content, summaries)
  {
    convs + [Entry(followUp, content, summaries)]
  }

  // ---------------------------------------------------------------------------
  // Edits
  // ---------------------------------------------------------------------------

  /**
   Entry `index` with its answer replaced, as saving an edited answer and cancelling an
   edit do; every other entry, and every other field, is kept.
   */
  function WithResponse(convs: seq<Entry>, index: nat, response: string): (r: seq<Entry>)
    requires index < |convs|
    ensures |r| == |convs|
    ensures r[index].response == response
    ensures r[index].question == convs[index].question && r[index].summaries == convs[index].summaries
    ensures forall k :: 0 <= k < |convs| && k != index ==> r[k] == convs[k]
  {
    convs[index := convs[index].(response := response)]
  }

  /** Entry `index` with its question replaced, as cancelling a question edit does. */
  function WithQuestion(convs: seq<Entry>, index: nat, question: string): (r: seq<Entry>)
    requires index < |convs|
    ensures |r| == |convs|
    ensures r[index].question == question
    ensures r[index].response == convs[index].response && r[index].summaries == convs[index].summaries
    ensures forall k :: 0 <= k < |convs| && k != index ==> r[k] == convs[k]
  {
    convs[index := convs[index].(question := question)]
  }

  /** What starting an edit saves. */
  function StartEdit(convs: seq<Entry>, index: nat): Original
    requires index < |convs|
  {
    Original(convs[index].question, convs[index].response)
  }

  /** Cancelling an answer edit puts the saved answer back. */
  function CancelEdit(convs: seq<Entry>, index: nat, original: Original): (r: seq<Entry>)
    requires index < |convs|
    ensures |r| == |convs| && r[index] == convs[index].(response := original.response)
    ensures forall k :: 0 <= k < |convs| && k != index ==> r[k] == convs[k]
  {
    WithResponse(convs, index, original.response)
  }

  /** Cancelling a question edit puts the saved question back. */
  function CancelPromptEdit(convs: seq<Entry>, index: nat, original: Original): (r: seq<Entry>)
    requires index < |convs|
    ensures |r| == |convs| && r[index] == convs[index].(question := original.question)
    ensures forall k :: 0 <= k < |convs| && k != index ==> r[k] == convs[k]
  {
    WithQuestion(convs, index, original.question)
  }

  /** Whatever was typed in between, cancelling an edit gives back the conversation as it was. */
  lemma CancelRestores(convs: seq<Entry>, index: nat, typed: string)
    requires index < |convs|
    ensures CancelEdit(WithResponse(convs, index, typed), index, StartEdit(convs, index)) == convs
    ensures CancelPromptEdit(WithQuestion(convs, index, typed), index, StartEdit(convs, index)) == convs
  {
    var a := CancelEdit(WithResponse(convs, index, typed), index, StartEdit(convs, index));
    assert a[index] == convs[index];
    var b := CancelPromptEdit(WithQuestion(convs, index, typed), index, StartEdit(convs, index));
    assert b[index] == convs[index];
  }

  /**
   Saving an edited question: the entries after it go, and the entry gets the new answer
   generated for its question and loses its summaries.
   */
  function SavePromptEdit(convs: seq<Entry>, index: nat, newResponse: string): (r: seq<Entry>)
    requires index < |convs|
    ensures |r| == index + 1
    ensures r[..index] == convs[..index]
    ensures r[index] == Entry(convs[index].question, newResponse, None)
  {
    convs[..index + 1][index := Entry(convs[index].question, newResponse, None)]
  }
}

=== FILE: dom.dfy ===
/**
 The parsed HTML document the website scraper works on, and the selector queries it
 runs against it: a tree of text, comment and element nodes, selectors made of a tag
 name, a class, an id and an attribute test, matching in document order.
 */
module Dom {
  import opened Wrappers
  import opened Strings

  /** A node of the parsed document. Attribute names are lower case, as the HTML parser leaves them. */
  datatype Node =
    | Text(data: string)
    | Comment(data: string)
    | Element(name: string, attrs: map<string, string>, children: seq<Node>)

  /** Number of nodes in the tree under `n`, `n` included. */
  function Size(n: Node): nat
    ensures Size(n) >= 1
  {
    match n
    case Element(_, _, children) => 1 + ForestSize(children)
    case _ => 1
  }

  function ForestSize(ns: seq<Node>): nat
  {
    if |ns| == 0 then 0 else Size(ns[0]) + ForestSize(ns[1..])
  }

  /** Children of an element; text and comment nodes have none. */
  function Children(n: Node): (cs: seq<Node>)
    ensures ForestSize(cs) < Size(n)
  {
    if n.Element? then n.children else []
  }

  lemma ForestSizeAppend(a: seq<Node>, b: seq<Node>)
    ensures ForestSize(a + b) == ForestSize(a) + ForestSize(b)
    decreases |a|
  {
    if |a| == 0 {
      assert a + b == b;
    } else {
      assert (a + b)[1..] == a[1..] + b;
      ForestSizeAppend(a[1..], b);
    }
  }

  /** Every tree of a forest is at most as big as the forest. */
  lemma ForestSizeBound(ns: seq<Node>, i: nat)
    requires i < |ns|
    ensures Size(ns[i]) <= ForestSize(ns)
    decreases |ns|
  {
    if i > 0 {
      ForestSizeBound(ns[1..], i - 1);
    }
  }

  // ---------------------------------------------------------------------------
  // Selectors
  // ---------------------------------------------------------------------------

  /**
   A compound selector: each present part must hold. `cls` is a class the element
   carries, `attr` an attribute with exactly the given value.
   */
  datatype Selector = Selector(tag: Option<string>, cls: Option<string>, id: Option<string>, attr: Option<(string, string)>)

  function TagSel(tag: string): Selector {
    Selector(Some(tag), None, None, None)
  }

  function ClassSel(cls: string): Selector {
    Selector(None, Some(cls), None, None)
  }

  function IdSel(id: string): Selector {
    Selector(None, None, Some(id), None)
  }

  function AttrSel(name: string, value: string): Selector {
    Selector(None, None, None, Some((name, value)))
  }

  /** HTML's ASCII white space, which separates the classes of the `class` attribute. */
  predicate IsHtmlSpace(c: char) {
    c == ' ' || c == '\t' || c == '\n' || c == '\U{000C}' || c == '\r'
  }

  /** The element lists `cls` among its classes. */
  predicate HasClass(attrs: map<string, string>, cls: string) {
    "class" in attrs && cls != "" && cls in SplitRuns(attrs["class"], IsHtmlSpace)
  }

  predicate MatchesOne(n: Node, sel: Selector) {
    && n.Element?
    && (sel.tag.Some? ==> n.name == sel.tag.value)
    && (sel.cls.Some? ==> HasClass(n.attrs, sel.cls.value))
    && (sel.id.Some? ==> "id" in n.attrs && n.attrs["id"] == sel.id.value)
    && (sel.attr.Some? ==> sel.attr.value.0 in n.attrs && n.attrs[sel.attr.value.0] == sel.attr.value.1)
  }

  /** A selector list (`a, b, c`) matches a node when one of its selectors does. */
  predicate Matches(n: Node, sels: seq<Selector>)
    ensures Matches(n, sels) ==> n.Element?
  {
    exists i :: 0 <= i < |sels| && MatchesOne(n, sels[i])
  }

  /**
   The elements of the forest `ns` and their descendants that match `sels`, in document
   order (each node before its descendants, siblings left to right) — what `$(sels)`
   selects when `ns` is the document, and what `.find(sels)` selects when `ns` are the
   children of an element.
   */
  function FindAll(ns: seq<Node>, sels: seq<Selector>): (found: seq<Node>)
    ensures forall m :: m in found ==> Matches(m, sels) && Size(m) <= ForestSize(ns)
    decreases ForestSize(ns)
  {
    if |ns| == 0 then []
    else
      var here := if Matches(ns[0], sels) then [ns[0]] else [];
      here + FindAll(Children(ns[0]), sels) + FindAll(ns[1..], sels)
  }

  /** Selection distributes over a forest split in two. */
  lemma {:induction false} FindAllAppend(a: seq<Node>, b: seq<Node>, sels: seq<Selector>)
    ensures FindAll(a + b, sels) == FindAll(a, sels) + FindAll(b, sels)
    decreases |a|
  {
    if |a| == 0 {
      assert a + b == b;
    } else {
      assert (a + b)[0] == a[0];
      assert (a + b)[1..] == a[1..] + b;
      FindAllAppend(a[1..], b, sels);
      var here := if Matches(a[0], sels) then [a[0]] else [];
      var below := FindAll(Children(a[0]), sels);
      var x, y := FindAll(a[1..], sels), FindAll(b, sels);
      calc {
        FindAll(a + b, sels);
        here + below + FindAll(a[1..] + b, sels);
        here + below + (x + y);
        (here + below + x) + y;
        FindAll(a, sels) + FindAll(b, sels);
      }
    }
  }

  /** A matching tree of the forest is found, and so is everything that matches below it. */
  lemma {:induction false} FindAllComplete(ns: seq<Node>, sels: seq<Selector>, i: nat)
    requires i < |ns|
    ensures Matches(ns[i], sels) ==> ns[i] in FindAll(ns, sels)
    ensures forall m :: m in FindAll(Children(ns[i]), sels) ==> m in FindAll(ns, sels)
    decreases i
  {
    if i > 0 {
      FindAllComplete(ns[1..], sels, i - 1);
    }
  }

  /** The first match in document order, as `$(sels).first()` gives it. */
  function First(ns: seq<Node>, sels: seq<Selector>): (r: Option<Node>)
    ensures r.Some? <==> FindAll(ns, sels) != []
    ensures r.Some? ==> Matches(r.value, sels)
  {
    var found := FindAll(ns, sels);
    if |found| == 0 then None else Some(found[0])
  }

  // ---------------------------------------------------------------------------
  // Text content
  // ---------------------------------------------------------------------------

  /** `.text()` of one node: its text nodes, in document order. */
  function TextContent(n: Node): string
    decreases Size(n), 0
  {
    match n
    case Text(data) => data
    case Comment(_) => ""
    case Element(_, _, children) => ForestText(children)
  }

  function ForestText(ns: seq<Node>): string
    decreases ForestSize(ns), 1
  {
    if |ns| == 0 then "" else TextContent(ns[0]) + ForestText(ns[1..])
  }

  /** `.text()` of a whole selection concatenates the text of every selected node. */
  function SelectionText(sel: seq<Node>): string {
    ForestText(sel)
  }

  lemma {:induction false} ForestTextAppend(a: seq<Node>, b: seq<Node>)
    ensures ForestText(a + b) == ForestText(a) + ForestText(b)
    decreases |a|
  {
    if |a| == 0 {
      assert a + b == b;
    } else {
      assert (a + b)[0] == a[0];
      assert (a + b)[1..] == a[1..] + b;
      ForestTextAppend(a[1..], b);
    }
  }

  /** `.attr(name)` of a selection: the attribute of its first element, if it has one. */
  function FirstAttr(found: seq<Node>, name: string): Option<string> {
    if |found| > 0 && found[0].Element? && name in found[0].attrs then Some(found[0].attrs[name]) else None
  }

  // ---------------------------------------------------------------------------
  // Removal
  // ---------------------------------------------------------------------------

  /**
   `$(sels).remove()`: every element that matches leaves the tree with everything
   under it; the other nodes stay, in order.
   */
  function Prune(ns: seq<Node>, sels: seq<Selector>): (r: seq<Node>)
    ensures ForestSize(r) <= ForestSize(ns)
    decreases ForestSize(ns)
  {
    if |ns| == 0 then []
    else
      var head := ns[0];
      var rest := Prune(ns[1..], sels);
      if Matches(head, sels) then rest
      else if head.Element? then
        assert ForestSize(head.children) < Size(head);
        var kept := Element(head.name, head.attrs, Prune(head.children, sels));
        assert ([kept] + rest)[1..] == rest;
        [kept] + rest
      else
        assert ([head] + rest)[1..] == rest;
        [head] + rest
  }

  /** After the removal nothing in the tree matches any more. */
  lemma {:induction false} PruneRemovesAll(ns: seq<Node>, sels: seq<Selector>)
    ensures FindAll(Prune(ns, sels), sels) == []
    decreases ForestSize(ns)
  {
    if |ns| > 0 {
      var head := ns[0];
      var rest := Prune(ns[1..], sels);
      PruneRemovesAll(ns[1..], sels);
      if !Matches(head, sels) {
        var r := Prune(ns, sels);
        if head.Element? {
          assert ForestSize(head.children) < Size(head);
          PruneRemovesAll(head.children, sels);
          var kept := Element(head.name, head.attrs, Prune(head.children, sels));
          assert r == [kept] + rest;
          assert r[1..] == rest;
          assert !Matches(kept, sels) by {
            assert forall i :: 0 <= i < |sels| ==> MatchesOne(kept, sels[i]) == MatchesOne(head, sels[i]);
          }
        } else {
          assert r == [head] + rest;
          assert r[1..] == rest;
        }
      }
    }
  }

  /** A tree without a match is left as it is. */
  lemma {:induction false} PruneNothing(ns: seq<Node>, sels: seq<Selector>)
    requires FindAll(ns, sels) == []
    ensures Prune(ns, sels) == ns
    decreases ForestSize(ns)
  {
    if |ns| > 0 {
      var head := ns[0];
      var here := if Matches(head, sels) then [head] else [];
      assert FindAll(ns, sels) == here + FindAll(Children(head), sels) + FindAll(ns[1..], sels);
      PruneNothing(ns[1..], sels);
      if head.Element? {
        assert ForestSize(head.children) < Size(head);
        PruneNothing(head.children, sels);
      }
      assert ns == [head] + ns[1..];
    }
  }

  /** Removing twice removes nothing more. */
  lemma PruneIdempotent(ns: seq<Node>, sels: seq<Selector>)
    ensures Prune(Prune(ns, sels), sels) == Prune(ns, sels)
  {
    PruneRemovesAll(ns, sels);
    PruneNothing(Prune(ns, sels), sels);
  }
}

=== FILE: http.dfy ===
/** What the route handlers read from a JSON request body. */
module Http {
  /** A string field of the JSON request body: absent, `null`, or a string. */
  datatype Field = Undefined | Null | Text(s: string) {
    /** JavaScript truthiness of the field: a non-empty string. */
    predicate Truthy() {
      Text? && s != ""
    }
  }
}

=== FILE: markdown.dfy ===
/**
 How the website scraper turns the main content of a page into markdown-like text: a
 recursive walk over the document tree, the clean-up of blank lines, the title line
 and the length limit.
 */
module Markdown {
  import opened Wrappers
  import opened Strings
  import opened Dom

  /** The URL parser: the host name of a URL, or `None` when the text is not a URL. */
  type HostOf = string -> Option<string>

  /**
   The delimiter line a table gets under its first row, given the number of cells in
   that row: `SeparatorAsWritten` as the route builds it, `Separator` as intended.
   */
  type Delimiter = nat -> string

  /** The list bullet, kept as it is written: the UTF-8 bytes of "•" read back as Windows-1252. */
  const BULLET: string := "\U{00E2}\U{20AC}\U{00A2} "

  const YAHOO_FINANCE_HOST: string := "finance.yahoo.com"

  /** Names of the elements the walk renders specially; every other element is rendered as its contents. */
  const MARKUP: set<string> := {
    "script", "style", "p", "br", "h1", "h2", "h3", "h4", "h5", "h6", "ul", "ol",
    "strong", "b", "em", "i", "blockquote", "code", "pre", "a", "table"
  }

  predicate IsHeading(name: string) {
    name in {"h1", "h2", "h3", "h4", "h5", "h6"}
  }

  // ---------------------------------------------------------------------------
  // Link text
  // ---------------------------------------------------------------------------

  /** `charAt(0).toUpperCase() + slice(1)`. */
  function Capitalize(s: string): (r: string)
    ensures |r| == |s|
    ensures ToLower(r) == ToLower(s)
    ensures forall i :: 0 <= i < |r| ==> (r[i] == '.' <==> s[i] == '.')
    ensures |s| > 0 ==> r[0] == UpperChar(s[0]) && r[1..] == s[1..]
  {
    if |s| == 0 then "" else [UpperChar(s[0])] + s[1..]
  }

  /** A string without the one-character pattern `[c]` has no character `c`. */
  lemma NoCharAt(s: string, c: char, i: nat)
    requires !Contains(s, [c]) && i < |s|
    ensures s[i] != c
  {
    assert s[i..i + 1] == [s[i]];
    assert OccursAt(s, [s[i]], i);
  }

  /**
   `getDomainName`: the text a link to an absolute URL is shown with. A URL the parser
   rejects is shown as it is; a Yahoo Finance host as "Yahoo Finance"; any other host
   loses its first "www.", keeps its first dot-separated label and gets a capital first
   letter.
   */
  function DomainName(url: string, host: Option<string>): (name: string)
    ensures host.None? ==> name == url
    ensures host.Some? && Contains(host.value, YAHOO_FINANCE_HOST) ==> name == "Yahoo Finance"
    ensures host.Some? && !Contains(host.value, YAHOO_FINANCE_HOST) ==>
      var d := ReplaceFirst(host.value, "www.", "");
      && (forall i :: 0 <= i < |name| ==> name[i] != '.')
      && |name| <= |d| <= |host.value|
      && (|name| > 0 ==> name[0] == UpperChar(d[0]) && name[1..] == d[1..|name|])
      && (|name| < |d| ==> d[|name|] == '.')
  {
    match host
    case None => url
    case Some(h) =>
      if Contains(h, YAHOO_FINANCE_HOST) then "Yahoo Finance"
      else
        var d := ReplaceFirst(h, "www.", "");
        SplitClean(d, ".");
        var first := Split(d, ".")[0];
        var name := Capitalize(first);
        assert forall i :: 0 <= i < |first| ==> first[i] != '.' by {
          forall i | 0 <= i < |first| ensures first[i] != '.' {
            NoCharAt(first, '.', i);
          }
        }
        FirstLabel(d);
        ReplaceFirstShorter(h, "www.");
        name
  }

  /** Replacing by the empty string never lengthens the text. */
  lemma ReplaceFirstShorter(h: string, pat: string)
    ensures |ReplaceFirst(h, pat, "")| <= |h|
  {}

  /**
   The first part of a split on "." is the text up to its first dot: a prefix, followed
   by a dot unless it is the whole text.
   */
  lemma FirstLabel(d: string)
    ensures var first := Split(d, ".")[0];
      && |first| <= |d| && d[..|first|] == first
      && (|first| < |d| ==> d[|first|] == '.')
  {
    JoinSplit(d, ".");
    var parts := Split(d, ".");
    if |parts| > 1 {
      assert Join(".", parts) == parts[0] + "." + Join(".", parts[1..]);
    }
  }

  // ---------------------------------------------------------------------------
  // The tree walk
  // ---------------------------------------------------------------------------

  /** `processNode`: the markdown of a forest is the markdown of its nodes, in order. */
  function Walk(ns: seq<Node>, hostOf: HostOf, delim: Delimiter): string
    decreases ForestSize(ns), 1, 0
  {
    if |ns| == 0 then "" else RenderNode(ns[0], hostOf, delim) + Walk(ns[1..], hostOf, delim)
  }

  /**
   One node of the walk. Text is kept as it is, comments vanish; `script` and `style`
   elements are not plain tags to the parser and vanish too.
   */
  function RenderNode(n: Node, hostOf: HostOf, delim: Delimiter): string
    decreases Size(n), 0, 0
  {
    match n
    case Text(data) => data
    case Comment(_) => ""
    case Element(name, attrs, children) =>
      if name == "script" || name == "style" then ""
      else if name == "p" then "\n\n" + Walk(children, hostOf, delim) + "\n\n"
      else if name == "br" then "\n"
      else if IsHeading(name) then "\n\n# " + Walk(children, hostOf, delim) + "\n\n"
      else if name == "ul" then
        "\n" + ListItems(FindAll(children, [TagSel("li")]), false, 0, ForestSize(children), hostOf, delim) + "\n"
      else if name == "ol" then
        "\n" + ListItems(FindAll(children, [TagSel("li")]), true, 0, ForestSize(children), hostOf, delim) + "\n"
      else if name == "strong" || name == "b" then "**" + Walk(children, hostOf, delim) + "**"
      else if name == "em" || name == "i" then "_" + Walk(children, hostOf, delim) + "_"
      else if name == "blockquote" then "\n\n> " + Walk(children, hostOf, delim) + "\n\n"
      else if name == "code" then "`" + Walk(children, hostOf, delim) + "`"
      else if name == "pre" then "\n```\n" + Walk(children, hostOf, delim) + "\n```\n"
      else if name == "a" then
        if "href" in attrs && StartsWith(attrs["href"], "http") then
          "[" + DomainName(attrs["href"], hostOf(attrs["href"])) + "](" + attrs["href"] + ")"
        else
          "[" + Walk(children, hostOf, delim) + "](" + (if "href" in attrs then attrs["href"] else "") + ")"
      else if name == "table" then
        "\n\n" + Join("\n", Rows(FindAll(children, [TagSel("tr")]), 0, ForestSize(children), hostOf, delim)) + "\n\n"
      else Walk(children, hostOf, delim)
  }

  /** The markers a tag puts around the markdown of its children. */
  datatype Wrapping = Wrapping(open: string, close: string)

  /**
   The tags that only wrap the markdown of their children, with the markers they use;
   an unknown tag wraps it in nothing. `None` for the tags rendered some other way.
   */
  function Wrap(name: string): Option<Wrapping> {
    if name in {"script", "style", "br", "ul", "ol", "a", "table"} then None
    else if name == "p" then Some(Wrapping("\n\n", "\n\n"))
    else if IsHeading(name) then Some(Wrapping("\n\n# ", "\n\n"))
    else if name in {"strong", "b"} then Some(Wrapping("**", "**"))
    else if name in {"em", "i"} then Some(Wrapping("_", "_"))
    else if name == "blockquote" then Some(Wrapping("\n\n> ", "\n\n"))
    else if name == "code" then Some(Wrapping("`", "`"))
    else if name == "pre" then Some(Wrapping("\n```\n", "\n```\n"))
    else Some(Wrapping("", ""))
  }

  /** A wrapping tag renders as its opening marker, its children's markdown and its closing marker. */
  lemma RenderWrapped(name: string, attrs: map<string, string>, children: seq<Node>, hostOf: HostOf, delim: Delimiter)
    requires Wrap(name).Some?
    ensures RenderNode(Element(name, attrs, children), hostOf, delim) ==
      Wrap(name).value.open + Walk(children, hostOf, delim) + Wrap(name).value.close
  {}

  /** Text is kept as it is; comments, scripts and styles give nothing; a line break gives a line feed. */
  lemma RenderLeaves(n: Node, hostOf: HostOf, delim: Delimiter)
    ensures n.Text? ==> RenderNode(n, hostOf, delim) == n.data
    ensures n.Comment? ==> RenderNode(n, hostOf, delim) == ""
    ensures n.Element? && n.name in {"script", "style"} ==> RenderNode(n, hostOf, delim) == ""
    ensures n.Element? && n.name == "br" ==> RenderNode(n, hostOf, delim) == "\n"
  {}

  /**
   The items of a list, one line each, marked with the bullet or with their position
   counted from 1. `i` is the position of `items[0]` among all the items; every item is
   at most `b` nodes big.
   */
  function ListItems(items: seq<Node>, ordered: bool, i: nat, b: nat, hostOf: HostOf, delim: Delimiter): (r: string)
    requires forall m :: m in items ==> Size(m) <= b
    ensures CountChar(r, '\n') >= |items|
    decreases b, 2, |items|
  {
    if |items| == 0 then ""
    else
      var marker := if ordered then Decimal(i + 1) + ". " else BULLET;
      var line := marker + Walk(Children(items[0]), hostOf, delim) + "\n";
      var rest := ListItems(items[1..], ordered, i + 1, b, hostOf, delim);
      CountCharAppend(marker + Walk(Children(items[0]), hostOf, delim), "\n", '\n');
      CountCharAppend(line, rest, '\n');
      line + rest
  }

  /** The line of the list item at position `pos`, counted from 0. */
  function ItemLine(item: Node, ordered: bool, pos: nat, hostOf: HostOf, delim: Delimiter): string {
    (if ordered then Decimal(pos + 1) + ". " else BULLET) + Walk(Children(item), hostOf, delim) + "\n"
  }

  /** The lines of the items, the first at position `i`. */
  function ItemLines(items: seq<Node>, ordered: bool, i: nat, hostOf: HostOf, delim: Delimiter): (r: seq<string>)
    ensures |r| == |items|
    ensures forall k :: 0 <= k < |r| ==> r[k] == ItemLine(items[k], ordered, i + k, hostOf, delim)
  {
    seq(|items|, k requires 0 <= k < |items| => ItemLine(items[k], ordered, i + k, hostOf, delim))
  }

  /**
   A list renders as the lines of its items, one after the other: the bullet, or the
   item's position counted from 1 and a dot, then the item's markdown and a line feed.
   */
  lemma {:induction false} ListItemsLines(items: seq<Node>, ordered: bool, i: nat, b: nat, hostOf: HostOf, delim: Delimiter)
    requires forall m :: m in items ==> Size(m) <= b
    ensures ListItems(items, ordered, i, b, hostOf, delim) == Concat(ItemLines(items, ordered, i, hostOf, delim))
    decreases |items|
  {
    if |items| > 0 {
      ListItemsLines(items[1..], ordered, i + 1, b, hostOf, delim);
      var lines := ItemLines(items, ordered, i, hostOf, delim);
      assert lines[1..] == ItemLines(items[1..], ordered, i + 1, hostOf, delim);
    }
  }

  /** The cells of a table row, each rendered and trimmed. */
  function Cells(cells: seq<Node>, b: nat, hostOf: HostOf, delim: Delimiter): (r: seq<string>)
    requires forall m :: m in cells ==> Size(m) <= b
    ensures |r| == |cells|
    ensures forall k :: 0 <= k < |r| ==> IsTrimmed(r[k])
    ensures forall k :: 0 <= k < |r| ==> r[k] == Trim(Walk(Children(cells[k]), hostOf, delim))
    decreases b, 2, |cells|
  {
    if |cells| == 0 then []
    else [Trim(Walk(Children(cells[0]), hostOf, delim))] + Cells(cells[1..], b, hostOf, delim)
  }

  /**
   The lines of a table: each row's cells joined by " | ", and after the first row the
   delimiter line for its number of cells. `i` is the position of `rows[0]`.
   */
  function Rows(rows: seq<Node>, i: nat, b: nat, hostOf: HostOf, delim: Delimiter): (lines: seq<string>)
    requires forall m :: m in rows ==> Size(m) <= b
    ensures |lines| == |rows| + (if i == 0 && |rows| > 0 then 1 else 0)
    decreases b, 3, |rows|
  {
    if |rows| == 0 then []
    else
      var row := rows[0];
      var cells := FindAll(Children(row), CELL_SELECTORS);
      var line := Join(" | ", Cells(cells, ForestSize(Children(row)), hostOf, delim));
      [line] + (if i == 0 then [delim(|cells|)] else []) + Rows(rows[1..], i + 1, b, hostOf, delim)
  }

  const CELL_SELECTORS: seq<Selector> := [TagSel("th"), TagSel("td")]

  /** The line of one table row: its `th` and `td` cells, each rendered and trimmed, joined by " | ". */
  function RowLine(row: Node, hostOf: HostOf, delim: Delimiter): string {
    var cells := FindAll(Children(row), CELL_SELECTORS);
    Join(" | ", seq(|cells|, k requires 0 <= k < |cells| => Trim(Walk(Children(cells[k]), hostOf, delim))))
  }

  /** The lines of the rows, one each, in order. */
  function RowLines(rows: seq<Node>, hostOf: HostOf, delim: Delimiter): (r: seq<string>)
    ensures |r| == |rows|
    ensures forall k :: 0 <= k < |rows| ==> r[k] == RowLine(rows[k], hostOf, delim)
  {
    seq(|rows|, k requires 0 <= k < |rows| => RowLine(rows[k], hostOf, delim))
  }

  /**
   Every row of a table gives its own line, in order; from the first table row on, the
   delimiter line sits between the first row and the second.
   */
  lemma RowsLines(rows: seq<Node>, i: nat, b: nat, hostOf: HostOf, delim: Delimiter)
    requires forall m :: m in rows ==> Size(m) <= b
    ensures |rows| > 0 ==> Rows(rows, i, b, hostOf, delim)[0] == RowLine(rows[0], hostOf, delim)
    ensures forall k :: 0 < k < |rows| ==>
      Rows(rows, i, b, hostOf, delim)[k + (if i == 0 then 1 else 0)] == RowLine(rows[k], hostOf, delim)
  {
    if |rows| > 0 {
      RowsHead(rows, i, b, hostOf, delim);
      RowsLater(rows[1..], i + 1, b, hostOf, delim);
      LaterLines(Rows(rows, i, b, hostOf, delim), if i == 0 then 2 else 1, rows, hostOf, delim);
    }
  }

  /** Past the first table row, every row gives exactly its own line. */
  lemma {:induction false} RowsLater(rows: seq<Node>, i: nat, b: nat, hostOf: HostOf, delim: Delimiter)
    requires i > 0 && forall m :: m in rows ==> Size(m) <= b
    ensures Rows(rows, i, b, hostOf, delim) == RowLines(rows, hostOf, delim)
    decreases |rows|
  {
    if |rows| > 0 {
      RowsHead(rows, i, b, hostOf, delim);
      RowsLater(rows[1..], i + 1, b, hostOf, delim);
      RowLinesCons(Rows(rows, i, b, hostOf, delim), rows, hostOf, delim);
    }
  }

  /** A sequence made of the first row's line and the later rows' lines is the rows' lines. */
  lemma RowLinesCons(lines: seq<string>, rows: seq<Node>, hostOf: HostOf, delim: Delimiter)
    requires |rows| > 0 && |lines| > 0
    requires lines[0] == RowLine(rows[0], hostOf, delim)
    requires lines[1..] == RowLines(rows[1..], hostOf, delim)
    ensures lines == RowLines(rows, hostOf, delim)
  {
    var want := RowLines(rows, hostOf, delim);
    assert forall k :: 1 <= k < |rows| ==> want[k] == RowLines(rows[1..], hostOf, delim)[k - 1];
  }

  /** Lines of the later rows, found from an offset on, sit at that offset. */
  lemma LaterLines(lines: seq<string>, off: nat, rows: seq<Node>, hostOf: HostOf, delim: Delimiter)
    requires |rows| > 0 && 0 < off <= |lines|
    requires lines[off..] == RowLines(rows[1..], hostOf, delim)
    ensures forall k :: 0 < k < |rows| ==> lines[off - 1 + k] == RowLine(rows[k], hostOf, delim)
  {
    var tail := rows[1..];
    forall k | 0 < k < |rows|
      ensures lines[off - 1 + k] == RowLine(rows[k], hostOf, delim)
    {
      assert rows[k] == tail[k - 1];
      assert lines[off + (k - 1)] == RowLines(tail, hostOf, delim)[k - 1];
    }
  }

  /** The first row's line comes first, and the lines of the other rows come after it and the delimiter. */
  lemma RowsHead(rows: seq<Node>, i: nat, b: nat, hostOf: HostOf, delim: Delimiter)
    requires |rows| > 0 && forall m :: m in rows ==> Size(m) <= b
    ensures Rows(rows, i, b, hostOf, delim)[0] == RowLine(rows[0], hostOf, delim)
    ensures Rows(rows, i, b, hostOf, delim)[if i == 0 then 2 else 1..] == Rows(rows[1..], i + 1, b, hostOf, delim)
  {
    var row := rows[0];
    var cells := FindAll(Children(row), CELL_SELECTORS);
    var rendered := Cells(cells, ForestSize(Children(row)), hostOf, delim);
    assert rendered == seq(|cells|, k requires 0 <= k < |cells| => Trim(Walk(Children(cells[k]), hostOf, delim)));
  }

  /** The second line of a table is the delimiter line for the number of cells in its first row. */
  lemma TableDelimiter(rows: seq<Node>, b: nat, hostOf: HostOf, delim: Delimiter)
    requires |rows| > 0 && forall m :: m in rows ==> Size(m) <= b
    ensures Rows(rows, 0, b, hostOf, delim)[1] == delim(|FindAll(Children(rows[0]), CELL_SELECTORS)|)
  {}

  /** Markdown distributes over a forest split in two. */
  lemma {:induction false} WalkAppend(a: seq<Node>, b: seq<Node>, hostOf: HostOf, delim: Delimiter)
    ensures Walk(a + b, hostOf, delim) == Walk(a, hostOf, delim) + Walk(b, hostOf, delim)
    decreases |a|
  {
    if |a| == 0 {
      assert a + b == b;
    } else {
      assert (a + b)[0] == a[0];
      assert (a + b)[1..] == a[1..] + b;
      WalkAppend(a[1..], b, hostOf, delim);
    }
  }

  /** A node with no markup element anywhere in it. */
  predicate PlainNode(n: Node)
    decreases Size(n), 0
  {
    match n
    case Element(name, _, children) => name !in MARKUP && PlainForest(children)
    case _ => true
  }

  predicate PlainForest(ns: seq<Node>)
    decreases ForestSize(ns), 1
  {
    |ns| == 0 || (PlainNode(ns[0]) && PlainForest(ns[1..]))
  }

  /** Without markup elements the markdown is exactly the text content. */
  lemma {:induction false} PlainNodeText(n: Node, hostOf: HostOf, delim: Delimiter)
    requires PlainNode(n)
    ensures RenderNode(n, hostOf, delim) == TextContent(n)
    decreases Size(n), 0
  {
    if n.Element? {
      PlainForestText(n.children, hostOf, delim);
    }
  }

  lemma {:induction false} PlainForestText(ns: seq<Node>, hostOf: HostOf, delim: Delimiter)
    requires PlainForest(ns)
    ensures Walk(ns, hostOf, delim) == ForestText(ns)
    decreases ForestSize(ns), 1
  {
    if |ns| > 0 {
      PlainNodeText(ns[0], hostOf, delim);
      PlainForestText(ns[1..], hostOf, delim);
    }
  }

  // ---------------------------------------------------------------------------
  // Table delimiter line
  // ---------------------------------------------------------------------------

  /** `k` copies of `cell`. */
  function Copies(k: nat, cell: string): (r: seq<string>)
    ensures |r| == k
    ensures forall j :: 0 <= j < k ==> r[j] == cell
  {
    seq(k, _ => cell)
  }

  /** Characters of `k >= 1` copies of `cell` joined by " | ". */
  lemma {:induction false} JoinCopiesCount(k: nat, cell: string, c: char)
    requires k >= 1
    ensures CountChar(Join(" | ", Copies(k, cell)), c) == k * CountChar(cell, c) + (k - 1) * CountChar(" | ", c)
    decreases k
  {
    if k > 1 {
      JoinCopiesCount(k - 1, cell, c);
      assert Copies(k, cell)[1..] == Copies(k - 1, cell);
      var rest := Join(" | ", Copies(k - 1, cell));
      assert Join(" | ", Copies(k, cell)) == cell + " | " + rest;
      CountCharAppend(cell + " | ", rest, c);
      CountCharAppend(cell, " | ", c);
    } else {
      assert Join(" | ", Copies(1, cell)) == cell;
    }
  }

  /**
   The delimiter line as written: `"-".repeat(3 * n).split("").join(" | ")`, that is
   `3 * n` cells of a single dash.
   */
  function SeparatorAsWritten(n: nat): string {
    Join(" | ", Copies(3 * n, "-"))
  }

  /** The delimiter line under a header of `n` cells: `n` cells of three dashes. */
  function Separator(n: nat): string {
    Join(" | ", Copies(n, "---"))
  }

  /** The written delimiter line has three times as many cells as the header row it follows. */
  lemma SeparatorAsWrittenCells(n: nat)
    requires n >= 1
    ensures CountChar(SeparatorAsWritten(n), '|') + 1 == 3 * n
    ensures CountChar(SeparatorAsWritten(n), '-') == 3 * n
  {
    var k := 3 * n;
    JoinCopiesCount(k, "-", '|');
    JoinCopiesCount(k, "-", '-');
    assert CountChar("-", '|') == 0 && CountChar("-", '-') == 1;
    assert CountChar(" | ", '|') == 1 && CountChar(" | ", '-') == 0;
    assert k * 0 + (k - 1) * 1 == k - 1 && k * 1 + (k - 1) * 0 == k;
  }

  /** The delimiter line has one cell per header cell, with the same dashes in all. */
  lemma SeparatorCells(n: nat)
    requires n >= 1
    ensures CountChar(Separator(n), '|') + 1 == n
    ensures CountChar(Separator(n), '-') == 3 * n
  {
    JoinCopiesCount(n, "---", '|');
    JoinCopiesCount(n, "---", '-');
    assert CountChar("---", '|') == 0 && CountChar("---", '-') == 3;
    assert CountChar(" | ", '|') == 1 && CountChar(" | ", '-') == 0;
    assert n * 0 + (n - 1) * 1 == n - 1 && n * 3 + (n - 1) * 0 == 3 * n;
  }

  /** As the route builds it, a table whose first row has `n` cells gets a delimiter line of `3 * n` cells. */
  lemma TableDelimiterAsWritten(rows: seq<Node>, b: nat, hostOf: HostOf)
    requires |rows| > 0 && forall m :: m in rows ==> Size(m) <= b
    requires |FindAll(Children(rows[0]), CELL_SELECTORS)| >= 1
    ensures CountChar(Rows(rows, 0, b, hostOf, SeparatorAsWritten)[1], '|') + 1
      == 3 * |FindAll(Children(rows[0]), CELL_SELECTORS)|
  {
    TableDelimiter(rows, b, hostOf, SeparatorAsWritten);
    SeparatorAsWrittenCells(|FindAll(Children(rows[0]), CELL_SELECTORS)|);
  }

  /** With the intended delimiter the line has one cell per cell of the first row. */
  lemma TableDelimiterCorrected(rows: seq<Node>, b: nat, hostOf: HostOf)
    requires |rows| > 0 && forall m :: m in rows ==> Size(m) <= b
    requires |FindAll(Children(rows[0]), CELL_SELECTORS)| >= 1
    ensures CountChar(Rows(rows, 0, b, hostOf, Separator)[1], '|') + 1
      == |FindAll(Children(rows[0]), CELL_SELECTORS)|
  {
    TableDelimiter(rows, b, hostOf, Separator);
    SeparatorCells(|FindAll(Children(rows[0]), CELL_SELECTORS)|);
  }

  // ---------------------------------------------------------------------------
  // Blank-line clean-up: `replace(/\n\s*\n\s*\n/g, "\n\n")`
  // ---------------------------------------------------------------------------

  predicate AllSpace(s: string) {
    forall i :: 0 <= i < |s| ==> IsJsSpace(s[i])
  }

  /**
   What the regular expression does to one maximal run of white space. Every character
   the pattern matches is white space, so a match lies inside one run; it starts at the
   run's first line feed and, both `\s*` being greedy, ends after the run's last one. It
   needs three line feeds, and after it the run has none left.
   */
  function CollapseRun(run: string): (r: string)
    requires AllSpace(run)
    ensures AllSpace(r)
    ensures |run| > 0 ==> |r| > 0
    ensures CountChar(r, '\n') == if CountChar(run, '\n') >= 3 then 2 else CountChar(run, '\n')
  {
    if CountChar(run, '\n') < 3 then run
    else
      var f := PrefixLen(run, IsNewline, false);
      PrefixLenAll(run, IsNewline, false);
      var l := |run| - SuffixLen(run, NotNewline);
      SuffixLenAll(run, NotNewline);
      if l <= f then
        NoCount(run, '\n');
        run
      else
        NoCount(run[..f], '\n');
        NoCount(run[l..], '\n');
        CountCharAppend(run[..f], "\n\n", '\n');
        CountCharAppend(run[..f] + "\n\n", run[l..], '\n');
        run[..f] + "\n\n" + run[l..]
  }

  /** The clean-up: every run of white space replaced as `CollapseRun` says, everything else kept. */
  function Collapse(s: string): (r: string)
    ensures |s| > 0 && !IsJsSpace(s[0]) ==> |r| > 0 && r[0] == s[0]
    decreases |s|
  {
    if |s| == 0 then ""
    else if !IsJsSpace(s[0]) then [s[0]] + Collapse(s[1..])
    else
      var w := PrefixLen(s, IsJsSpace, true);
      PrefixLenAll(s, IsJsSpace, true);
      CollapseRun(s[..w]) + Collapse(s[w..])
  }

  /** The clean-up of a run followed by text that does not start with white space. */
  lemma CollapseAfterRun(run: string, t: string)
    requires |run| > 0 && AllSpace(run)
    requires |t| == 0 || !IsJsSpace(t[0])
    ensures Collapse(run + t) == CollapseRun(run) + Collapse(t)
  {
    PrefixLenAppend(run, t, IsJsSpace, true);
    assert (run + t)[..|run|] == run;
    assert (run + t)[|run|..] == t;
  }

  /** Cleaning up twice changes nothing more. */
  lemma {:induction false} CollapseIdempotent(s: string)
    ensures Collapse(Collapse(s)) == Collapse(s)
    decreases |s|
  {
    if |s| > 0 {
      if !IsJsSpace(s[0]) {
        var t := Collapse(s[1..]);
        CollapseIdempotent(s[1..]);
        assert ([s[0]] + t)[1..] == t;
      } else {
        var w := PrefixLen(s, IsJsSpace, true);
        PrefixLenAll(s, IsJsSpace, true);
        var run := CollapseRun(s[..w]);
        var t := Collapse(s[w..]);
        CollapseIdempotent(s[w..]);
        CollapseAfterRun(run, t);
        assert CollapseRun(run) == run;
      }
    }
  }

  /** The clean-up removes white space only: the other characters stay, in order. */
  lemma {:induction false} CollapseKeepsContent(s: string)
    ensures Remove(Collapse(s), IsJsSpace) == Remove(s, IsJsSpace)
    decreases |s|
  {
    if |s| > 0 {
      if !IsJsSpace(s[0]) {
        CollapseKeepsContent(s[1..]);
        RemoveAppend([s[0]], Collapse(s[1..]), IsJsSpace);
      } else {
        var w := PrefixLen(s, IsJsSpace, true);
        PrefixLenAll(s, IsJsSpace, true);
        var run, rest := s[..w], s[w..];
        CollapseKeepsContent(rest);
        assert s == run + rest;
        DropRun(run, CollapseRun(run), rest, Collapse(rest), s, Collapse(s));
      }
    }
  }

  /** White space before the rest, replaced by other white space, leaves the same content. */
  lemma DropRun(run: string, newRun: string, rest: string, newRest: string, s: string, r: string)
    requires AllSpace(run) && AllSpace(newRun)
    requires s == run + rest && r == newRun + newRest
    requires Remove(newRest, IsJsSpace) == Remove(rest, IsJsSpace)
    ensures Remove(r, IsJsSpace) == Remove(s, IsJsSpace)
  {
    RemoveAppend(newRun, newRest, IsJsSpace);
    RemoveAll(newRun, IsJsSpace);
    RemoveAll(run, IsJsSpace);
    RemoveAppend(run, rest, IsJsSpace);
  }

  // ---------------------------------------------------------------------------
  // Title line and length limit
  // ---------------------------------------------------------------------------

  const MAX_CHARS: nat := 100000
  const TRUNCATION_NOTE: string := "\n\n... (content truncated)"

  /** A non-empty title becomes a first-level heading above the text. */
  function WithTitle(title: string, text: string): (r: string)
    ensures title == "" ==> r == text
    ensures title != "" ==> StartsWith(r, "# " + title) && EndsWith(r, text)
    ensures title != "" ==> r == "# " + title + "\n\n" + text
  {
    if title != "" then "# " + title + "\n\n" + text else text
  }

  /** Content longer than the limit keeps its first `MAX_CHARS` characters and a note. */
  function Truncate(s: string): (r: string)
    ensures |s| <= MAX_CHARS ==> r == s
    ensures StartsWith(r, Take(s, MAX_CHARS))
    ensures |r| <= MAX_CHARS + |TRUNCATION_NOTE|
    ensures |s| > MAX_CHARS ==> EndsWith(r, TRUNCATION_NOTE)
    ensures |s| > MAX_CHARS ==> r == s[..MAX_CHARS] + TRUNCATION_NOTE
  {
    if |s| > MAX_CHARS then s[..MAX_CHARS] + TRUNCATION_NOTE else s
  }

  /** Truncating twice truncates no further. */
  lemma TruncateIdempotent(s: string)
    ensures Truncate(Truncate(s)) == Truncate(s)
  {
    if |s| > MAX_CHARS {
      var r := Truncate(s);
      assert r[..MAX_CHARS] == s[..MAX_CHARS];
    }
  }
}

=== FILE: operations.dfy ===
/**
 What the answer panel does with an answer: the operations applied to it (summaries,
 translations, edits) and which of them is shown, the search queries it opens, the
 text statistics it shows, and its Farsi digits.
 */
module ContentOperations {
  import opened Wrappers
  import opened Strings
  import opened SearchSummaries

  // ---------------------------------------------------------------------------
  // Farsi digits
  // ---------------------------------------------------------------------------

  /** The Extended Arabic-Indic digits zero to nine, as Farsi writes them. */
  const FARSI_DIGITS: seq<char> := [
    '\U{06F0}', '\U{06F1}', '\U{06F2}', '\U{06F3}', '\U{06F4}',
    '\U{06F5}', '\U{06F6}', '\U{06F7}', '\U{06F8}', '\U{06F9}'
  ]

  predicate IsFarsiDigit(c: char) {
    '\U{06F0}' <= c <= '\U{06F9}'
  }

  /** `convertToFarsiNumbers`: every ASCII digit becomes the Farsi digit of the same value. */
  function ToFarsi(s: string): (r: string)
    ensures |r| == |s|
    ensures forall i :: 0 <= i < |s| ==> r[i] == if IsDigit(s[i]) then FARSI_DIGITS[DigitValue(s[i])] else s[i]
  {
    seq(|s|, i requires 0 <= i < |s| => if IsDigit(s[i]) then FARSI_DIGITS[DigitValue(s[i])] else s[i])
  }

  /** Farsi digits back to ASCII digits. */
  function FromFarsi(s: string): (r: string)
    ensures |r| == |s|
  {
    seq(|s|, i requires 0 <= i < |s| => if IsFarsiDigit(s[i]) then DigitChar(s[i] as int - 0x06F0) else s[i])
  }

  /** The conversion leaves no ASCII digit, and on text without Farsi digits it can be undone. */
  lemma FarsiRoundTrip(s: string)
    ensures forall i :: 0 <= i < |ToFarsi(s)| ==> !IsDigit(ToFarsi(s)[i])
    ensures (forall i :: 0 <= i < |s| ==> !IsFarsiDigit(s[i])) ==> FromFarsi(ToFarsi(s)) == s
  {
    var r := ToFarsi(s);
    forall i | 0 <= i < |s| && IsDigit(s[i]) ensures IsFarsiDigit(r[i]) && DigitChar(r[i] as int - 0x06F0) == s[i] {
      assert FARSI_DIGITS[DigitValue(s[i])] as int == 0x06F0 + DigitValue(s[i]);
    }
  }

  /** `convertToFarsiNumbers(n)`: the decimal numeral of `n` in Farsi digits. */
  function FarsiNumeral(n: nat): (r: string)
    ensures |r| > 0 && forall i :: 0 <= i < |r| ==> IsFarsiDigit(r[i])
  {
    var d := Decimal(n);
    assert forall i :: 0 <= i < |d| ==> IsFarsiDigit(ToFarsi(d)[i]);
    ToFarsi(d)
  }

  /** A Farsi numeral reads back as the number it was made from. */
  lemma FarsiNumeralRoundTrip(n: nat)
    ensures FromFarsi(FarsiNumeral(n)) == Decimal(n)
    ensures DecimalValue(FromFarsi(FarsiNumeral(n))) == n
  {
    FarsiRoundTrip(Decimal(n));
    DecimalRoundTrip(n);
  }

  // ---------------------------------------------------------------------------
  // Operations and what is shown
  // ---------------------------------------------------------------------------

  datatype Kind = Summary | Translation | Edit

  /** An operation on the answer: the text it produced, its language if it has one, and when. */
  datatype Operation = Operation(kind: Kind, text: string, language: Option<string>, timestamp: int)

  /** `i` is the first operation with the latest time: the head of a stable sort by time, latest first. */
  predicate IsLatest(ops: seq<Operation>, i: nat) {
    && i < |ops|
    && (forall j :: 0 <= j < |ops| ==> ops[j].timestamp <= ops[i].timestamp)
    && (forall j :: 0 <= j < i ==> ops[j].timestamp < ops[i].timestamp)
  }

  function LatestFrom(ops: seq<Operation>, best: nat, k: nat): (b: nat)
    requires best < k <= |ops|
    requires IsLatest(ops[..k], best)
    ensures IsLatest(ops, b)
    decreases |ops| - k
  {
    if k == |ops| then
      assert ops[..k] == ops;
      best
    else
      var next := if ops[k].timestamp > ops[best].timestamp then k else best;
      assert ops[..k + 1][..k] == ops[..k];
      LatestFrom(ops, next, k + 1)
  }

  /** The index of the operation the panel shows. */
  function LatestIndex(ops: seq<Operation>): (i: nat)
    requires |ops| > 0
    ensures IsLatest(ops, i)
  {
    LatestFrom(ops, 0, 1)
  }

  lemma LatestUnique(ops: seq<Operation>, a: nat, b: nat)
    requires IsLatest(ops, a) && IsLatest(ops, b)
    ensures a == b
  {
    assert ops[a].timestamp <= ops[b].timestamp;
    assert ops[b].timestamp <= ops[a].timestamp;
  }

  /** `getLatestContent`: the original answer, or the text of the latest operation. */
  function LatestContent(original: string, ops: seq<Operation>): (r: string)
    ensures |ops| == 0 ==> r == original
    ensures |ops| > 0 ==> exists i: nat :: IsLatest(ops, i) && r == ops[i].text
  {
    if |ops| == 0 then original else ops[LatestIndex(ops)].text
  }

  /** `getLatestLanguage`: the language of the latest operation when it is a translation. */
  function LatestLanguage(ops: seq<Operation>): (r: Option<string>)
    ensures |ops| == 0 ==> r.None?
    ensures r.Some? ==> exists i: nat :: IsLatest(ops, i) && ops[i].kind == Translation && ops[i].language == r
    ensures forall i: nat :: IsLatest(ops, i) ==> r == if ops[i].kind == Translation then ops[i].language else None
  {
    if |ops| == 0 then None
    else
      var latest := LatestIndex(ops);
      var op := ops[latest];
      assert forall i: nat :: IsLatest(ops, i) ==> i == latest by {
        forall i: nat | IsLatest(ops, i) ensures i == latest {
          LatestUnique(ops, i, latest);
        }
      }
      if op.kind == Translation then op.language else None
  }

  /** A finished translation: one operation in the target language is appended. */
  function AddTranslation(ops: seq<Operation>, language: string, text: string, now: int): (r: seq<Operation>)
    ensures |r| == |ops| + 1 && r[..|ops|] == ops
    ensures r[|ops|] == Operation(Translation, text, Some(language), now)
  {
    ops + [Operation(Translation, text, Some(language), now)]
  }

  /**
   A finished summary, tagged with the language the panel was showing when it was asked
   for. An empty summary is reported as an error and adds nothing.
   */
  function AddSummary(ops: seq<Operation>, text: string, language: Option<string>, now: int): (r: seq<Operation>)
    ensures text == "" ==> r == ops
    ensures text != "" ==> |r| == |ops| + 1 && r[..|ops|] == ops
    ensures text != "" ==> r[|ops|] == Operation(Summary, text, language, now)
  {
    if text != "" then ops + [Operation(Summary, text, language, now)] else ops
  }

  /** `handleSave`: one edit is appended, carrying the language shown before it. */
  function SaveEdit(ops: seq<Operation>, edited: string, now: int): (r: seq<Operation>)
    ensures |r| == |ops| + 1 && r[..|ops|] == ops
    ensures r[|ops|] == Operation(Edit, edited, LatestLanguage(ops), now)
  {
    ops + [Operation(Edit, edited, LatestLanguage(ops), now)]
  }

  /** An operation later than all others is the one shown. */
  lemma NewestShown(ops: seq<Operation>, op: Operation)
    requires forall j :: 0 <= j < |ops| ==> ops[j].timestamp < op.timestamp
    ensures LatestIndex(ops + [op]) == |ops|
  {
    LatestUnique(ops + [op], |ops|, LatestIndex(ops + [op]));
  }

  /**
   A translation made last is shown with its language; an edit or a summary made last
   is shown, but with no language, whatever language it carries, since only translations
   give one.
   */
  lemma LastOperationShown(ops: seq<Operation>, original: string, language: string, text: string, now: int)
    requires forall j :: 0 <= j < |ops| ==> ops[j].timestamp < now
    ensures LatestContent(original, AddTranslation(ops, language, text, now)) == text
    ensures LatestLanguage(AddTranslation(ops, language, text, now)) == Some(language)
    ensures LatestContent(original, SaveEdit(ops, text, now)) == text
    ensures LatestLanguage(SaveEdit(ops, text, now)) == None
    ensures text != "" ==> LatestContent(original, AddSummary(ops, text, Some(language), now)) == text
    ensures text != "" ==> LatestLanguage(AddSummary(ops, text, Some(language), now)) == None
  {
    NewestShown(ops, Operation(Translation, text, Some(language), now));
    NewestShown(ops, Operation(Edit, text, LatestLanguage(ops), now));
    NewestShown(ops, Operation(Summary, text, Some(language), now));
  }

  /** Removing an operation removes every operation with its time, and keeps the others in order. */
  function RemoveAt(ops: seq<Operation>, timestamp: int): (r: seq<Operation>)
    ensures |r| <= |ops|
    ensures forall op :: op in r ==> op in ops && op.timestamp != timestamp
    ensures forall op :: op in ops && op.timestamp != timestamp ==> op in r
    decreases |ops|
  {
    if |ops| == 0 then []
    else
      var rest := RemoveAt(ops[1..], timestamp);
      assert forall op :: op in ops[1..] ==> op in ops;
      if ops[0].timestamp == timestamp then rest else [ops[0]] + rest
  }

  /** Number of operations at time `timestamp`. */
  function CountAt(ops: seq<Operation>, timestamp: int): nat
    decreases |ops|
  {
    if |ops| == 0 then 0 else (if ops[0].timestamp == timestamp then 1 else 0) + CountAt(ops[1..], timestamp)
  }

  /** Exactly the operations at that time go, and nothing else. */
  lemma {:induction false} RemoveAtCount(ops: seq<Operation>, timestamp: int)
    ensures |RemoveAt(ops, timestamp)| + CountAt(ops, timestamp) == |ops|
    ensures CountAt(ops, timestamp) == 0 ==> RemoveAt(ops, timestamp) == ops
    decreases |ops|
  {
    if |ops| > 0 {
      RemoveAtCount(ops[1..], timestamp);
      assert ops == [ops[0]] + ops[1..];
    }
  }

  /** Removal keeps the order: removing from two runs of operations is removing from each. */
  lemma {:induction false} RemoveAtAppend(a: seq<Operation>, b: seq<Operation>, timestamp: int)
    ensures RemoveAt(a + b, timestamp) == RemoveAt(a, timestamp) + RemoveAt(b, timestamp)
    decreases |a|
  {
    if |a| > 0 {
      assert (a + b)[1..] == a[1..] + b;
      RemoveAtAppend(a[1..], b, timestamp);
    } else {
      assert a + b == b;
    }
  }

  /** Removing twice removes nothing more. */
  lemma RemoveAtIdempotent(ops: seq<Operation>, timestamp: int)
    ensures RemoveAt(RemoveAt(ops, timestamp), timestamp) == RemoveAt(ops, timestamp)
  {
    var r := RemoveAt(ops, timestamp);
    NoneAt(r, timestamp);
    RemoveAtCount(r, timestamp);
  }

  lemma NoneAt(ops: seq<Operation>, timestamp: int)
    requires forall op :: op in ops ==> op.timestamp != timestamp
    ensures CountAt(ops, timestamp) == 0
    decreases |ops|
  {
    if |ops| > 0 {
      assert ops[0] in ops;
      assert forall op :: op in ops[1..] ==> op in ops;
      NoneAt(ops[1..], timestamp);
    }
  }

  // ---------------------------------------------------------------------------
  // Search queries
  // ---------------------------------------------------------------------------

  /**
   `handleSearch`: the summary for the platform when there is one; otherwise a piece of
   the text shown: three space-separated pieces for Wikipedia, 50 characters for YouTube
   and Amazon, 100 for Google and anything else.
   */
  function SearchQuery(platform: string, summaries: Option<Summaries>, latest: string): (q: string)
    ensures summaries.Some? && Lookup(summaries.value, platform).Some? ==> q == Lookup(summaries.value, platform).value
    ensures (summaries.None? || Lookup(summaries.value, platform).None?) ==> StartsWith(latest, q)
    ensures (summaries.None? || Lookup(summaries.value, platform).None?) && platform == "wikipedia" ==>
      && CountChar(q, ' ') < WIKI_WORDS
      && (CountChar(latest, ' ') < WIKI_WORDS ==> q == latest)
      && (CountChar(latest, ' ') >= WIKI_WORDS ==> CountChar(q, ' ') == WIKI_WORDS - 1 && |q| < |latest| && latest[|q|] == ' ')
    ensures (summaries.None? || Lookup(summaries.value, platform).None?) && platform in {"youtube", "amazon"} ==>
      |q| == if |latest| <= SHORT_QUERY then |latest| else SHORT_QUERY
    ensures (summaries.None? || Lookup(summaries.value, platform).None?) && platform !in {"wikipedia", "youtube", "amazon"} ==>
      |q| == if |latest| <= LONG_QUERY then |latest| else LONG_QUERY
  {
    if summaries.Some? && Lookup(summaries.value, platform).Some? then Lookup(summaries.value, platform).value
    else if platform == "wikipedia" then FirstWords(latest, WIKI_WORDS)
    else if platform == "youtube" || platform == "amazon" then Take(latest, SHORT_QUERY)
    else Take(latest, LONG_QUERY)
  }

  /**
   Without summaries the panel derives the same queries the generation route falls back
   to when the model's reply has no labels.
   */
  lemma QueriesMatchFallbacks(reply: string, content: string)
    requires !Contains(reply, GOOGLE_LABEL) && !Contains(reply, WIKI_LABEL)
    requires !Contains(reply, YOUTUBE_LABEL) && !Contains(reply, AMAZON_LABEL)
    ensures SearchQuery("google", None, content) == Parse(reply, content).google
    ensures SearchQuery("wikipedia", None, content) == Parse(reply, content).wikipedia
    ensures SearchQuery("youtube", None, content) == Parse(reply, content).youtube
    ensures SearchQuery("amazon", None, content) == Parse(reply, content).amazon
  {
    UnlabelledReply(reply, content);
  }
}

=== FILE: pdf_chunks.dfy ===
/**
 Chunking of the PDF text for the question-answering route: a hard cut of the text
 into pieces of `maxTokens * 4` characters, the last one possibly shorter.
 */
module PdfChunks {
  import opened Strings

  /** Documents are limited to this many tokens. */
  const MAX_PDF_TOKENS: nat := 50000
  /** Rough estimate: one token is four characters. */
  const TOKENS_TO_CHARS_RATIO: nat := 4
  /** The largest accepted document, in characters (200000). */
  const MAX_PDF_CHARS: nat := MAX_PDF_TOKENS * TOKENS_TO_CHARS_RATIO
  /** Token budget of one chunk when the caller gives none. */
  const DEFAULT_MAX_TOKENS: nat := 3000

  /** Characters per chunk for a token budget (the conversion writes the literal 4). */
  function ChunkSize(maxTokens: nat): nat {
    maxTokens * 4
  }

  /** `chunks` is a gap-free, overlap-free cut of `text` into full pieces of `size` and one shorter last piece. */
  ghost predicate IsChunking(chunks: seq<string>, text: string, size: nat) {
    && Concat(chunks) == text
    && (forall i :: 0 <= i < |chunks| ==> 0 < |chunks[i]| <= size)
    && (forall i :: 0 <= i < |chunks| - 1 ==> |chunks[i]| == size)
  }

  /** `splitIntoChunks(text, maxTokens)`. A budget of 0 never terminates in the source, hence the precondition. */
  function SplitIntoChunks(text: string, maxTokens: nat): (chunks: seq<string>)
    requires maxTokens > 0
    ensures IsChunking(chunks, text, ChunkSize(maxTokens))
    decreases |text|
  {
    var size := ChunkSize(maxTokens);
    if |text| == 0 then []
    else if |text| <= size then [text]
    else
      var rest := SplitIntoChunks(text[size..], maxTokens);
      ChunkingCons(text, size, rest);
      [text[..size]] + rest
  }

  /** One full chunk in front of a chunking of the remainder is a chunking of the whole. */
  lemma ChunkingCons(text: string, size: nat, rest: seq<string>)
    requires 0 < size < |text| && IsChunking(rest, text[size..], size)
    ensures IsChunking([text[..size]] + rest, text, size)
  {
    var chunks := [text[..size]] + rest;
    assert chunks[1..] == rest;
    assert text == text[..size] + text[size..];
    assert Concat(chunks) == text[..size] + Concat(rest);
  }

  /** The number of chunks is the ceiling of `|text| / size`. */
  lemma ChunkCount(text: string, maxTokens: nat)
    requires maxTokens > 0
    ensures |SplitIntoChunks(text, maxTokens)| == (|text| + ChunkSize(maxTokens) - 1) / ChunkSize(maxTokens)
  {
    ChunkingCount(SplitIntoChunks(text, maxTokens), text, ChunkSize(maxTokens));
  }

  /** Any chunking of `text` into pieces of `size` has the ceiling of `|text| / size` pieces. */
  lemma {:induction false} ChunkingCount(chunks: seq<string>, text: string, size: nat)
    requires size > 0 && IsChunking(chunks, text, size)
    ensures |chunks| == (|text| + size - 1) / size
    decreases |chunks|
  {
    if |chunks| == 0 {
    } else if |chunks| == 1 {
      assert Concat(chunks[1..]) == "";
      assert text == chunks[0] + "";
      DivUnique(|text| + size - 1, size, 1, |text| - 1);
    } else {
      var rest := chunks[1..];
      assert chunks == [chunks[0]] + rest;
      assert Concat(chunks) == chunks[0] + Concat(rest);
      assert |chunks[0]| == size;
      var tail := text[size..];
      assert text == chunks[0] + tail;
      assert Concat(rest) == tail;
      assert IsChunking(rest, tail, size);
      ChunkingCount(rest, tail, size);
      CeilStep(|tail|, size);
    }
  }

  lemma CeilStep(n: nat, size: nat)
    requires size > 0
    ensures (n + size + size - 1) / size == (n + size - 1) / size + 1
  {
    var x := n + size - 1;
    var q, r := x / size, x % size;
    assert x == q * size + r;
    assert x + size == (q + 1) * size + r;
    DivUnique(x + size, size, q + 1, r);
  }

  /** Division is determined by quotient and remainder. */
  lemma DivUnique(n: int, d: int, q: int, r: int)
    requires d > 0 && 0 <= r < d && n == q * d + r
    ensures n / d == q
  {
    var q', r' := n / d, n % d;
    assert n == q' * d + r';
    MulGap(q, q', d);
    MulGap(q', q, d);
  }

  /** Multiples of a positive `d` are at least `d` apart. */
  lemma MulGap(a: int, b: int, d: int)
    requires d > 0
    ensures a < b ==> a * d + d <= b * d
    decreases if a < b then b - a else 0
  {
    if a + 1 < b {
      MulGap(a + 1, b, d);
      assert (a + 1) * d == a * d + d;
    }
  }

  /** There is only one such cut: any chunking of `text` with the same size is the one `SplitIntoChunks` builds. */
  lemma {:induction false} ChunkingUnique(a: seq<string>, b: seq<string>, text: string, size: nat)
    requires IsChunking(a, text, size) && IsChunking(b, text, size)
    ensures a == b
    decreases |text|
  {
    if |a| == 0 || |b| == 0 {
    } else {
      FirstChunk(a, text, size);
      FirstChunk(b, text, size);
      var n := |a[0]|;
      assert IsChunking(a[1..], text[n..], size) by {
        forall i | 0 <= i < |a[1..]| ensures 0 < |a[1..][i]| <= size { assert a[1..][i] == a[i + 1]; }
        forall i | 0 <= i < |a[1..]| - 1 ensures |a[1..][i]| == size { assert a[1..][i] == a[i + 1]; }
      }
      assert IsChunking(b[1..], text[n..], size) by {
        forall i | 0 <= i < |b[1..]| ensures 0 < |b[1..][i]| <= size { assert b[1..][i] == b[i + 1]; }
        forall i | 0 <= i < |b[1..]| - 1 ensures |b[1..][i]| == size { assert b[1..][i] == b[i + 1]; }
      }
      ChunkingUnique(a[1..], b[1..], text[n..], size);
      assert a == [a[0]] + a[1..];
      assert b == [b[0]] + b[1..];
    }
  }

  /** The first piece of a chunking is the whole text when it fits, else its first `size` characters. */
  lemma FirstChunk(a: seq<string>, text: string, size: nat)
    requires IsChunking(a, text, size) && |a| > 0
    ensures a[0] == (if |text| <= size then text else text[..size])
    ensures Concat(a[1..]) == text[|a[0]|..]
  {
    assert Concat(a) == a[0] + Concat(a[1..]);
    if |a| > 1 {
      assert Concat(a[1..]) == a[1] + Concat(a[2..]);
      assert |text| > size;
    } else {
      assert Concat(a[1..]) == "";
    }
  }

  /** The loop's state: full pieces up to `start`, or a complete chunking once `start` has passed the end. */
  ghost predicate Scanned(chunks: seq<string>, text: string, size: nat, start: nat) {
    && (start <= |text| ==> Concat(chunks) == text[..start] && forall i :: 0 <= i < |chunks| ==> |chunks[i]| == size)
    && (start > |text| ==> IsChunking(chunks, text, size))
  }

  /** One turn of the loop keeps its state. */
  lemma ScanStep(chunks: seq<string>, text: string, size: nat, start: nat, piece: string)
    requires 0 < size && start < |text| && Scanned(chunks, text, size, start)
    requires piece == if start + size <= |text| then text[start..start + size] else text[start..]
    ensures Scanned(chunks + [piece], text, size, start + size)
  {
    var next := chunks + [piece];
    ConcatAppend(chunks, [piece]);
    assert Concat([piece]) == piece;
    assert Concat(next) == text[..start] + piece;
    if start + size <= |text| {
      assert text[..start] + piece == text[..start + size];
      assert forall i :: 0 <= i < |next| ==> |next[i]| == size by {
        forall i | 0 <= i < |next| ensures |next[i]| == size {
          if i < |chunks| { assert next[i] == chunks[i]; }
        }
      }
    } else {
      assert text[..start] + piece == text;
      forall i | 0 <= i < |next| ensures 0 < |next[i]| <= size {
        if i < |chunks| { assert next[i] == chunks[i]; }
      }
      forall i | 0 <= i < |next| - 1 ensures |next[i]| == size {
        assert next[i] == chunks[i];
      }
    }
  }

  /** Stopping at or past the end leaves a complete chunking. */
  lemma ScanDone(chunks: seq<string>, text: string, size: nat, start: nat)
    requires 0 < size && start >= |text| && Scanned(chunks, text, size, start)
    ensures IsChunking(chunks, text, size)
  {
    if start == |text| {
      assert text[..start] == text;
    }
  }

  /**
   The source's loop: advance a start index by the chunk size and slice (slices past the
   end are clipped). It builds the same chunks as `SplitIntoChunks`.
   */
  method SplitIntoChunksLoop(text: string, maxTokens: nat) returns (chunks: seq<string>)
    requires maxTokens > 0
    ensures IsChunking(chunks, text, ChunkSize(maxTokens))
    ensures chunks == SplitIntoChunks(text, maxTokens)
  {
    var size := ChunkSize(maxTokens);
    chunks := [];
    var start := 0;
    while start < |text|
      invariant Scanned(chunks, text, size, start)
      decreases |text| - start
    {
      var piece := if start + size <= |text| then text[start..start + size] else text[start..];
      ScanStep(chunks, text, size, start, piece);
      chunks := chunks + [piece];
      start := start + size;
    }
    ScanDone(chunks, text, size, start);
    ChunkingUnique(chunks, SplitIntoChunks(text, maxTokens), text, size);
  }
}

=== FILE: pdf_merge.dfy ===
/**
 Merging the per-chunk answers of a general question (`combineNumberedLists`): every
 answer without the sentinel has its numbered-list items pulled to the start of their
 line and renumbered with one running counter, in bold, and the answers are joined by
 blank lines.

 The two regular expressions are written out as scanners over the input. A scanner
 position is a line start (`^` with the `m` flag) when it is the start of the input or
 follows a line terminator; `bol` carries that fact for the first character of the
 remaining input.
 */
module PdfMerge {
  import opened Strings
  import PdfScoring

  /** The separator between merged answers. */
  const PARAGRAPH_BREAK: string := "\n\n"

  /**
   Length of a list marker `\d+\.\s` at the start of `s` (digits, a full stop, one white
   space character), or 0 when `s` does not start with one.
   */
  function ItemLen(s: string): (k: nat)
    ensures k == 0 || 3 <= k <= |s|
    ensures k > 0 ==> s[k - 2] == '.' && IsJsSpace(s[k - 1])
  {
    var d := PrefixLen(s, IsDigit, true);
    if 0 < d && d + 1 < |s| && s[d] == '.' && IsJsSpace(s[d + 1]) then d + 2 else 0
  }

  /** A list marker is digits, a full stop and one white space character. */
  lemma ItemDigits(s: string)
    ensures ItemLen(s) > 0 ==> forall i :: 0 <= i < ItemLen(s) - 2 ==> IsDigit(s[i])
  {
    PrefixLenAll(s, IsDigit, true);
  }

  /** No character of a list marker but its last can be a line terminator. */
  lemma ItemInterior(s: string, i: nat)
    requires ItemLen(s) > 0 && i < ItemLen(s) - 1
    ensures !IsLineTerminator(s[i])
  {
    ItemDigits(s);
  }

  // ---------------------------------------------------------------------------
  // `.replace(/^\s*(\d+\.\s)/gm, "$1")`
  // ---------------------------------------------------------------------------

  /**
   Drop the white space in front of every list marker that starts a line. At a line start
   the white space run may span blank lines: `\s*` takes it all, and the match needs a
   marker right after it. Where the match fails the scanner moves on by one character.
   */
  function Unindent(s: string, bol: bool): (r: string)
    ensures |r| <= |s|
    ensures Remove(r, IsJsSpace) == Remove(s, IsJsSpace)
    decreases |s|
  {
    if |s| == 0 then ""
    else
      var w := if bol then PrefixLen(s, IsJsSpace, true) else 0;
      var k := if bol then ItemLen(s[w..]) else 0;
      if k > 0 then
        assert w + k <= |s|;
        var done := Unindent(s[w + k..], IsLineTerminator(s[w + k - 1]));
        UnindentItemStep(s, w, k, done, s[w..w + k] + done);
        s[w..w + k] + done
      else
        var done := Unindent(s[1..], IsLineTerminator(s[0]));
        UnindentCharStep(s, done, [s[0]] + done);
        [s[0]] + done
  }

  /** The step of `Unindent` at a list marker: the white space in front of it is dropped. */
  lemma UnindentItemStep(s: string, w: nat, k: nat, done: string, u: string)
    requires w + k <= |s| && w == PrefixLen(s, IsJsSpace, true)
    requires u == s[w..w + k] + done
    requires Remove(done, IsJsSpace) == Remove(s[w + k..], IsJsSpace)
    ensures Remove(u, IsJsSpace) == Remove(s, IsJsSpace)
  {
    LeadIsSpace(s, w);
    SliceParts(s, w, w + k);
    DropSpacesAround(s[..w], s[w..w + k], s[w + k..], done, s, u);
  }

  lemma LeadIsSpace(s: string, w: nat)
    requires w == PrefixLen(s, IsJsSpace, true)
    ensures Remove(s[..w], IsJsSpace) == ""
  {
    var lead := s[..w];
    PrefixLenAll(s, IsJsSpace, true);
    assert forall i :: 0 <= i < |lead| ==> IsJsSpace(lead[i]);
    RemoveAll(lead, IsJsSpace);
  }

  /** The step of `Unindent` anywhere else: the first character is kept. */
  lemma UnindentCharStep(s: string, done: string, u: string)
    requires |s| > 0 && u == [s[0]] + done
    requires Remove(done, IsJsSpace) == Remove(s[1..], IsJsSpace)
    ensures Remove(u, IsJsSpace) == Remove(s, IsJsSpace)
  {
    assert s == [s[0]] + s[1..];
    RemoveAppend([s[0]], s[1..], IsJsSpace);
    RemoveAppend([s[0]], done, IsJsSpace);
  }

  /** Dropping a white space prefix and replacing the tail by one with the same content keeps the content. */
  lemma DropSpacesAround(lead: string, item: string, rest: string, done: string, s: string, u: string)
    requires Remove(lead, IsJsSpace) == "" && Remove(done, IsJsSpace) == Remove(rest, IsJsSpace)
    requires s == lead + (item + rest) && u == item + done
    ensures Remove(s, IsJsSpace) == Remove(u, IsJsSpace)
  {
    RemoveAppend(lead, item + rest, IsJsSpace);
    RemoveAppend(item, rest, IsJsSpace);
    RemoveAppend(item, done, IsJsSpace);
  }

  /** Text whose line starts carry no list marker, however indented, is left alone. */
  predicate NoIndentedItems(s: string, bol: bool)
    decreases |s|
  {
    |s| == 0 ||
    ((!bol || ItemLen(s[PrefixLen(s, IsJsSpace, true)..]) == 0)
     && NoIndentedItems(s[1..], IsLineTerminator(s[0])))
  }

  lemma {:induction false} UnindentIdentity(s: string, bol: bool)
    requires NoIndentedItems(s, bol)
    ensures Unindent(s, bol) == s
    decreases |s|
  {
    if |s| > 0 {
      UnindentIdentity(s[1..], IsLineTerminator(s[0]));
      UnindentAtChar(s, bol);
      assert s == [s[0]] + s[1..];
    }
  }

  /** Where no list marker follows, the scan keeps one character and moves on. */
  lemma UnindentAtChar(s: string, bol: bool)
    requires |s| > 0 && (!bol || ItemLen(s[PrefixLen(s, IsJsSpace, true)..]) == 0)
    ensures Unindent(s, bol) == [s[0]] + Unindent(s[1..], IsLineTerminator(s[0]))
  {}

  // ---------------------------------------------------------------------------
  // `.replace(/^\d+\.\s/gm, () => `**${currentNumber++}.** `)`
  // ---------------------------------------------------------------------------

  /** The bold marker that replaces the `n`-th list marker. */
  function Marker(n: nat): string {
    "**" + Decimal(n) + ".** "
  }

  /** Renumbered text and the next free number. */
  datatype Numbered = Numbered(text: string, next: nat)

  /**
   Replace each list marker at a line start by `Marker(n)`, `Marker(n + 1)`, …: the
   counter advances by exactly the number of markers at line starts.
   */
  function Renumber(s: string, bol: bool, n: nat): (r: Numbered)
    ensures r.next >= n
    ensures r.next == n + ItemStarts(s, bol)
    decreases |s|
  {
    if |s| == 0 then Numbered("", n)
    else
      var k := if bol then ItemLen(s) else 0;
      if k > 0 then
        var rest := Renumber(s[k..], IsLineTerminator(s[k - 1]), n + 1);
        MarkerStarts(s, k);
        Numbered(Marker(n) + rest.text, rest.next)
      else
        var rest := Renumber(s[1..], IsLineTerminator(s[0]), n);
        Numbered([s[0]] + rest.text, rest.next)
  }

  /**
   Number of positions of `s` that start a line and a list marker, counted position by
   position (`bol`: the first position starts a line).
   */
  function ItemStarts(s: string, bol: bool): nat
    decreases |s|
  {
    if |s| == 0 then 0
    else (if bol && ItemLen(s) > 0 then 1 else 0) + ItemStarts(s[1..], IsLineTerminator(s[0]))
  }

  /** Positions after a non-terminator do not start a line, so skipping them skips no marker. */
  lemma {:induction false} SkipQuiet(s: string, j: nat, m: nat)
    requires 0 < j <= m <= |s|
    requires forall i :: j - 1 <= i < m - 1 ==> !IsLineTerminator(s[i])
    ensures ItemStarts(s[j..], IsLineTerminator(s[j - 1])) == ItemStarts(s[m..], IsLineTerminator(s[m - 1]))
    decreases m - j
  {
    if j < m {
      assert s[j..][1..] == s[j + 1..];
      SkipQuiet(s, j + 1, m);
    }
  }

  /** A list marker at a line start counts once, and no other position inside it starts a line. */
  lemma MarkerStarts(s: string, k: nat)
    requires 0 < k == ItemLen(s)
    ensures ItemStarts(s, true) == 1 + ItemStarts(s[k..], IsLineTerminator(s[k - 1]))
  {
    forall i | 0 <= i < k - 1 ensures !IsLineTerminator(s[i]) {
      ItemInterior(s, i);
    }
    SkipQuiet(s, 1, k);
  }

  /** Without a marker at a line start, renumbering changes nothing. */
  lemma {:induction false} RenumberIdentity(s: string, bol: bool, n: nat)
    requires ItemStarts(s, bol) == 0
    ensures Renumber(s, bol, n) == Numbered(s, n)
    decreases |s|
  {
    if |s| > 0 {
      RenumberIdentity(s[1..], IsLineTerminator(s[0]), n);
      assert s == [s[0]] + s[1..];
    }
  }

  // ---------------------------------------------------------------------------
  // A numbered list, line by line
  // ---------------------------------------------------------------------------

  /** A line of a numbered list: a list marker first, and no line terminator anywhere. */
  predicate IsItemLine(l: string) {
    ItemLen(l) > 0 && forall j :: 0 <= j < |l| ==> !IsLineTerminator(l[j])
  }

  /** The lines `ls` with the marker of line `i` replaced by `Marker(n + i)`. */
  function MarkedLines(ls: seq<string>, n: nat): (ms: seq<string>)
    ensures |ms| == |ls|
  {
    seq(|ls|, i requires 0 <= i < |ls| => Marker(n + i) + ls[i][ItemLen(ls[i])..])
  }

  /** A counted prefix that stops inside `s` stops at the same place whatever follows `s`. */
  lemma {:induction false} PrefixLenExtend(s: string, t: string, p: char -> bool, want: bool)
    requires PrefixLen(s, p, want) < |s|
    ensures PrefixLen(s + t, p, want) == PrefixLen(s, p, want)
    decreases |s|
  {
    assert (s + t)[0] == s[0];
    if p(s[0]) == want {
      assert (s + t)[1..] == s[1..] + t;
      PrefixLenExtend(s[1..], t, p, want);
    }
  }

  /** A list marker at the start of `l` is still the marker when text follows `l`. */
  lemma ItemLenAppend(l: string, t: string)
    requires ItemLen(l) > 0
    ensures ItemLen(l + t) == ItemLen(l)
  {
    PrefixLenExtend(l, t, IsDigit, true);
    var d := PrefixLen(l, IsDigit, true);
    assert (l + t)[d] == l[d] && (l + t)[d + 1] == l[d + 1];
  }

  /** Away from line starts, renumbering copies the text. */
  lemma {:induction false} RenumberQuiet(x: string, t: string, m: nat)
    requires forall j :: 0 <= j < |x| ==> !IsLineTerminator(x[j])
    ensures Renumber(x + t, false, m) == Numbered(x + Renumber(t, false, m).text, Renumber(t, false, m).next)
    decreases |x|
  {
    if |x| == 0 {
      assert x + t == t;
    } else {
      assert (x + t)[0] == x[0];
      assert (x + t)[1..] == x[1..] + t;
      RenumberQuiet(x[1..], t, m);
      assert x == [x[0]] + x[1..];
    }
  }

  /** A list line gets the next number, and the scan leaves it away from a line start. */
  lemma RenumberItemLine(l: string, t: string, m: nat)
    requires IsItemLine(l)
    ensures Renumber(l + t, true, m)
      == Numbered(Marker(m) + l[ItemLen(l)..] + Renumber(t, false, m + 1).text, Renumber(t, false, m + 1).next)
  {
    var k := ItemLen(l);
    ItemLenAppend(l, t);
    assert (l + t)[k..] == l[k..] + t;
    assert (l + t)[k - 1] == l[k - 1];
    var body := l[k..];
    assert forall j :: 0 <= j < |body| ==> body[j] == l[k + j];
    RenumberQuiet(body, t, m + 1);
  }

  /** After a line feed the scan is at a line start again. */
  lemma RenumberNewline(u: string, m: nat)
    ensures Renumber("\n" + u, false, m) == Numbered("\n" + Renumber(u, true, m).text, Renumber(u, true, m).next)
  {
    assert ("\n" + u)[0] == '\n';
    assert ("\n" + u)[1..] == u;
  }

  /**
   Renumbering a numbered list gives its lines the markers `n`, `n + 1`, … in order,
   and keeps the rest of every line.
   */
  lemma {:induction false} RenumberLines(ls: seq<string>, n: nat)
    requires forall i :: 0 <= i < |ls| ==> IsItemLine(ls[i])
    ensures Renumber(Join("\n", ls), true, n) == Numbered(Join("\n", MarkedLines(ls, n)), n + |ls|)
    decreases |ls|
  {
    if |ls| == 1 {
      RenumberOneLine(ls, n);
    } else if |ls| > 1 {
      var u := Join("\n", ls[1..]);
      RenumberLines(ls[1..], n + 1);
      RenumberLinesStep(ls, n, u, Join("\n", MarkedLines(ls[1..], n + 1)));
    }
  }

  /** A list of one line. */
  lemma RenumberOneLine(ls: seq<string>, n: nat)
    requires |ls| == 1 && IsItemLine(ls[0])
    ensures Renumber(Join("\n", ls), true, n) == Numbered(Join("\n", MarkedLines(ls, n)), n + 1)
  {
    var l := ls[0];
    RenumberItemLine(l, "", n);
    assert l + "" == l;
    assert Renumber("", false, n + 1) == Numbered("", n + 1);
    assert MarkedLines(ls, n)[0] == Marker(n) + l[ItemLen(l)..];
  }

  /** The first line of a longer list, in front of the renumbered rest. */
  lemma RenumberLinesStep(ls: seq<string>, n: nat, u: string, v: string)
    requires |ls| > 1 && IsItemLine(ls[0])
    requires u == Join("\n", ls[1..]) && v == Join("\n", MarkedLines(ls[1..], n + 1))
    requires Renumber(u, true, n + 1) == Numbered(v, n + |ls|)
    ensures Renumber(Join("\n", ls), true, n) == Numbered(Join("\n", MarkedLines(ls, n)), n + |ls|)
  {
    JoinLines(ls);
    RenumberHead(ls[0], u, v, n, n + |ls|);
    MarkedJoin(ls, n, v);
  }

  /** Lines joined by line feeds: the first, a line feed, then the others. */
  lemma JoinLines(ls: seq<string>)
    requires |ls| > 1
    ensures Join("\n", ls) == ls[0] + ("\n" + Join("\n", ls[1..]))
  {
  }

  /** A list line in front of a line feed and text renumbered from the next number. */
  lemma RenumberHead(l: string, u: string, v: string, n: nat, next: nat)
    requires IsItemLine(l)
    requires Renumber(u, true, n + 1) == Numbered(v, next)
    ensures Renumber(l + ("\n" + u), true, n) == Numbered(Marker(n) + l[ItemLen(l)..] + ("\n" + v), next)
  {
    RenumberItemLine(l, "\n" + u, n);
    RenumberNewline(u, n + 1);
  }

  /** The renumbered lines joined: the first, a line feed, then the others. */
  lemma MarkedJoin(ls: seq<string>, n: nat, v: string)
    requires |ls| > 1 && v == Join("\n", MarkedLines(ls[1..], n + 1))
    ensures Join("\n", MarkedLines(ls, n)) == Marker(n) + ls[0][ItemLen(ls[0])..] + ("\n" + v)
  {
    var ms := MarkedLines(ls, n);
    assert ms[1..] == MarkedLines(ls[1..], n + 1);
    JoinLines(ms);
  }

  /** Away from line starts, unindenting copies the text. */
  lemma {:induction false} UnindentQuiet(x: string, t: string)
    requires forall j :: 0 <= j < |x| ==> !IsLineTerminator(x[j])
    ensures Unindent(x + t, false) == x + Unindent(t, false)
    decreases |x|
  {
    if |x| == 0 {
      assert x + t == t;
    } else {
      UnindentQuiet(x[1..], t);
      UnindentQuietStep(x, t, Unindent(t, false));
    }
  }

  /** One character of `UnindentQuiet`: the first is kept, and the rest is scanned the same way. */
  lemma UnindentQuietStep(x: string, t: string, u: string)
    requires |x| > 0 && !IsLineTerminator(x[0])
    requires Unindent(x[1..] + t, false) == x[1..] + u
    ensures Unindent(x + t, false) == x + u
  {
    UnindentFront(x, t);
    ConsParts(x, u);
  }

  /** `UnindentCons` for the first character of `x` in `x + t`. */
  lemma UnindentFront(x: string, t: string)
    requires |x| > 0
    ensures Unindent(x + t, false) == [x[0]] + Unindent(x[1..] + t, IsLineTerminator(x[0]))
  {
    assert x + t == [x[0]] + (x[1..] + t);
    UnindentCons(x[0], x[1..] + t);
  }

  lemma ConsParts(x: string, u: string)
    requires |x| > 0
    ensures [x[0]] + (x[1..] + u) == x + u
  {
    assert x == [x[0]] + x[1..];
  }

  /** Away from a line start, the first character is kept. */
  lemma UnindentCons(c: char, rest: string)
    ensures Unindent([c] + rest, false) == [c] + Unindent(rest, IsLineTerminator(c))
  {
    var s := [c] + rest;
    assert s[0] == c && s[1..] == rest;
    UnindentAtChar(s, false);
  }

  /** At a line start with a list marker and no indentation, the marker is kept as it is. */
  lemma UnindentAtItem(s: string, k: nat)
    requires 0 < k == ItemLen(s) && PrefixLen(s, IsJsSpace, true) == 0
    ensures Unindent(s, true) == s[..k] + Unindent(s[k..], IsLineTerminator(s[k - 1]))
  {
    var w := PrefixLen(s, IsJsSpace, true);
    assert s[w..] == s;
    assert ItemLen(s[w..]) == k;
    assert s[w..w + k] == s[..k] && s[w + k..] == s[k..] && s[w + k - 1] == s[k - 1];
  }

  /** A list line has no indentation to drop, and the scan leaves it away from a line start. */
  lemma UnindentItemLine(l: string, t: string)
    requires IsItemLine(l)
    ensures Unindent(l + t, true) == l + Unindent(t, false)
  {
    var k := ItemLen(l);
    UnindentLineHead(l, t);
    var body := l[k..];
    assert forall j :: 0 <= j < |body| ==> body[j] == l[k + j];
    UnindentQuiet(body, t);
    SplitAt(l, k, Unindent(t, false));
  }

  /** The marker of a list line, kept as it is, and the scan of what follows it. */
  lemma UnindentLineHead(l: string, t: string)
    requires IsItemLine(l)
    ensures Unindent(l + t, true) == l[..ItemLen(l)] + Unindent(l[ItemLen(l)..] + t, false)
  {
    LeadFacts(l, t);
    UnindentAtItem(l + t, ItemLen(l));
  }

  /** A list line in front of any text: no indentation, the same marker, and the same parts around it. */
  lemma LeadFacts(l: string, t: string)
    requires IsItemLine(l)
    ensures PrefixLen(l + t, IsJsSpace, true) == 0 && ItemLen(l + t) == ItemLen(l)
    ensures (l + t)[..ItemLen(l)] == l[..ItemLen(l)] && (l + t)[ItemLen(l)..] == l[ItemLen(l)..] + t
    ensures !IsLineTerminator((l + t)[ItemLen(l) - 1])
  {
    ItemDigits(l);
    assert (l + t)[0] == l[0];
    ItemLenAppend(l, t);
  }

  lemma SplitAt(l: string, k: nat, u: string)
    requires k <= |l|
    ensures l[..k] + (l[k..] + u) == l + u
  {
    assert l == l[..k] + l[k..];
  }

  /** After a line feed the scan is at a line start again. */
  lemma UnindentNewline(u: string)
    ensures Unindent("\n" + u, false) == "\n" + Unindent(u, true)
  {
    assert ("\n" + u)[0] == '\n';
    assert ("\n" + u)[1..] == u;
  }

  /** A numbered list whose lines start with their markers has no indentation to drop. */
  lemma {:induction false} UnindentLines(ls: seq<string>)
    requires forall i :: 0 <= i < |ls| ==> IsItemLine(ls[i])
    ensures Unindent(Join("\n", ls), true) == Join("\n", ls)
    decreases |ls|
  {
    if |ls| == 1 {
      UnindentItemLine(ls[0], "");
      assert ls[0] + "" == ls[0];
    } else if |ls| > 1 {
      var u := Join("\n", ls[1..]);
      JoinLines(ls);
      UnindentLines(ls[1..]);
      UnindentItemLine(ls[0], "\n" + u);
      UnindentNewline(u);
    }
  }

  /** One answer that is a numbered list: its markers become `Marker(n)`, `Marker(n + 1)`, … in order. */
  lemma ProcessLines(ls: seq<string>, n: nat)
    requires forall i :: 0 <= i < |ls| ==> IsItemLine(ls[i])
    ensures Process(Join("\n", ls), n) == Numbered(Join("\n", MarkedLines(ls, n)), n + |ls|)
  {
    UnindentLines(ls);
    RenumberLines(ls, n);
  }

  // ---------------------------------------------------------------------------
  // `combineNumberedLists`
  // ---------------------------------------------------------------------------

  /** One answer, unindented then renumbered from `n`. */
  function Process(response: string, n: nat): Numbered {
    Renumber(Unindent(response, true), true, n)
  }

  /**
   The source's `forEach`: skip answers holding the sentinel, process the others with
   the running counter, and append each with a blank line in front unless nothing has
   been gathered yet.
   */
  function CombineFrom(responses: seq<string>, acc: string, n: nat): string
    decreases |responses|
  {
    if |responses| == 0 then acc
    else if Contains(responses[0], PdfScoring.SENTINEL) then CombineFrom(responses[1..], acc, n)
    else
      var p := Process(responses[0], n);
      CombineFrom(responses[1..], acc + (if acc != "" then PARAGRAPH_BREAK else "") + p.text, p.next)
  }

  /**
   `combineNumberedLists(responses)`, numbering from 1: the answers without the sentinel,
   processed in order with one running counter, joined by blank lines, with no
   separator in front of the first non-empty one.
   */
  function Combine(responses: seq<string>): (r: string)
    ensures r == Join(PARAGRAPH_BREAK, DropLeadingEmpty(Pieces(responses, 1)))
  {
    CombineIsJoin(responses, 1);
    CombineFrom(responses, "", 1)
  }

  /** The processed answers without the sentinel, numbered with one running counter. */
  function Pieces(responses: seq<string>, n: nat): seq<string>
    decreases |responses|
  {
    if |responses| == 0 then []
    else if Contains(responses[0], PdfScoring.SENTINEL) then Pieces(responses[1..], n)
    else
      var p := Process(responses[0], n);
      [p.text] + Pieces(responses[1..], p.next)
  }

  /** Drop the empty pieces in front: they add nothing while nothing has been gathered. */
  function DropLeadingEmpty(pieces: seq<string>): (r: seq<string>)
    ensures |r| > 0 ==> r[0] != ""
    decreases |pieces|
  {
    if |pieces| > 0 && pieces[0] == "" then DropLeadingEmpty(pieces[1..]) else pieces
  }

  /** Join after a non-empty head. */
  lemma JoinStep(sep: string, head: string, p: string, ps: seq<string>)
    ensures Join(sep, [head] + ([p] + ps)) == Join(sep, [head + sep + p] + ps)
  {
    var left := [head] + ([p] + ps);
    assert left[1..] == [p] + ps;
    if |ps| > 0 {
      assert ([head + sep + p] + ps)[1..] == ps;
      assert ([p] + ps)[1..] == ps;
    }
  }

  /** Once something has been gathered, every later piece is appended after a blank line. */
  lemma {:induction false} CombineAfter(responses: seq<string>, acc: string, n: nat)
    requires acc != ""
    ensures CombineFrom(responses, acc, n) == Join(PARAGRAPH_BREAK, [acc] + Pieces(responses, n))
    decreases |responses|
  {
    if |responses| == 0 {
      assert [acc] + Pieces(responses, n) == [acc];
    } else if Contains(responses[0], PdfScoring.SENTINEL) {
      CombineAfter(responses[1..], acc, n);
    } else {
      var p := Process(responses[0], n);
      var acc' := acc + PARAGRAPH_BREAK + p.text;
      CombineAfter(responses[1..], acc', p.next);
      JoinStep(PARAGRAPH_BREAK, acc, p.text, Pieces(responses[1..], p.next));
    }
  }

  /**
   The merged answer is the processed answers without the sentinel, in order, joined
   by blank lines — leaving out empty answers before the first non-empty one.
   */
  lemma {:induction false} CombineIsJoin(responses: seq<string>, n: nat)
    ensures CombineFrom(responses, "", n) == Join(PARAGRAPH_BREAK, DropLeadingEmpty(Pieces(responses, n)))
    decreases |responses|
  {
    if |responses| > 0 {
      if Contains(responses[0], PdfScoring.SENTINEL) {
        CombineIsJoin(responses[1..], n);
      } else {
        var p := Process(responses[0], n);
        var rest := Pieces(responses[1..], p.next);
        assert Pieces(responses, n) == [p.text] + rest;
        if p.text == "" {
          assert "" + "" + p.text == "";
          CombineIsJoin(responses[1..], p.next);
          assert ([p.text] + rest)[1..] == rest;
        } else {
          assert "" + "" + p.text == p.text;
          CombineAfter(responses[1..], p.text, p.next);
        }
      }
    }
  }

  /** Answers that all hold the sentinel merge to nothing. */
  lemma {:induction false} CombineAllIrrelevant(responses: seq<string>, acc: string, n: nat)
    requires forall i :: 0 <= i < |responses| ==> Contains(responses[i], PdfScoring.SENTINEL)
    ensures CombineFrom(responses, acc, n) == acc
    decreases |responses|
  {
    if |responses| > 0 {
      CombineAllIrrelevant(responses[1..], acc, n);
    }
  }

  /** The numbers handed out across all merged answers: the final counter of the merge. */
  function NextNumber(responses: seq<string>, n: nat): (next: nat)
    ensures next >= n
    decreases |responses|
  {
    if |responses| == 0 then n
    else if Contains(responses[0], PdfScoring.SENTINEL) then NextNumber(responses[1..], n)
    else NextNumber(responses[1..], Process(responses[0], n).next)
  }

  /**
   Numbering runs on across answers: the counter ends past one number per list marker
   at a line start of each unindented answer without the sentinel.
   */
  lemma {:induction false} NumberingContinues(responses: seq<string>, n: nat)
    ensures NextNumber(responses, n) == n + TotalItems(responses)
    decreases |responses|
  {
    if |responses| > 0 {
      if !Contains(responses[0], PdfScoring.SENTINEL) {
        NumberingContinues(responses[1..], Process(responses[0], n).next);
      } else {
        NumberingContinues(responses[1..], n);
      }
    }
  }

  /** List markers at line starts of the unindented answers without the sentinel. */
  function TotalItems(responses: seq<string>): nat
    decreases |responses|
  {
    if |responses| == 0 then 0
    else if Contains(responses[0], PdfScoring.SENTINEL) then TotalItems(responses[1..])
    else ItemStarts(Unindent(responses[0], true), true) + TotalItems(responses[1..])
  }
}

=== FILE: pdf_route.dfy ===
/**
 The PDF question-answering route (`POST` of `app/api/process-pdf/route.js`): request
 validation, one chat-completion call per chunk, filtering and scoring of the replies,
 and the choice between the best reply (specific questions) and the merged replies.

 The chat-completion service is a parameter: a function from the request the route
 builds to the reply it gets. A reply is either a failure (the call throws) or a
 message content, possibly absent, with the token usage.
 */
module PdfRoute {
  import opened Wrappers
  import opened Http
  import opened Strings
  import opened PdfChunks
  import opened PdfScoring
  import opened PdfMerge
  import Sorting

  /** The two system messages: for one part of a longer document, or for a whole document. */
  datatype Instructions = PartInstructions | WholeInstructions

  /** One chat-completion request; the system message is sent as `SystemText(system)`. */
  datatype Prompt = Prompt(model: string, system: Instructions, user: string, temperature: real, maxTokens: nat)

  /** What one chat-completion request yields. */
  datatype Reply =
    | Failed(message: string)
    | Replied(content: Option<string>, promptTokens: nat, completionTokens: nat)

  /** The chat-completion service, as seen by the route. */
  type Chat = Prompt -> Reply

  datatype Tokens = Tokens(prompt: nat, completion: nat)

  /** A reply that made it into the answer pool, with its relevance score and usage. */
  datatype Entry = Entry(response: string, score: nat, tokens: Tokens)

  /** The route's JSON response. */
  datatype Response =
    | Answer(content: string, model: string, tokens: Tokens)
    | Error(status: nat, error: string)

  const MODEL: string := "gpt-3.5-turbo-0125"
  const TEMPERATURE: real := 0.7
  const MAX_REPLY_TOKENS: nat := 800

  /** The answer when nothing relevant was found (split after its first letter, which the proofs look at). */
  const FALLBACK: string := "I" + " could not find any relevant information in the document to answer your question."
  const MISSING_FIELDS: string := "PDF content and question are required"
  const FAILURE_PREFIX: string := "Failed to process PDF: "

  /** A line break followed by the 17-space indentation the prompt literals carry. */
  const INDENT: string := "\n                 "

  /** The text of a system message. */
  function SystemText(i: Instructions): string {
    match i
    case PartInstructions => PART_SYSTEM_PROMPT
    case WholeInstructions => WHOLE_SYSTEM_PROMPT
  }

  /** System prompt when the document has several chunks: extract, or answer with the sentinel. */
  const PART_SYSTEM_PROMPT: string :=
    "You are analyzing a part of a larger document. Extract detailed information that's relevant to the user's question. "
    + INDENT + "If you find relevant information, provide it in detail. If you find no relevant information, respond with 'NO_RELEVANT_INFO'."
    + INDENT + "Be concise but thorough. Format numbered lists by starting each item at the beginning of the line."
    + INDENT + "If the question asks for specific information and you find a definitive answer, make sure to indicate this clearly."

  /** System prompt when the document is one chunk: answer directly. */
  const WHOLE_SYSTEM_PROMPT: string :=
    "You are a helpful assistant that answers questions about PDF documents. "
    + INDENT + "Provide specific answers based on the document content. If the answer cannot be found in the document, say so clearly."
    + INDENT + "Format numbered lists by starting each item at the beginning of the line."

  // ---------------------------------------------------------------------------
  // The size limit message
  // ---------------------------------------------------------------------------

  predicate IsComma(c: char) {
    c == ','
  }

  /** Thousands separators for a string of digits, as `toLocaleString` writes them in English. */
  function GroupDigits(digits: string): (r: string)
    ensures |digits| <= 3 ==> r == digits
    decreases |digits|
  {
    if |digits| <= 3 then digits
    else GroupDigits(digits[..|digits| - 3]) + "," + digits[|digits| - 3..]
  }

  /** Dropping the separators gives the digits back. */
  lemma {:induction false} GroupDigitsRoundTrip(digits: string)
    requires forall i :: 0 <= i < |digits| ==> IsDigit(digits[i])
    ensures Remove(GroupDigits(digits), IsComma) == digits
    decreases |digits|
  {
    if |digits| > 3 {
      var head, tail := digits[..|digits| - 3], digits[|digits| - 3..];
      assert forall i :: 0 <= i < |head| ==> IsDigit(head[i]);
      assert forall i :: 0 <= i < |tail| ==> !IsComma(tail[i]);
      GroupDigitsRoundTrip(head);
      assert digits == head + tail;
      DropComma(GroupDigits(head), head, tail, GroupDigits(digits));
    } else {
      assert forall i :: 0 <= i < |digits| ==> !IsComma(digits[i]);
      RemoveNone(digits, IsComma);
    }
  }

  /** One step of the round trip: the comma before the last group is the only one dropped there. */
  lemma DropComma(g: string, head: string, tail: string, whole: string)
    requires whole == g + "," + tail && Remove(g, IsComma) == head
    requires forall i :: 0 <= i < |tail| ==> !IsComma(tail[i])
    ensures Remove(whole, IsComma) == head + tail
  {
    RemoveNone(tail, IsComma);
    RemoveAppend(g + ",", tail, IsComma);
    RemoveAppend(g, ",", IsComma);
    assert Remove(",", IsComma) == "";
    assert head + "" == head;
  }

  /** `n.toLocaleString()` in English: the decimal numeral with thousands separators. */
  function Grouped(n: nat): string {
    GroupDigits(Decimal(n))
  }

  /** `Math.round(length / 4)`, halves rounded up. */
  function EstimatedTokens(length: nat): (t: nat)
    ensures 4 * t <= length + 2 < 4 * t + 4
  {
    (length + 2) / TOKENS_TO_CHARS_RATIO
  }

  function TooLargeMessage(length: nat): string {
    "PDF is too large to process. Maximum size is " + Grouped(MAX_PDF_TOKENS)
    + " tokens (approximately " + Grouped(MAX_PDF_CHARS / 1000)
    + "K characters). Your PDF is approximately " + Grouped(EstimatedTokens(length))
    + " tokens. Please try a smaller document or split your PDF into smaller parts."
  }

  // ---------------------------------------------------------------------------
  // Querying the chunks
  // ---------------------------------------------------------------------------

  /** The request for chunk `i` of `chunks`. */
  function ChunkPrompt(chunks: seq<string>, i: nat, question: string): (p: Prompt)
    requires i < |chunks|
    ensures StartsWith(p.user, "[Part " + Decimal(i + 1) + "/" + Decimal(|chunks|) + "] ")
  {
    var info := "[Part " + Decimal(i + 1) + "/" + Decimal(|chunks|) + "] ";
    var user := info + "Here is the content from the PDF document:\n\n" + chunks[i]
      + "\n\nQuestion: " + question + "\n\nPlease provide a detailed answer based on the PDF content above.";
    assert user[..|info|] == info;
    Prompt(MODEL, if |chunks| > 1 then PartInstructions else WholeInstructions, user, TEMPERATURE, MAX_REPLY_TOKENS)
  }

  /** `response.choices[0]?.message?.content || ""`. */
  function ReplyText(content: Option<string>): string {
    content.GetOr("")
  }

  /** The reply the route gets for each chunk, in chunk order. */
  function Replies(chat: Chat, chunks: seq<string>, question: string): (rs: seq<Reply>)
    ensures |rs| == |chunks|
    ensures forall j :: 0 <= j < |chunks| ==> rs[j] == chat(ChunkPrompt(chunks, j, question))
  {
    seq(|chunks|, j requires 0 <= j < |chunks| => chat(ChunkPrompt(chunks, j, question)))
  }

  /** The outcome of querying the chunks: aborted by the first failing call, or the pool of replies. */
  datatype Collected = Aborted(message: string) | Pooled(entries: seq<Entry>)

  /** A reply holding the sentinel. */
  predicate Irrelevant(reply: Reply) {
    reply.Replied? && Contains(ReplyText(reply.content), SENTINEL)
  }

  /**
   The chunk loop, fed the replies in chunk order. Replies holding the sentinel are
   dropped; the others are scored against the question. The first failing call aborts
   the route, and no later reply is looked at.
   */
  function Collect(replies: seq<Reply>, question: string): (r: Collected)
    ensures r.Pooled? ==> |r.entries| <= |replies|
    decreases |replies|
  {
    if |replies| == 0 then Pooled([])
    else
      var reply := replies[0];
      if reply.Failed? then Aborted(reply.message)
      else
        var rest := Collect(replies[1..], question);
        if rest.Aborted? then rest
        else
          var text := ReplyText(reply.content);
          if Contains(text, SENTINEL) then rest
          else Pooled([Entry(text, Score(text, question), Tokens(reply.promptTokens, reply.completionTokens))] + rest.entries)
  }

  /** The chunk loop aborts exactly when some call fails. */
  lemma {:induction false} CollectAborts(replies: seq<Reply>, question: string)
    ensures Collect(replies, question).Aborted? <==> exists j :: 0 <= j < |replies| && replies[j].Failed?
    decreases |replies|
  {
    if |replies| > 0 {
      var tail := replies[1..];
      CollectAborts(tail, question);
      if Collect(tail, question).Aborted? {
        var j :| 0 <= j < |tail| && tail[j].Failed?;
        assert replies[j + 1].Failed?;
      } else if !replies[0].Failed? {
        forall j | 0 <= j < |replies| ensures !replies[j].Failed? {
          if j > 0 {
            assert replies[j] == tail[j - 1];
          }
        }
      }
    }
  }

  /** Every pooled entry is a reply without the sentinel, scored against the question. */
  lemma {:induction false} CollectEntries(replies: seq<Reply>, question: string)
    ensures var r := Collect(replies, question);
      r.Pooled? ==> forall e :: e in r.entries ==>
        !Contains(e.response, SENTINEL) && e.score == Score(e.response, question)
    decreases |replies|
  {
    if |replies| > 0 {
      CollectEntries(replies[1..], question);
    }
  }

  /** A reply the loop pools: an answer without the sentinel. */
  predicate Kept(reply: Reply) {
    reply.Replied? && !Irrelevant(reply)
  }

  /** The entry pooled for an answer: its text, scored against the question, and its usage. */
  function EntryOf(reply: Reply, question: string): Entry
    requires reply.Replied?
  {
    var text := ReplyText(reply.content);
    Entry(text, Score(text, question), Tokens(reply.promptTokens, reply.completionTokens))
  }

  /** The entries of answers, one each, in order. */
  function Entries(answers: seq<Reply>, question: string): (es: seq<Entry>)
    requires forall k :: 0 <= k < |answers| ==> answers[k].Replied?
    ensures |es| == |answers|
    ensures forall k :: 0 <= k < |es| ==> es[k] == EntryOf(answers[k], question)
  {
    seq(|answers|, k requires 0 <= k < |answers| => EntryOf(answers[k], question))
  }

  /**
   When no call fails, the pool is the replies without the sentinel, in chunk order,
   each with its score and usage.
   */
  lemma {:induction false} CollectPools(replies: seq<Reply>, question: string)
    requires forall j :: 0 <= j < |replies| ==> replies[j].Replied?
    ensures Collect(replies, question) == Pooled(Entries(Sorting.Filter(replies, Kept, true), question))
    decreases |replies|
  {
    if |replies| > 0 {
      var tail := replies[1..];
      assert forall j :: 0 <= j < |tail| ==> tail[j] == replies[j + 1];
      CollectPools(tail, question);
      var rest := Sorting.Filter(tail, Kept, true);
      var reply := replies[0];
      if Kept(reply) {
        assert Sorting.Filter(replies, Kept, true) == [reply] + rest;
        PoolStep(reply, rest, question);
      } else {
        assert Sorting.Filter(replies, Kept, true) == rest;
      }
    }
  }

  /** The entries of an answer in front of others are its entry in front of theirs. */
  lemma PoolStep(reply: Reply, rest: seq<Reply>, question: string)
    requires reply.Replied? && forall k :: 0 <= k < |rest| ==> rest[k].Replied?
    ensures Entries([reply] + rest, question) == [EntryOf(reply, question)] + Entries(rest, question)
  {
    var whole := [reply] + rest;
    assert forall k :: 1 <= k < |whole| ==> whole[k] == rest[k - 1];
  }

  /** An aborted route reports the message of the first failing call. */
  lemma {:induction false} AbortReportsFirstFailure(replies: seq<Reply>, question: string, j: nat)
    requires j < |replies| && replies[j].Failed?
    requires forall k :: 0 <= k < j ==> !replies[k].Failed?
    ensures Collect(replies, question) == Aborted(replies[j].message)
    decreases j
  {
    if j > 0 {
      var tail := replies[1..];
      assert forall k :: 0 <= k < j - 1 ==> tail[k] == replies[k + 1];
      AbortReportsFirstFailure(tail, question, j - 1);
    }
  }

  /** The pool holds every reply, one entry each, in chunk order. */
  predicate PoolsAll(r: Collected, replies: seq<Reply>) {
    && r.Pooled?
    && |r.entries| == |replies|
    && forall k :: 0 <= k < |replies| ==>
      replies[k].Replied? && r.entries[k].response == ReplyText(replies[k].content)
      && r.entries[k].tokens == Tokens(replies[k].promptTokens, replies[k].completionTokens)
  }

  /** With every reply relevant, the pool has one entry per chunk, in chunk order. */
  lemma {:induction false} PoolKeepsRelevant(replies: seq<Reply>, question: string)
    requires forall j :: 0 <= j < |replies| ==> replies[j].Replied? && !Irrelevant(replies[j])
    ensures PoolsAll(Collect(replies, question), replies)
    decreases |replies|
  {
    if |replies| > 0 {
      var tail := replies[1..];
      assert forall j :: 0 <= j < |tail| ==> tail[j] == replies[j + 1];
      PoolKeepsRelevant(tail, question);
      var rest := Collect(tail, question);
      var reply := replies[0];
      assert !Irrelevant(reply);
      var text := ReplyText(reply.content);
      var r := Pooled([Entry(text, Score(text, question), Tokens(reply.promptTokens, reply.completionTokens))] + rest.entries);
      assert Collect(replies, question) == r;
      forall k | 0 <= k < |replies|
        ensures replies[k].Replied? && r.entries[k].response == ReplyText(replies[k].content)
          && r.entries[k].tokens == Tokens(replies[k].promptTokens, replies[k].completionTokens)
      {
        if k > 0 {
          assert r.entries[k] == rest.entries[k - 1];
        }
      }
    }
  }

  /** With every reply holding the sentinel, the pool is empty. */
  lemma {:induction false} PoolDropsIrrelevant(replies: seq<Reply>, question: string)
    requires forall j :: 0 <= j < |replies| ==> Irrelevant(replies[j])
    ensures Collect(replies, question) == Pooled([])
    decreases |replies|
  {
    if |replies| > 0 {
      assert Irrelevant(replies[0]);
      PoolDropsIrrelevant(replies[1..], question);
    }
  }

  // ---------------------------------------------------------------------------
  // Choosing the answer
  // ---------------------------------------------------------------------------

  /** Index `i` holds the highest score, and every earlier entry scores strictly lower. */
  predicate IsFirstMax(entries: seq<Entry>, i: nat) {
    && i < |entries|
    && (forall j :: 0 <= j < |entries| ==> entries[j].score <= entries[i].score)
    && (forall j :: 0 <= j < i ==> entries[j].score < entries[i].score)
  }

  /**
   `entries.reduce((best, current) => current.score > best.score ? current : best)`,
   tracked by index: `best` is the pick among the first `k` entries.
   */
  function BestFrom(entries: seq<Entry>, best: nat, k: nat): (b: nat)
    requires best < k <= |entries|
    requires IsFirstMax(entries[..k], best)
    ensures IsFirstMax(entries, b)
    decreases |entries| - k
  {
    if k == |entries| then
      assert entries[..k] == entries;
      best
    else
      var next := if entries[k].score > entries[best].score then k else best;
      assert entries[..k + 1][..k] == entries[..k];
      BestFrom(entries, next, k + 1)
  }

  /** The index of the reply the route keeps for a specific question. */
  function BestIndex(entries: seq<Entry>): (b: nat)
    requires |entries| > 0
    ensures IsFirstMax(entries, b)
  {
    BestFrom(entries, 0, 1)
  }

  /** Only one index is the first maximum: the scan's pick is determined by the scores. */
  lemma FirstMaxUnique(entries: seq<Entry>, a: nat, b: nat)
    requires IsFirstMax(entries, a) && IsFirstMax(entries, b)
    ensures a == b
  {
    assert entries[a].score <= entries[b].score;
    assert entries[b].score <= entries[a].score;
  }

  /** Token usage summed over the pool. */
  function SumTokens(entries: seq<Entry>): (t: Tokens)
    ensures forall e :: e in entries ==> e.tokens.prompt <= t.prompt && e.tokens.completion <= t.completion
    ensures entries == [] ==> t == Tokens(0, 0)
    ensures |entries| == 1 ==> t == entries[0].tokens
    decreases |entries|
  {
    if |entries| == 0 then Tokens(0, 0)
    else
      var rest := SumTokens(entries[1..]);
      assert forall e :: e in entries ==> e == entries[0] || e in entries[1..];
      Tokens(entries[0].tokens.prompt + rest.prompt, entries[0].tokens.completion + rest.completion)
  }

  /** The totals of a pool split in two are the sums of the totals of its parts. */
  lemma {:induction false} SumTokensAppend(a: seq<Entry>, b: seq<Entry>)
    ensures SumTokens(a + b).prompt == SumTokens(a).prompt + SumTokens(b).prompt
    ensures SumTokens(a + b).completion == SumTokens(a).completion + SumTokens(b).completion
    decreases |a|
  {
    if |a| == 0 {
      assert a + b == b;
    } else {
      assert (a + b)[0] == a[0];
      assert (a + b)[1..] == a[1..] + b;
      SumTokensAppend(a[1..], b);
    }
  }

  function Responses(entries: seq<Entry>): (rs: seq<string>)
    ensures |rs| == |entries| && forall i :: 0 <= i < |rs| ==> rs[i] == entries[i].response
  {
    seq(|entries|, i requires 0 <= i < |entries| => entries[i].response)
  }

  /** The trimmed answer, or the fallback text when the answer is blank. */
  function Final(answer: string): (r: string)
    ensures r != "" && IsTrimmed(r)
    ensures Trim(answer) != "" ==> r == Trim(answer)
    ensures Trim(answer) == "" ==> r == FALLBACK
  {
    if Trim(answer) == "" then
      FallbackTrimmed();
      FALLBACK
    else Trim(answer)
  }

  lemma FallbackTrimmed()
    ensures FALLBACK != "" && Trim(FALLBACK) == FALLBACK
  {
    assert FALLBACK[0] == 'I';
    TrimTrimmed(FALLBACK);
  }

  /** The answer for a valid request once the pool is known. */
  function Finish(entries: seq<Entry>, question: string): (r: Response)
    ensures r.Answer? && r.model == MODEL
    ensures r.content != "" && IsTrimmed(r.content)
  {
    if IsSpecificQuestion(question) && |entries| > 0 then
      var best := entries[BestIndex(entries)];
      Answer(Final(best.response), MODEL, best.tokens)
    else
      Answer(Final(Combine(Responses(entries))), MODEL, SumTokens(entries))
  }

  /** The answer for a valid request: chunk, query, choose. */
  function Process(text: string, question: string, chat: Chat): (r: Response)
    ensures r.Error? ==> r.status == 500
    ensures r.Answer? ==> r.content != "" && IsTrimmed(r.content) && r.model == MODEL
  {
    var chunks := SplitIntoChunks(text, DEFAULT_MAX_TOKENS);
    match Collect(Replies(chat, chunks, question), question)
    case Aborted(message) => Error(500, FAILURE_PREFIX + message)
    case Pooled(entries) => Finish(entries, question)
  }

  // ---------------------------------------------------------------------------
  // The route
  // ---------------------------------------------------------------------------

  /** The text of the `TypeError` thrown by reading `length` of a missing value. */
  function LengthOfMissing(pdfContent: Field): string
    requires !pdfContent.Text?
  {
    "Cannot read properties of " + (if pdfContent.Null? then "null" else "undefined") + " (reading 'length')"
  }

  /**
   `POST` as written: the size check reads `pdfContent.length` before the check for
   missing fields, so a request without `pdfContent` throws and gets status 500.
   */
  function PostAsWritten(pdfContent: Field, question: Field, chat: Chat): (r: Response)
    ensures !pdfContent.Text? ==> r.Error? && r.status == 500
    ensures r.Error? && r.status == 413 <==> pdfContent.Text? && |pdfContent.s| > MAX_PDF_CHARS
    ensures r.Error? && r.status == 400 <==>
      pdfContent.Text? && |pdfContent.s| <= MAX_PDF_CHARS && !(pdfContent.Truthy() && question.Truthy())
    ensures r.Answer? ==> r.content != "" && IsTrimmed(r.content) && r.model == MODEL
  {
    if !pdfContent.Text? then Error(500, FAILURE_PREFIX + LengthOfMissing(pdfContent))
    else if |pdfContent.s| > MAX_PDF_CHARS then Error(413, TooLargeMessage(|pdfContent.s|))
    else if !pdfContent.Truthy() || !question.Truthy() then Error(400, MISSING_FIELDS)
    else Process(pdfContent.s, question.s, chat)
  }

  /**
   `POST` with the size check reading the length only of a present document (as the
   logging line before it does), so that missing fields get the intended status 400.
   */
  function Post(pdfContent: Field, question: Field, chat: Chat): (r: Response)
    ensures r.Error? && r.status == 413 <==> pdfContent.Text? && |pdfContent.s| > MAX_PDF_CHARS
    ensures r.Error? && r.status == 400 <==>
      !(pdfContent.Text? && |pdfContent.s| > MAX_PDF_CHARS) && !(pdfContent.Truthy() && question.Truthy())
    ensures r.Answer? ==> r.content != "" && IsTrimmed(r.content) && r.model == MODEL
  {
    if pdfContent.Text? && |pdfContent.s| > MAX_PDF_CHARS then Error(413, TooLargeMessage(|pdfContent.s|))
    else if !pdfContent.Truthy() || !question.Truthy() then Error(400, MISSING_FIELDS)
    else Process(pdfContent.s, question.s, chat)
  }

  /** The two agree whenever the document field is a string. */
  lemma PostAgreesOnText(pdfContent: Field, question: Field, chat: Chat)
    requires pdfContent.Text?
    ensures PostAsWritten(pdfContent, question, chat) == Post(pdfContent, question, chat)
  {}

  /** The discrepancy: a request without `pdfContent` gets 500 as written, 400 as intended. */
  lemma MissingDocumentCounterexample(question: Field, chat: Chat)
    ensures PostAsWritten(Undefined, question, chat) == Error(500, FAILURE_PREFIX + LengthOfMissing(Undefined))
    ensures Post(Undefined, question, chat) == Error(400, MISSING_FIELDS)
  {}

  /** Rejected requests never reach the chat service: the response does not depend on it. */
  lemma RejectionIgnoresChat(pdfContent: Field, question: Field, chat1: Chat, chat2: Chat)
    requires Post(pdfContent, question, chat1).Error?
    requires Post(pdfContent, question, chat1).status != 500
    ensures Post(pdfContent, question, chat2) == Post(pdfContent, question, chat1)
  {}

  /** When every chunk's reply holds the sentinel, the route answers with the fallback text and no usage. */
  lemma NothingRelevant(text: string, question: string, chat: Chat)
    requires var chunks := SplitIntoChunks(text, DEFAULT_MAX_TOKENS);
      forall j :: 0 <= j < |chunks| ==> Irrelevant(chat(ChunkPrompt(chunks, j, question)))
    ensures Process(text, question, chat) == Answer(FALLBACK, MODEL, Tokens(0, 0))
  {
    var replies := Replies(chat, SplitIntoChunks(text, DEFAULT_MAX_TOKENS), question);
    forall j | 0 <= j < |replies| ensures Irrelevant(replies[j]) {
      assert replies[j] == chat(ChunkPrompt(SplitIntoChunks(text, DEFAULT_MAX_TOKENS), j, question));
    }
    PoolDropsIrrelevant(replies, question);
    assert Combine(Responses([])) == "";
    TrimEmptyIffBlank("");
  }

  /**
   A specific question answered by at least one chunk gets the first highest-scoring
   reply, with that reply's usage alone.
   */
  lemma SpecificTakesBest(entries: seq<Entry>, question: string, b: nat)
    requires IsSpecificQuestion(question) && IsFirstMax(entries, b)
    requires Trim(entries[b].response) != ""
    ensures Finish(entries, question) == Answer(Trim(entries[b].response), MODEL, entries[b].tokens)
  {
    FirstMaxUnique(entries, b, BestIndex(entries));
  }

  /**
   Any other question gets the merged replies, with the usage summed over all of them.
   */
  lemma GeneralMerges(entries: seq<Entry>, question: string)
    requires !IsSpecificQuestion(question) || entries == []
    requires Trim(Combine(Responses(entries))) != ""
    ensures Finish(entries, question) == Answer(Trim(Combine(Responses(entries))), MODEL, SumTokens(entries))
  {}
}

=== FILE: pdf_scoring.dfy ===
/**
 How the question-answering route classifies a question and scores the answer it got
 for one chunk of the document.
 */
module PdfScoring {
  import opened Strings
  import Sorting

  /** The reply a model gives for a chunk without anything relevant. */
  const SENTINEL: string := "NO_RELEVANT_INFO"

  /** Phrases that make a question ask for one definite fact. */
  const SPECIFIC_KEYWORDS: seq<string> := [
    "what is", "what are", "where is", "where are", "when", "which", "how many",
    "how much", "list the", "find the", "tell me the", "show me the", "give me the"
  ]

  /** Phrases that make a question ask for an overview; they win over the specific ones. */
  const GENERAL_KEYWORDS: seq<string> := [
    "summarize", "summarise", "overview", "explain", "describe", "elaborate", "discuss",
    "analyze", "analyse", "review", "tell me about"
  ]

  /** Question words that never count as key terms. */
  const STOP_WORDS: seq<string> := ["what", "where", "when", "how", "the", "are", "is"]

  /** Phrases by which an answer cites the document (worth 5). */
  const CITATION_PHRASES: seq<string> := ["mentioned in", "according to", "in the article", "the document states"]

  /** Phrases by which a question asks for a number (a digit in the answer is worth 3). */
  const NUMBER_CUES: seq<string> := ["how many", "value", "number"]

  /** `keys.some(k => s.includes(k))`, scanning the keys in order. */
  predicate ContainsAny(s: string, keys: seq<string>)
    ensures ContainsAny(s, keys) <==> exists i :: 0 <= i < |keys| && Contains(s, keys[i])
    decreases |keys|
  {
    if |keys| == 0 then false
    else Contains(s, keys[0]) || ContainsAny(s, keys[1..])
  }

  // ---------------------------------------------------------------------------
  // Question classification
  // ---------------------------------------------------------------------------

  /**
   `isSpecificQuestion`: a question is specific when its lower-cased text holds a
   specific phrase and no general phrase.
   */
  predicate IsSpecificQuestion(question: string)
    ensures IsSpecificQuestion(question) <==>
      && (forall i :: 0 <= i < |GENERAL_KEYWORDS| ==> !Contains(ToLower(question), GENERAL_KEYWORDS[i]))
      && (exists i :: 0 <= i < |SPECIFIC_KEYWORDS| && Contains(ToLower(question), SPECIFIC_KEYWORDS[i]))
  {
    var q := ToLower(question);
    if ContainsAny(q, GENERAL_KEYWORDS) then false else ContainsAny(q, SPECIFIC_KEYWORDS)
  }

  // ---------------------------------------------------------------------------
  // Relevance score
  // ---------------------------------------------------------------------------

  /** A word of the question that counts as a key term. */
  predicate IsTerm(word: string) {
    |word| > 3 && word !in STOP_WORDS
  }

  /**
   `words.filter(isTerm)`: every key term, as often as it occurs, and nothing else.
   Filtering splits over concatenation, so the order of the words is kept too.
   */
  function KeepTerms(words: seq<string>): (terms: seq<string>)
    ensures |terms| <= |words|
    ensures forall i :: 0 <= i < |terms| ==> IsTerm(terms[i]) && terms[i] in words
    ensures forall i :: 0 <= i < |words| && IsTerm(words[i]) ==> words[i] in terms
    ensures forall w :: multiset(terms)[w] == if IsTerm(w) then multiset(words)[w] else 0
  {
    Sorting.FilterMembers(words, IsTerm, true);
    Sorting.FilterCount(words, IsTerm, true);
    Sorting.Filter(words, IsTerm, true)
  }

  /** Keeping terms of two word lists one after the other is keeping them from the whole. */
  lemma KeepTermsAppend(a: seq<string>, b: seq<string>)
    ensures KeepTerms(a + b) == KeepTerms(a) + KeepTerms(b)
    ensures KeepTerms([]) == []
    ensures forall w :: KeepTerms([w]) == if IsTerm(w) then [w] else []
  {
    Sorting.FilterAppend(a, b, IsTerm, true);
  }

  /**
   The key terms of a question: its lower-cased words, split on white space, that are
   long and not question words, each as often as the question repeats it.
   */
  function Terms(question: string): (terms: seq<string>)
    ensures forall i :: 0 <= i < |terms| ==> IsTerm(terms[i])
    ensures forall i, j :: 0 <= i < |terms| && 0 <= j < |terms[i]| ==> !IsJsSpace(terms[i][j])
    ensures forall w ::
      multiset(terms)[w] == if IsTerm(w) then multiset(SplitSpaces(ToLower(question)))[w] else 0
  {
    SplitRunsClean(ToLower(question), IsJsSpace);
    KeepTerms(SplitSpaces(ToLower(question)))
  }

  /** The test the score applies to each key term: does the text hold it. */
  function FoundIn(text: string): string -> bool {
    t => Contains(text, t)
  }

  /** How many of `terms` occur in `text`, counting a repeated term each time. */
  function Hits(text: string, terms: seq<string>): (n: nat)
    ensures n <= |terms|
    decreases |terms|
  {
    if |terms| == 0 then 0
    else (if Contains(text, terms[0]) then 1 else 0) + Hits(text, terms[1..])
  }

  /** The hits are the terms, repeats included, that the text holds. */
  lemma {:induction false} HitsFound(text: string, terms: seq<string>)
    ensures Hits(text, terms) == |Sorting.Filter(terms, FoundIn(text), true)|
    decreases |terms|
  {
    if |terms| > 0 {
      HitsFound(text, terms[1..]);
    }
  }

  /** No hit means no term was found; all hits means every term was. */
  lemma {:induction false} HitsExtremes(text: string, terms: seq<string>)
    ensures Hits(text, terms) == 0 <==> forall i :: 0 <= i < |terms| ==> !Contains(text, terms[i])
    ensures Hits(text, terms) == |terms| <==> forall i :: 0 <= i < |terms| ==> Contains(text, terms[i])
    decreases |terms|
  {
    if |terms| > 0 {
      HitsExtremes(text, terms[1..]);
      assert forall i :: 1 <= i < |terms| ==> terms[i] == terms[1..][i - 1];
    }
  }

  lemma HitsAppend(text: string, a: seq<string>, b: seq<string>)
    ensures Hits(text, a + b) == Hits(text, a) + Hits(text, b)
    decreases |a|
  {
    if |a| == 0 {
      assert a + b == b;
    } else {
      assert (a + b)[1..] == a[1..] + b;
      HitsAppend(text, a[1..], b);
    }
  }

  /** The answer cites the document. */
  predicate Cites(response: string) {
    ContainsAny(ToLower(response), CITATION_PHRASES)
  }

  /** The question asks for a number and the answer has a digit. */
  predicate AnswersNumber(response: string, question: string) {
    ContainsAny(ToLower(question), NUMBER_CUES) && HasDigit(response)
  }

  /**
   `scoreResponseRelevance`: 0 for a reply holding the sentinel; otherwise 5 for citing
   the document, 2 per key term found in the lower-cased reply, and 3 for a digit when
   the question asks for a number.
   */
  function Score(response: string, question: string): (score: nat)
    ensures Contains(response, SENTINEL) ==> score == 0
    ensures score <= 5 + 2 * |Terms(question)| + 3
    ensures !Contains(response, SENTINEL) ==>
      && (Cites(response) ==> score >= 5)
      && (AnswersNumber(response, question) ==> score >= 3)
    ensures !Contains(response, SENTINEL) ==>
      score == (if Cites(response) then 5 else 0)
               + 2 * |Sorting.Filter(Terms(question), FoundIn(ToLower(response)), true)|
               + (if AnswersNumber(response, question) then 3 else 0)
  {
    if Contains(response, SENTINEL) then 0
    else
      HitsFound(ToLower(response), Terms(question));
      (if Cites(response) then 5 else 0)
      + 2 * Hits(ToLower(response), Terms(question))
      + (if AnswersNumber(response, question) then 3 else 0)
  }

  /** With no key term found, the score is made of the two bonuses alone. */
  lemma ScoreWithoutTerms(response: string, question: string)
    requires !Contains(response, SENTINEL)
    requires forall i :: 0 <= i < |Terms(question)| ==> !Contains(ToLower(response), Terms(question)[i])
    ensures Score(response, question) in {0, 3, 5, 8}
  {
    HitsExtremes(ToLower(response), Terms(question));
  }

  /** Neither classification nor score depends on the case the question is typed in. */
  lemma QuestionCaseIrrelevant(question: string, response: string)
    ensures IsSpecificQuestion(ToUpper(question)) == IsSpecificQuestion(question)
    ensures Score(response, ToUpper(question)) == Score(response, question)
  {
    LowerOfUpper(question);
  }

  /** Checking one more term adds one hit when the text holds it. */
  lemma HitsStep(text: string, terms: seq<string>, i: nat)
    requires i < |terms|
    ensures Hits(text, terms[..i + 1]) == Hits(text, terms[..i]) + if Contains(text, terms[i]) then 1 else 0
  {
    var t := terms[i];
    HitsAppend(text, terms[..i], [t]);
    PrefixStep(terms, i);
    assert [t][1..] == [];
  }

  /** The source's loop over the key terms: how many of them the text holds. */
  method CountHits(text: string, terms: seq<string>) returns (n: nat)
    ensures n == Hits(text, terms)
  {
    n := 0;
    var i := 0;
    while i < |terms|
      invariant 0 <= i <= |terms|
      invariant n == Hits(text, terms[..i])
    {
      HitsStep(text, terms, i);
      if Contains(text, terms[i]) {
        n := n + 1;
      }
      i := i + 1;
    }
    assert terms[..i] == terms;
  }

  /**
   The source's imperative scoring: bonuses added one after another, 2 for each key
   term found. It computes `Score`.
   */
  method ScoreLoop(response: string, question: string) returns (score: nat)
    ensures score == Score(response, question)
  {
    if Contains(response, SENTINEL) {
      return 0;
    }
    score := 0;
    if Cites(response) {
      score := score + 5;
    }
    var hits := CountHits(ToLower(response), Terms(question));
    score := score + 2 * hits;
    if AnswersNumber(response, question) {
      score := score + 3;
    }
  }
}

=== FILE: rate_limit.dfy ===
/**
 The per-caller rate limiter: each caller gets `limit` requests per window of
 `interval` milliseconds, the window starting at the caller's first request after the
 previous one expired.
 */
module RateLimit {
  import opened Wrappers

  /**
   A caller's window: when it started and how many requests it has left. The source
   keeps the two in two maps that it always updates together, so they are one map here.
   */
  datatype Window = Window(lastReset: int, remaining: int)

  datatype Limiter = Limiter(interval: int, windows: map<string, Window>)

  /** The result of a check: the request may go ahead with the new state, or it is refused. */
  datatype Outcome = Allowed(next: Limiter) | Exceeded

  const ANONYMOUS: string := "anonymous"
  const LIMIT_EXCEEDED: string := "Rate limit exceeded"

  /** A limiter no caller has used yet. */
  function New(interval: int): (l: Limiter)
    ensures l.interval == interval && l.windows == map[]
  {
    Limiter(interval, map[])
  }

  /** The caller is known by its `x-forwarded-for` header; callers without one share a key. */
  function CallerKey(forwardedFor: Option<string>): (key: string)
    ensures key != ""
    ensures forwardedFor.Some? && forwardedFor.value != "" ==> key == forwardedFor.value
    ensures (forwardedFor.None? || forwardedFor.value == "") ==> key == ANONYMOUS
  {
    if forwardedFor.Some? && forwardedFor.value != "" then forwardedFor.value else ANONYMOUS
  }

  /** The caller's window is open at `now`: it exists and `interval` has not passed since it started. */
  predicate InWindow(l: Limiter, key: string, now: int) {
    key in l.windows && now - l.windows[key].lastReset <= l.interval
  }

  /**
   `check`: a caller without an open window gets a new one starting now, with the
   request counted; inside an open window a request is refused when none is left and
   otherwise counted. Nothing but the caller's own window changes.
   */
  function Check(l: Limiter, key: string, now: int, limit: int): (o: Outcome)
    ensures o.Exceeded? <==> InWindow(l, key, now) && l.windows[key].remaining == 0
    ensures o.Allowed? ==> o.next.interval == l.interval
    ensures o.Allowed? ==> o.next.windows.Keys == l.windows.Keys + {key}
    ensures o.Allowed? ==> forall k :: k in l.windows && k != key ==> o.next.windows[k] == l.windows[k]
    ensures o.Allowed? && !InWindow(l, key, now) ==> o.next.windows[key] == Window(now, limit - 1)
    ensures o.Allowed? && InWindow(l, key, now) ==>
      o.next.windows[key] == l.windows[key].(remaining := l.windows[key].remaining - 1)
  {
    if key !in l.windows then
      Allowed(l.(windows := l.windows[key := Window(now, limit - 1)]))
    else
      var w := l.windows[key];
      if now - w.lastReset > l.interval then
        Allowed(l.(windows := l.windows[key := Window(now, limit - 1)]))
      else if w.remaining == 0 then Exceeded
      else Allowed(l.(windows := l.windows[key := w.(remaining := w.remaining - 1)]))
  }

  /** An expired window counts for nothing: the caller is treated as one never seen. */
  lemma ExpiredIsForgotten(l: Limiter, key: string, now: int, limit: int)
    requires key in l.windows && now - l.windows[key].lastReset > l.interval
    ensures Check(l, key, now, limit) == Check(l.(windows := l.windows - {key}), key, now, limit)
  {
    var forgotten := l.(windows := l.windows - {key});
    assert forgotten.windows[key := Window(now, limit - 1)] == l.windows[key := Window(now, limit - 1)];
  }

  /** How many of the requests, made by one caller at the times `nows` in order, are allowed. */
  function Successes(l: Limiter, key: string, nows: seq<int>, limit: int): (n: nat)
    ensures n <= |nows|
    decreases |nows|
  {
    if |nows| == 0 then 0
    else
      match Check(l, key, nows[0], limit)
      case Exceeded => Successes(l, key, nows[1..], limit)
      case Allowed(next) => 1 + Successes(next, key, nows[1..], limit)
  }

  /**
   Inside one window a caller with `r >= 0` requests left gets exactly `r` more of them,
   or all it makes if it makes fewer.
   */
  lemma {:induction false} WindowBudget(l: Limiter, key: string, nows: seq<int>, limit: int)
    requires key in l.windows && l.windows[key].remaining >= 0
    requires forall i :: 0 <= i < |nows| ==> nows[i] - l.windows[key].lastReset <= l.interval
    ensures Successes(l, key, nows, limit) == if |nows| <= l.windows[key].remaining then |nows| else l.windows[key].remaining
    decreases |nows|
  {
    if |nows| > 0 {
      var w := l.windows[key];
      assert InWindow(l, key, nows[0]);
      match Check(l, key, nows[0], limit)
      case Exceeded =>
        WindowBudget(l, key, nows[1..], limit);
      case Allowed(next) =>
        assert next.windows[key] == w.(remaining := w.remaining - 1);
        WindowBudget(next, key, nows[1..], limit);
    }
  }

  /**
   A caller starting a window at `start` with `limit >= 1` gets exactly `limit` requests
   through inside it, counting the one that opened it, or all it makes if fewer.
   */
  lemma AtMostLimitPerWindow(l: Limiter, key: string, start: int, nows: seq<int>, limit: int)
    requires !InWindow(l, key, start) && limit >= 1
    requires forall i :: 0 <= i < |nows| ==> nows[i] - start <= l.interval
    ensures Successes(l, key, [start] + nows, limit) == if 1 + |nows| <= limit then 1 + |nows| else limit
  {
    var o := Check(l, key, start, limit);
    assert ([start] + nows)[1..] == nows;
    WindowBudget(o.next, key, nows, limit);
  }

  /** With a limit below 1 the count of what is left goes negative and no request is ever refused. */
  lemma {:induction false} NonPositiveLimitNeverRefuses(l: Limiter, key: string, start: int, nows: seq<int>, limit: int)
    requires !InWindow(l, key, start) && limit <= 0
    ensures Successes(l, key, [start] + nows, limit) == 1 + |nows|
  {
    var o := Check(l, key, start, limit);
    assert ([start] + nows)[1..] == nows;
    NegativeNeverRefuses(o.next, key, nows, limit);
  }

  /** A caller whose window has a negative count left is never refused, whenever it asks. */
  lemma {:induction false} NegativeNeverRefuses(l: Limiter, key: string, nows: seq<int>, limit: int)
    requires key in l.windows && l.windows[key].remaining < 0 && limit <= 0
    ensures Successes(l, key, nows, limit) == |nows|
    decreases |nows|
  {
    if |nows| > 0 {
      var o := Check(l, key, nows[0], limit);
      assert o.Allowed?;
      NegativeNeverRefuses(o.next, key, nows[1..], limit);
    }
  }
}

=== FILE: scrape_route.dfy ===
/**
 The website-reading route: it checks the URL, fetches the page, strips the page of
 scripts, navigation and advertising, finds its title and main content, and answers
 with the content as markdown.
 */
module ScrapeRoute {
  import opened Wrappers
  import opened Http
  import opened Strings
  import opened Dom
  import opened Markdown

  /** What fetching the URL gave: a failure of the request itself, or a response with its parsed body. */
  datatype Fetched =
    | NetworkError(message: string)
    | Page(ok: bool, statusText: string, doc: seq<Node>)

  /** The fetch, given the URL. */
  type Fetch = string -> Fetched

  datatype Response =
    | Content(content: string)
    | Failure(status: nat, error: string)

  const URL_REQUIRED: string := "URL is required"
  const INVALID_URL: string := "Invalid URL format"
  const READ_FAILURE: string := "Failed to read website: "
  const FETCH_FAILURE: string := "Failed to fetch website: "

  /** Elements removed before anything is read from the page. */
  const UNWANTED: seq<Selector> := [
    TagSel("script"), TagSel("style"), TagSel("iframe"), TagSel("nav"), TagSel("footer"),
    TagSel("header"), TagSel("aside"), ClassSel("advertisement"), ClassSel("ads"), IdSel("cookie-notice")
  ]

  /** The selectors tried for the title, in order of preference. */
  const TITLE_SELECTORS: seq<Selector> := [
    TagSel("h1"), ClassSel("article-title"), ClassSel("post-title"), ClassSel("entry-title"),
    AttrSel("data-testid", "article-title"), ClassSel("headline"), ClassSel("title")
  ]

  const OG_TITLE: Selector := Selector(Some("meta"), None, None, Some(("property", "og:title")))
  const TWITTER_TITLE: Selector := Selector(Some("meta"), None, None, Some(("name", "twitter:title")))

  /** The elements that hold a page's main content. */
  const MAIN_SELECTORS: seq<Selector> := [
    TagSel("main"), TagSel("article"), ClassSel("content"), IdSel("content"),
    ClassSel("main"), IdSel("main"), ClassSel("article"), IdSel("article")
  ]

  // ---------------------------------------------------------------------------
  // Title
  // ---------------------------------------------------------------------------

  /**
   The first selector, in order, with a match decides: the title is the trimmed text of
   its first match, even when that text is empty. `None` when no selector matches.
   */
  function SelectorTitle(doc: seq<Node>, sels: seq<Selector>): (r: Option<string>)
    ensures r.Some? <==> exists k :: 0 <= k < |sels| && FindAll(doc, [sels[k]]) != []
    ensures r.Some? ==> IsTrimmed(r.value)
    decreases |sels|
  {
    if |sels| == 0 then None
    else
      var rest := SelectorTitle(doc, sels[1..]);
      assert forall k :: 1 <= k < |sels| ==> sels[k] == sels[1..][k - 1];
      match First(doc, [sels[0]])
      case Some(e) => Some(Trim(TextContent(e)))
      case None => rest
  }

  /** The title comes from the first selector that matches, and from its first match. */
  lemma {:induction false} SelectorTitlePriority(doc: seq<Node>, sels: seq<Selector>, k: nat)
    requires k < |sels| && FindAll(doc, [sels[k]]) != []
    requires forall j :: 0 <= j < k ==> FindAll(doc, [sels[j]]) == []
    ensures SelectorTitle(doc, sels) == Some(Trim(TextContent(FindAll(doc, [sels[k]])[0])))
    decreases k
  {
    if k > 0 {
      assert FindAll(doc, [sels[0]]) == [];
      assert forall j :: 0 <= j < k - 1 ==> sels[1..][j] == sels[j + 1];
      SelectorTitlePriority(doc, sels[1..], k - 1);
    }
  }

  /** `$(sel).attr("content")`: the content attribute of the first match. */
  function MetaContent(doc: seq<Node>, sel: Selector): Option<string> {
    FirstAttr(FindAll(doc, [sel]), "content")
  }

  predicate NonEmpty(o: Option<string>) {
    o.Some? && o.value != ""
  }

  /** The title selectors give a title that is not empty. */
  predicate SelectorsGiveTitle(doc: seq<Node>) {
    NonEmpty(SelectorTitle(doc, TITLE_SELECTORS))
  }

  /**
   The page title: from the title selectors; when that gives nothing or only white
   space, the Open Graph title, then the Twitter title (each when present and
   non-empty), and last the text of the `title` elements.
   */
  function Title(doc: seq<Node>): (title: string)
    ensures title == "" ==> !NonEmpty(MetaContent(doc, OG_TITLE)) && !NonEmpty(MetaContent(doc, TWITTER_TITLE))
    ensures SelectorsGiveTitle(doc) ==> title == SelectorTitle(doc, TITLE_SELECTORS).value && IsTrimmed(title)
    ensures !SelectorsGiveTitle(doc) && NonEmpty(MetaContent(doc, OG_TITLE)) ==>
      title == MetaContent(doc, OG_TITLE).value
    ensures !SelectorsGiveTitle(doc) && !NonEmpty(MetaContent(doc, OG_TITLE)) && NonEmpty(MetaContent(doc, TWITTER_TITLE)) ==>
      title == MetaContent(doc, TWITTER_TITLE).value
    ensures !SelectorsGiveTitle(doc) && !NonEmpty(MetaContent(doc, OG_TITLE)) && !NonEmpty(MetaContent(doc, TWITTER_TITLE)) ==>
      title == SelectionText(FindAll(doc, [TagSel("title")]))
  {
    var fromSelectors := SelectorTitle(doc, TITLE_SELECTORS).GetOr("");
    if fromSelectors != "" then fromSelectors
    else
      var og := MetaContent(doc, OG_TITLE);
      var twitter := MetaContent(doc, TWITTER_TITLE);
      if NonEmpty(og) then og.value
      else if NonEmpty(twitter) then twitter.value
      else SelectionText(FindAll(doc, [TagSel("title")]))
  }

  /**
   A page whose title elements give no title, or only an empty one, and that has no
   meta title is titled by its `title` elements.
   */
  lemma TitleFallback(doc: seq<Node>)
    requires !SelectorsGiveTitle(doc)
    requires !NonEmpty(MetaContent(doc, OG_TITLE)) && !NonEmpty(MetaContent(doc, TWITTER_TITLE))
    ensures Title(doc) == SelectionText(FindAll(doc, [TagSel("title")]))
  {}

  // ---------------------------------------------------------------------------
  // Main content
  // ---------------------------------------------------------------------------

  /** The main-content elements, or the body when the page has none. */
  function MainContent(doc: seq<Node>): (sel: seq<Node>)
    ensures FindAll(doc, MAIN_SELECTORS) != [] ==> sel == FindAll(doc, MAIN_SELECTORS)
    ensures FindAll(doc, MAIN_SELECTORS) == [] ==> sel == FindAll(doc, [TagSel("body")])
    ensures forall m :: m in sel ==> m.Element?
  {
    var found := FindAll(doc, MAIN_SELECTORS);
    if found != [] then found else FindAll(doc, [TagSel("body")])
  }

  /** `.contents()` of a selection: the children of every selected element, in order. */
  function Contents(sel: seq<Node>): seq<Node>
    decreases |sel|
  {
    if |sel| == 0 then [] else Children(sel[0]) + Contents(sel[1..])
  }

  /** The markdown of a selection's contents is the markdown of each element's children, in order. */
  lemma {:induction false} WalkContents(sel: seq<Node>, hostOf: HostOf, delim: Delimiter)
    ensures |sel| > 0 ==>
      Walk(Contents(sel), hostOf, delim) == Walk(Children(sel[0]), hostOf, delim) + Walk(Contents(sel[1..]), hostOf, delim)
    ensures |sel| == 0 ==> Walk(Contents(sel), hostOf, delim) == ""
  {
    if |sel| > 0 {
      WalkAppend(Children(sel[0]), Contents(sel[1..]), hostOf, delim);
    }
  }

  /** The body text: the markdown of the main content, blank lines collapsed, trimmed. */
  function BodyText(doc: seq<Node>, hostOf: HostOf, delim: Delimiter): (text: string)
    ensures IsTrimmed(text)
  {
    Trim(Collapse(Walk(Contents(MainContent(doc)), hostOf, delim)))
  }

  /**
   The content the route answers with for a fetched page: the body text under a
   `# title` heading when there is a title, cut after `MAX_CHARS` characters and
   marked as cut. Tables get the delimiter line as the route builds it.
   */
  function Scrape(doc: seq<Node>, hostOf: HostOf): (content: string)
    ensures |content| <= MAX_CHARS + |TRUNCATION_NOTE|
    ensures var page := Prune(doc, UNWANTED);
      var full := (if Title(page) != "" then "# " + Title(page) + "\n\n" else "") + BodyText(page, hostOf, SeparatorAsWritten);
      && (|full| <= MAX_CHARS ==> content == full)
      && (|full| > MAX_CHARS ==> content == full[..MAX_CHARS] + TRUNCATION_NOTE)
  {
    var page := Prune(doc, UNWANTED);
    var title, body := Title(page), BodyText(page, hostOf, SeparatorAsWritten);
    var content := Truncate(WithTitle(title, body));
    TitledContent(title, body, content);
    content
  }

  /** The heading and the limit, spelled out. */
  lemma TitledContent(title: string, body: string, content: string)
    requires content == Truncate(WithTitle(title, body))
    ensures var full := (if title != "" then "# " + title + "\n\n" else "") + body;
      && (|full| <= MAX_CHARS ==> content == full)
      && (|full| > MAX_CHARS ==> content == full[..MAX_CHARS] + TRUNCATION_NOTE)
  {}

  /** Unwanted elements contribute nothing: removing them first gives the same content. */
  lemma ScrapeIgnoresUnwanted(doc: seq<Node>, hostOf: HostOf)
    ensures Scrape(Prune(doc, UNWANTED), hostOf) == Scrape(doc, hostOf)
  {
    PruneIdempotent(doc, UNWANTED);
  }

  /** On a page without a title the content is the body text, cut to the limit. */
  lemma UntitledPage(doc: seq<Node>, hostOf: HostOf)
    requires Title(Prune(doc, UNWANTED)) == ""
    ensures Scrape(doc, hostOf) == Truncate(BodyText(Prune(doc, UNWANTED), hostOf, SeparatorAsWritten))
  {}

  // ---------------------------------------------------------------------------
  // The handler
  // ---------------------------------------------------------------------------

  /**
   POST: a missing or empty URL and one the URL parser rejects are client errors, found
   before anything is fetched; a failed request or a response that is not OK is a
   server error; otherwise the page's content.
   */
  function Post(url: Field, hostOf: HostOf, fetch: Fetch): (r: Response)
    ensures (r.Failure? && r.status == 400) <==> (!url.Truthy() || hostOf(url.s).None?)
    ensures r.Failure? ==> r.status == 400 || (r.status == 500 && StartsWith(r.error, READ_FAILURE))
    ensures r.Failure? && r.status == 400 ==> r.error == if url.Truthy() then INVALID_URL else URL_REQUIRED
    ensures r.Content? ==> |r.content| <= MAX_CHARS + |TRUNCATION_NOTE|
    ensures r.Content? <==> url.Truthy() && hostOf(url.s).Some? && fetch(url.s).Page? && fetch(url.s).ok
  {
    if !url.Truthy() then Failure(400, URL_REQUIRED)
    else if hostOf(url.s).None? then Failure(400, INVALID_URL)
    else
      match fetch(url.s)
      case NetworkError(message) => Failure(500, READ_FAILURE + message)
      case Page(ok, statusText, doc) =>
        if !ok then Failure(500, READ_FAILURE + FETCH_FAILURE + statusText)
        else Content(Scrape(doc, hostOf))
  }

  /** A rejected URL is never fetched: the answer is the same whatever the fetch would give. */
  lemma RejectionIgnoresFetch(url: Field, hostOf: HostOf, fetch1: Fetch, fetch2: Fetch)
    requires !url.Truthy() || hostOf(url.s).None?
    ensures Post(url, hostOf, fetch1) == Post(url, hostOf, fetch2)
  {}
}

=== FILE: sorting.dfy ===
/**
 Stable sorting by an integer key, as `Array.prototype.sort` does with a comparator
 that subtracts keys, and the filtering that goes with it.
 */
module Sorting {

  predicate SortedBy<T>(s: seq<T>, key: T -> int) {
    forall i, j :: 0 <= i < j < |s| ==> key(s[i]) <= key(s[j])
  }

  /** `x` placed after the leading elements whose key is not greater than its own. */
  function Insert<T>(x: T, s: seq<T>, key: T -> int): (r: seq<T>)
    ensures |r| == |s| + 1
    decreases |s|
  {
    if |s| == 0 then [x]
    else if key(x) < key(s[0]) then [x] + s
    else [s[0]] + Insert(x, s[1..], key)
  }

  /** Inserting adds exactly one element. */
  lemma {:induction false} InsertPermutes<T>(x: T, s: seq<T>, key: T -> int)
    ensures multiset(Insert(x, s, key)) == multiset(s) + multiset{x}
    decreases |s|
  {
    if |s| > 0 && key(x) >= key(s[0]) {
      InsertPermutes(x, s[1..], key);
      assert s == [s[0]] + s[1..];
    }
  }

  /** Inserting into a sorted list keeps it sorted. */
  lemma {:induction false} InsertSorted<T>(x: T, s: seq<T>, key: T -> int)
    requires SortedBy(s, key)
    ensures SortedBy(Insert(x, s, key), key)
    ensures Insert(x, s, key)[0] == x || (|s| > 0 && Insert(x, s, key)[0] == s[0])
    decreases |s|
  {
    if |s| > 0 && key(x) >= key(s[0]) {
      var tail := s[1..];
      assert SortedBy(tail, key) by {
        assert forall i :: 0 <= i < |tail| ==> tail[i] == s[i + 1];
      }
      InsertSorted(x, tail, key);
      var rest := Insert(x, tail, key);
      var r := [s[0]] + rest;
      assert Insert(x, s, key) == r;
      forall i, j | 0 <= i < j < |r| ensures key(r[i]) <= key(r[j]) {
        assert r[j] == rest[j - 1];
        if i > 0 {
          assert r[i] == rest[i - 1];
        } else if |tail| > 0 {
          assert key(rest[0]) >= key(s[0]) && SortedBy(rest, key);
        }
      }
    }
  }

  /** Insertion sort, ascending by `key`, equal keys in their original order. */
  function SortBy<T>(s: seq<T>, key: T -> int): (r: seq<T>)
    ensures |r| == |s|
    ensures SortedBy(r, key)
    ensures multiset(r) == multiset(s)
    decreases |s|
  {
    if |s| == 0 then []
    else
      var init := s[..|s| - 1];
      assert s == init + [s[|s| - 1]];
      InsertSorted(s[|s| - 1], SortBy(init, key), key);
      InsertPermutes(s[|s| - 1], SortBy(init, key), key);
      Insert(s[|s| - 1], SortBy(init, key), key)
  }

  /** The elements whose key is `k`, in order. */
  function WithKey<T>(s: seq<T>, key: T -> int, k: int): seq<T>
    decreases |s|
  {
    if |s| == 0 then [] else (if key(s[0]) == k then [s[0]] else []) + WithKey(s[1..], key, k)
  }

  lemma {:induction false} WithKeyAppend<T>(a: seq<T>, b: seq<T>, key: T -> int, k: int)
    ensures WithKey(a + b, key, k) == WithKey(a, key, k) + WithKey(b, key, k)
    decreases |a|
  {
    if |a| > 0 {
      assert (a + b)[0] == a[0];
      assert (a + b)[1..] == a[1..] + b;
      WithKeyAppend(a[1..], b, key, k);
    } else {
      assert a + b == b;
    }
  }

  lemma {:induction false} WithKeyNone<T>(s: seq<T>, key: T -> int, k: int)
    requires forall i :: 0 <= i < |s| ==> key(s[i]) != k
    ensures WithKey(s, key, k) == []
    decreases |s|
  {
    if |s| > 0 {
      WithKeyNone(s[1..], key, k);
    }
  }

  /** Inserting puts `x` after the elements with its key. */
  lemma {:induction false} InsertStable<T>(x: T, s: seq<T>, key: T -> int, k: int)
    requires SortedBy(s, key)
    ensures WithKey(Insert(x, s, key), key, k) == WithKey(s, key, k) + (if key(x) == k then [x] else [])
    decreases |s|
  {
    if |s| == 0 {
      WithKeyOne(x, key, k);
    } else if key(x) < key(s[0]) {
      InsertFront(x, s, key, k);
    } else {
      var tail := s[1..];
      assert SortedBy(tail, key) by {
        assert forall i :: 0 <= i < |tail| ==> tail[i] == s[i + 1];
      }
      InsertStable(x, tail, key, k);
      InsertBehind(x, s, key, k);
    }
  }

  /** `x` goes first when its key is below all others, and then no other element has its key. */
  lemma InsertFront<T>(x: T, s: seq<T>, key: T -> int, k: int)
    requires SortedBy(s, key) && |s| > 0 && key(x) < key(s[0])
    ensures WithKey(Insert(x, s, key), key, k) == WithKey(s, key, k) + (if key(x) == k then [x] else [])
  {
    assert Insert(x, s, key) == [x] + s;
    WithKeyAppend([x], s, key, k);
    WithKeyOne(x, key, k);
    if key(x) == k {
      WithKeyNone(s, key, k);
    }
  }

  /** `x` goes after the first element when its key is not below the first element's. */
  lemma InsertBehind<T>(x: T, s: seq<T>, key: T -> int, k: int)
    requires |s| > 0 && key(x) >= key(s[0])
    requires WithKey(Insert(x, s[1..], key), key, k) == WithKey(s[1..], key, k) + (if key(x) == k then [x] else [])
    ensures WithKey(Insert(x, s, key), key, k) == WithKey(s, key, k) + (if key(x) == k then [x] else [])
  {
    var tail := s[1..];
    var rest := Insert(x, tail, key);
    assert Insert(x, s, key) == [s[0]] + rest;
    assert s == [s[0]] + tail;
    var h, mine := WithKey([s[0]], key, k), if key(x) == k then [x] else [];
    WithKeyAppend([s[0]], rest, key, k);
    WithKeyAppend([s[0]], tail, key, k);
    calc {
      WithKey(Insert(x, s, key), key, k);
      h + WithKey(rest, key, k);
      h + (WithKey(tail, key, k) + mine);
      (h + WithKey(tail, key, k)) + mine;
      WithKey(s, key, k) + mine;
    }
  }

  /** The sort is stable: the elements with any one key keep their order. */
  lemma {:induction false} SortStable<T>(s: seq<T>, key: T -> int, k: int)
    ensures WithKey(SortBy(s, key), key, k) == WithKey(s, key, k)
    decreases |s|
  {
    if |s| > 0 {
      var init := s[..|s| - 1];
      var last := s[|s| - 1];
      assert s == init + [last];
      SortStable(init, key, k);
      InsertStable(last, SortBy(init, key), key, k);
      WithKeyAppend(init, [last], key, k);
      WithKeyOne(last, key, k);
    }
  }

  lemma WithKeyOne<T>(x: T, key: T -> int, k: int)
    ensures WithKey([x], key, k) == if key(x) == k then [x] else []
  {
    assert [x][1..] == [];
  }

  /** The elements `x` with `p(x) == want`, in order. */
  function Filter<T>(s: seq<T>, p: T -> bool, want: bool): (r: seq<T>)
    ensures |r| <= |s|
    ensures forall i :: 0 <= i < |r| ==> p(r[i]) == want
    decreases |s|
  {
    if |s| == 0 then []
    else (if p(s[0]) == want then [s[0]] else []) + Filter(s[1..], p, want)
  }

  /** A filter keeps exactly the elements that pass: nothing else, and each of those. */
  lemma {:induction false} FilterMembers<T>(s: seq<T>, p: T -> bool, want: bool)
    ensures forall i :: 0 <= i < |Filter(s, p, want)| ==> Filter(s, p, want)[i] in s
    ensures forall i :: 0 <= i < |s| && p(s[i]) == want ==> s[i] in Filter(s, p, want)
    decreases |s|
  {
    if |s| > 0 {
      var tail := s[1..];
      FilterMembers(tail, p, want);
      assert forall i :: 1 <= i < |s| ==> s[i] == tail[i - 1];
    }
  }

  /** Each element goes to exactly one side of a filter. */
  lemma {:induction false} FilterPartition<T>(s: seq<T>, p: T -> bool)
    ensures multiset(Filter(s, p, true)) + multiset(Filter(s, p, false)) == multiset(s)
    decreases |s|
  {
    if |s| > 0 {
      var tail := s[1..];
      FilterPartition(tail, p);
      assert s == [s[0]] + tail;
      assert multiset(s) == multiset{s[0]} + multiset(tail);
      if p(s[0]) {
        assert Filter(s, p, true) == [s[0]] + Filter(tail, p, true);
        assert Filter(s, p, false) == Filter(tail, p, false);
      } else {
        assert Filter(s, p, true) == Filter(tail, p, true);
        assert Filter(s, p, false) == [s[0]] + Filter(tail, p, false);
      }
    }
  }

  /** A filter keeps every passing element as many times as it occurs, and no other. */
  lemma {:induction false} FilterCount<T>(s: seq<T>, p: T -> bool, want: bool)
    ensures forall x :: multiset(Filter(s, p, want))[x] == if p(x) == want then multiset(s)[x] else 0
    decreases |s|
  {
    if |s| > 0 {
      var tail := s[1..];
      FilterCount(tail, p, want);
      assert s == [s[0]] + tail;
      assert Filter(s, p, want) == (if p(s[0]) == want then [s[0]] else []) + Filter(tail, p, want);
    }
  }

  lemma {:induction false} FilterAppend<T>(a: seq<T>, b: seq<T>, p: T -> bool, want: bool)
    ensures Filter(a + b, p, want) == Filter(a, p, want) + Filter(b, p, want)
    decreases |a|
  {
    if |a| > 0 {
      assert (a + b)[0] == a[0];
      assert (a + b)[1..] == a[1..] + b;
      FilterAppend(a[1..], b, p, want);
    } else {
      assert a + b == b;
    }
  }

  lemma {:induction false} FilterAll<T>(s: seq<T>, p: T -> bool, want: bool)
    requires forall i :: 0 <= i < |s| ==> p(s[i]) == want
    ensures Filter(s, p, want) == s
    decreases |s|
  {
    if |s| > 0 {
      FilterAll(s[1..], p, want);
      assert s == [s[0]] + s[1..];
    }
  }

  lemma {:induction false} FilterNone<T>(s: seq<T>, p: T -> bool, want: bool)
    requires forall i :: 0 <= i < |s| ==> p(s[i]) != want
    ensures Filter(s, p, want) == []
    decreases |s|
  {
    if |s| > 0 {
      FilterNone(s[1..], p, want);
    }
  }

  /** An element found at two positions occurs at least twice. */
  lemma RepeatCount<T>(s: seq<T>, i: nat, j: nat)
    requires i < j < |s| && s[i] == s[j]
    ensures multiset(s)[s[i]] >= 2
  {
    assert s == s[..i] + [s[i]] + s[i + 1..j] + [s[j]] + s[j + 1..];
  }

  /** An element found at one position only occurs once. */
  lemma SingleCount<T>(s: seq<T>, p: nat)
    requires p < |s|
    requires forall q :: 0 <= q < |s| && q != p ==> s[q] != s[p]
    ensures multiset(s)[s[p]] == 1
  {
    assert s == s[..p] + [s[p]] + s[p + 1..];
    assert s[p] !in s[..p];
    var t := s[p + 1..];
    assert forall q :: 0 <= q < |t| ==> t[q] == s[p + 1 + q];
    assert s[p] !in t;
  }
}

=== FILE: strings.dfy ===
/**
 JavaScript string operations used by the application, over `string` (= `seq<char>`).

 One `char` is one Unicode scalar value, so `|s|` is JavaScript's `s.length` only for
 text inside the Basic Multilingual Plane; a character outside it is two UTF-16 code
 units in JavaScript and one `char` here. Case mapping is ASCII only. `\s` in a regular expression and
 `String.prototype.trim` use the same character set (white space plus line
 terminators), given here by `IsJsSpace`.
 */
module Strings {
  import opened Wrappers

  // ---------------------------------------------------------------------------
  // Character classes
  // ---------------------------------------------------------------------------

  /** Line terminators: what `^` in a multiline regular expression looks behind for. */
  predicate IsLineTerminator(c: char) {
    c == '\n' || c == '\r' || c == '\U{2028}' || c == '\U{2029}'
  }

  /** The line feed, which ends a line for the patterns `[^\n]` and `\n`. */
  predicate IsNewline(c: char) {
    c == '\n'
  }

  predicate NotNewline(c: char) {
    c != '\n'
  }

  /** The regular-expression class `\s`, which is also the set `trim` removes. */
  predicate IsJsSpace(c: char) {
    || c == '\t' || c == '\n' || c == '\U{000B}' || c == '\U{000C}' || c == '\r' || c == ' '
    || c == '\U{00A0}' || c == '\U{1680}' || ('\U{2000}' <= c <= '\U{200A}')
    || c == '\U{2028}' || c == '\U{2029}' || c == '\U{202F}' || c == '\U{205F}'
    || c == '\U{3000}' || c == '\U{FEFF}'
  }

  /** The regular-expression class `\d`. */
  predicate IsDigit(c: char) {
    '0' <= c <= '9'
  }

  function DigitValue(c: char): (d: nat)
    requires IsDigit(c)
    ensures d < 10
  {
    c as int - '0' as int
  }

  function DigitChar(d: nat): (c: char)
    requires d < 10
    ensures IsDigit(c) && DigitValue(c) == d
  {
    ('0' as int + d) as char
  }

  function LowerChar(c: char): char {
    if 'A' <= c <= 'Z' then (c as int + 32) as char else c
  }

  function UpperChar(c: char): char {
    if 'a' <= c <= 'z' then (c as int - 32) as char else c
  }

  /** `toLowerCase`, ASCII letters only. */
  function ToLower(s: string): (r: string)
    ensures |r| == |s|
    ensures forall i :: 0 <= i < |s| ==> r[i] == LowerChar(s[i])
  {
    seq(|s|, i requires 0 <= i < |s| => LowerChar(s[i]))
  }

  /** `toUpperCase`, ASCII letters only. */
  function ToUpper(s: string): (r: string)
    ensures |r| == |s|
    ensures forall i :: 0 <= i < |s| ==> r[i] == UpperChar(s[i])
  {
    seq(|s|, i requires 0 <= i < |s| => UpperChar(s[i]))
  }

  /** Lower-casing forgets the case the text was written in. */
  lemma LowerOfUpper(s: string)
    ensures ToLower(ToUpper(s)) == ToLower(s)
  {
    forall i | 0 <= i < |s| ensures ToLower(ToUpper(s))[i] == ToLower(s)[i] {
      var c := s[i];
      assert ToUpper(s)[i] == UpperChar(c);
      if 'a' <= c <= 'z' {
        assert LowerChar(UpperChar(c)) == c;
      }
    }
  }

  // ---------------------------------------------------------------------------
  // Searching
  // ---------------------------------------------------------------------------

  /** `pat` occurs in `s` starting at index `i`. */
  predicate OccursAt(s: string, pat: string, i: nat) {
    i + |pat| <= |s| && s[i..i + |pat|] == pat
  }

  /** Leftmost occurrence of `pat` at index `i` or later. */
  function IndexFrom(s: string, pat: string, i: nat): (r: Option<nat>)
    requires i <= |s|
    ensures r.Some? ==> i <= r.value && OccursAt(s, pat, r.value)
    ensures r.Some? ==> forall j :: i <= j < r.value ==> !OccursAt(s, pat, j)
    ensures r.None? ==> forall j :: i <= j ==> !OccursAt(s, pat, j)
    decreases |s| - i
  {
    if i + |pat| > |s| then None
    else if s[i..i + |pat|] == pat then Some(i)
    else IndexFrom(s, pat, i + 1)
  }

  /** `indexOf`: the leftmost occurrence of `pat` in `s`. */
  function IndexOf(s: string, pat: string): (r: Option<nat>)
    ensures r.Some? ==> OccursAt(s, pat, r.value)
    ensures r.Some? ==> forall j :: 0 <= j < r.value ==> !OccursAt(s, pat, j)
    ensures r.None? ==> forall j :: 0 <= j ==> !OccursAt(s, pat, j)
  {
    IndexFrom(s, pat, 0)
  }

  /** `includes`. */
  predicate Contains(s: string, pat: string) {
    IndexOf(s, pat).Some?
  }

  /** `includes` finds `pat` exactly when it occurs somewhere. */
  lemma ContainsIff(s: string, pat: string)
    ensures Contains(s, pat) <==> exists i :: 0 <= i && OccursAt(s, pat, i)
  {
    if Contains(s, pat) {
      assert OccursAt(s, pat, IndexOf(s, pat).value);
    }
  }

  /** Lower-casing a text lower-cases whatever it contains. */
  lemma ContainsLower(s: string, pat: string)
    ensures Contains(s, pat) ==> Contains(ToLower(s), ToLower(pat))
  {
    if Contains(s, pat) {
      var i := IndexOf(s, pat).value;
      assert ToLower(s)[i..i + |pat|] == ToLower(pat) by {
        assert s[i..i + |pat|] == pat;
        forall k | 0 <= k < |pat| ensures ToLower(s)[i..i + |pat|][k] == ToLower(pat)[k] {
          assert s[i + k] == pat[k];
        }
      }
      assert OccursAt(ToLower(s), ToLower(pat), i);
      ContainsIff(ToLower(s), ToLower(pat));
    }
  }

  predicate StartsWith(s: string, pre: string) {
    |pre| <= |s| && s[..|pre|] == pre
  }

  predicate EndsWith(s: string, suf: string) {
    |suf| <= |s| && s[|s| - |suf|..] == suf
  }

  /** Some character of `s` is a digit: the regular expression `/\d+/` finds a match. */
  predicate HasDigit(s: string) {
    exists i :: 0 <= i < |s| && IsDigit(s[i])
  }

  /** An occurrence inside a prefix is an occurrence in the whole string. */
  lemma OccursInPrefix(s: string, pat: string, n: nat, j: nat)
    requires n <= |s| && OccursAt(s[..n], pat, j)
    ensures OccursAt(s, pat, j)
  {
    assert s[..n][j..j + |pat|] == s[j..j + |pat|];
  }

  /** An occurrence inside a suffix is an occurrence in the whole string. */
  lemma OccursInSuffix(s: string, pat: string, n: nat, j: nat)
    requires n <= |s| && OccursAt(s[n..], pat, j)
    ensures OccursAt(s, pat, n + j)
  {
    assert s[n..][j..j + |pat|] == s[n + j..n + j + |pat|];
  }

  /** `slice(0, n)`: the first `n` characters, or all of `s` when it is shorter. */
  function Take(s: string, n: nat): (r: string)
    ensures |r| == if |s| <= n then |s| else n
    ensures r == s[..|r|]
  {
    if |s| <= n then s else s[..n]
  }

  /** `replace(pat, rep)` with a string pattern: only the first occurrence is replaced. */
  function ReplaceFirst(s: string, pat: string, rep: string): (r: string)
    ensures !Contains(s, pat) ==> r == s
  {
    match IndexOf(s, pat)
    case None => s
    case Some(i) => s[..i] + rep + s[i + |pat|..]
  }

  // ---------------------------------------------------------------------------
  // Splitting on a string separator, and joining
  // ---------------------------------------------------------------------------

  /** `s.split(sep)` for a non-empty separator: cut at every leftmost, non-overlapping occurrence. */
  function Split(s: string, sep: string): (parts: seq<string>)
    requires |sep| > 0
    ensures |parts| >= 1
    decreases |s|
  {
    match IndexOf(s, sep)
    case None => [s]
    case Some(i) => [s[..i]] + Split(s[i + |sep|..], sep)
  }

  /** No part of a split holds the separator. */
  lemma {:induction false} SplitClean(s: string, sep: string)
    requires |sep| > 0
    ensures forall k :: 0 <= k < |Split(s, sep)| ==> !Contains(Split(s, sep)[k], sep)
    decreases |s|
  {
    match IndexOf(s, sep)
    case None =>
    case Some(i) =>
      var rest := s[i + |sep|..];
      SplitClean(rest, sep);
      assert !Contains(s[..i], sep) by {
        ContainsIff(s[..i], sep);
        forall j | 0 <= j && OccursAt(s[..i], sep, j)
          ensures false
        {
          OccursInPrefix(s, sep, i, j);
        }
      }
      var parts := Split(s, sep);
      assert parts == [s[..i]] + Split(rest, sep);
      forall k | 0 < k < |parts| ensures !Contains(parts[k], sep) {
        assert parts[k] == Split(rest, sep)[k - 1];
      }
  }

  /** `parts.join(sep)`. */
  function Join(sep: string, parts: seq<string>): string
    decreases |parts|
  {
    if |parts| == 0 then ""
    else if |parts| == 1 then parts[0]
    else parts[0] + sep + Join(sep, parts[1..])
  }

  /** Joining the first `k` parts gives a prefix of joining them all. */
  lemma {:induction false} JoinPrefix(sep: string, parts: seq<string>, k: nat)
    requires k <= |parts|
    ensures StartsWith(Join(sep, parts), Join(sep, parts[..k]))
    decreases k
  {
    var whole := Join(sep, parts);
    if k == 1 {
      assert parts[..1] == [parts[0]];
      if |parts| > 1 {
        assert whole == parts[0] + sep + Join(sep, parts[1..]);
        assert whole[..|parts[0]|] == parts[0];
      }
    } else if k > 1 {
      var tail := parts[1..];
      JoinPrefix(sep, tail, k - 1);
      assert parts[..k][1..] == tail[..k - 1];
      var front := Join(sep, tail[..k - 1]);
      assert Join(sep, parts[..k]) == parts[0] + sep + front;
      assert whole == parts[0] + sep + Join(sep, tail);
      assert Join(sep, tail)[..|front|] == front;
      assert whole[..|parts[0] + sep| + |front|] == parts[0] + sep + front;
    }
  }

  /** Joining all parts is joining the first `k` of them, the separator, and joining the rest. */
  lemma {:induction false} JoinCut(sep: string, parts: seq<string>, k: nat)
    requires 0 < k < |parts|
    ensures Join(sep, parts) == Join(sep, parts[..k]) + sep + Join(sep, parts[k..])
    decreases k
  {
    if k == 1 {
      assert parts[..1] == [parts[0]];
    } else {
      var tail := parts[1..];
      JoinCut(sep, tail, k - 1);
      assert parts[..k][1..] == tail[..k - 1];
      assert tail[k - 1..] == parts[k..];
    }
  }

  /** Splitting and re-joining on the same separator gives the string back. */
  lemma {:induction false} JoinSplit(s: string, sep: string)
    requires |sep| > 0
    ensures Join(sep, Split(s, sep)) == s
    decreases |s|
  {
    var found := IndexOf(s, sep);
    if found.Some? {
      var i := found.value;
      var rest := s[i + |sep|..];
      var tail := Split(rest, sep);
      JoinSplit(rest, sep);
      var parts := Split(s, sep);
      assert parts == [s[..i]] + tail;
      assert parts[1..] == tail;
      assert Join(sep, parts) == s[..i] + sep + Join(sep, tail);
      assert s[i..i + |sep|] == sep;
      assert s == s[..i] + s[i..i + |sep|] + rest;
    }
  }

  /** No occurrence of `sep` starts inside `p` when `p` is followed by `sep`. */
  predicate NoEarlySeparator(p: string, sep: string) {
    forall j :: 0 <= j < |p| ==> !OccursAt(p + sep, sep, j)
  }

  /** The parts a split can produce: separators only where the join put them. */
  predicate Splittable(parts: seq<string>, sep: string) {
    && |parts| >= 1
    && (forall k :: 0 <= k < |parts| ==> !Contains(parts[k], sep))
    && (forall k :: 0 <= k < |parts| - 1 ==> NoEarlySeparator(parts[k], sep))
  }

  /** The first separator in `p + sep + rest` is the one after `p`. */
  lemma FirstSeparator(p: string, sep: string, rest: string)
    requires |sep| > 0 && NoEarlySeparator(p, sep)
    ensures IndexOf(p + sep + rest, sep) == Some(|p|)
  {
    var s := p + sep + rest;
    assert s[|p|..|p| + |sep|] == sep;
    assert OccursAt(s, sep, |p|);
    forall j | 0 <= j < |p| ensures !OccursAt(s, sep, j) {
      assert !OccursAt(p + sep, sep, j);
      assert s[j..j + |sep|] == (p + sep)[j..j + |sep|];
    }
  }

  /** Joining and re-splitting gives the parts back, when no separator straddles a join point. */
  lemma {:induction false} SplitJoin(parts: seq<string>, sep: string)
    requires |sep| > 0 && Splittable(parts, sep)
    ensures Split(Join(sep, parts), sep) == parts
    decreases |parts|
  {
    if |parts| == 1 {
      assert Join(sep, parts) == parts[0];
    } else {
      var p, tail := parts[0], parts[1..];
      var rest := Join(sep, tail);
      var s := p + sep + rest;
      assert Join(sep, parts) == s;
      assert Splittable(tail, sep) by {
        forall k | 0 <= k < |tail| ensures !Contains(tail[k], sep) {
          assert tail[k] == parts[k + 1];
        }
        forall k | 0 <= k < |tail| - 1 ensures NoEarlySeparator(tail[k], sep) {
          assert tail[k] == parts[k + 1];
        }
      }
      SplitJoin(tail, sep);
      SplitAfterFirst(p, sep, rest);
      assert parts == [p] + tail;
    }
  }

  /** Splitting `p + sep + rest` cuts after `p` first. */
  lemma SplitAfterFirst(p: string, sep: string, rest: string)
    requires |sep| > 0 && NoEarlySeparator(p, sep)
    ensures Split(p + sep + rest, sep) == [p] + Split(rest, sep)
  {
    var s := p + sep + rest;
    FirstSeparator(p, sep, rest);
    assert s[..|p|] == p;
    assert s[|p| + |sep|..] == rest;
  }

  /** The parts a split gives can be joined and split again: the split cuts at leftmost separators. */
  lemma {:induction false} SplitSplittable(s: string, sep: string)
    requires |sep| > 0
    ensures Splittable(Split(s, sep), sep)
    decreases |s|
  {
    SplitClean(s, sep);
    match IndexOf(s, sep)
    case None =>
    case Some(i) =>
      var rest := s[i + |sep|..];
      SplitSplittable(rest, sep);
      var parts, tail := Split(s, sep), Split(rest, sep);
      assert parts == [s[..i]] + tail;
      assert s[..i] + sep == s[..i + |sep|];
      forall j | 0 <= j < i ensures !OccursAt(s[..i] + sep, sep, j) {
        if OccursAt(s[..i] + sep, sep, j) {
          OccursInPrefix(s, sep, i + |sep|, j);
        }
      }
      forall k | 0 <= k < |parts| - 1 ensures NoEarlySeparator(parts[k], sep) {
        if k > 0 {
          assert parts[k] == tail[k - 1];
        }
      }
  }

  /** What occurs in a piece of a concatenation occurs in the concatenation. */
  lemma ContainsInMiddle(a: string, b: string, c: string, x: string)
    requires Contains(b, x)
    ensures Contains(a + b + c, x)
  {
    ContainsIff(b, x);
    var j: nat :| OccursAt(b, x, j);
    var s := a + b + c;
    ContainsIff(s, x);
    assert s[|a|..][..|b|] == b;
    assert s[|a| + j..|a| + j + |x|] == b[j..j + |x|];
    assert OccursAt(s, x, |a| + j);
  }

  /** Every part of a join occurs in it. */
  lemma {:induction false} JoinHasPart(sep: string, parts: seq<string>, k: nat)
    requires k < |parts|
    ensures Contains(Join(sep, parts), parts[k])
    decreases k
  {
    var whole := Join(sep, parts);
    if k == 0 {
      JoinPrefix(sep, parts, 1);
      assert parts[..1] == [parts[0]];
      assert OccursAt(whole, parts[0], 0);
    } else {
      var tail := parts[1..];
      JoinHasPart(sep, tail, k - 1);
      var j: nat :| OccursAt(Join(sep, tail), tail[k - 1], j);
      assert whole == (parts[0] + sep) + Join(sep, tail);
      OccursInSuffix(whole, parts[k], |parts[0] + sep|, j) by {
        assert whole[|parts[0] + sep|..] == Join(sep, tail);
      }
    }
  }

  /** Number of occurrences of the character `c` in `s`. */
  function CountChar(s: string, c: char): nat
    decreases |s|
  {
    if |s| == 0 then 0 else (if s[0] == c then 1 else 0) + CountChar(s[1..], c)
  }

  lemma CountCharAppend(a: string, b: string, c: char)
    ensures CountChar(a + b, c) == CountChar(a, c) + CountChar(b, c)
    decreases |a|
  {
    if |a| > 0 {
      assert (a + b)[0] == a[0];
      assert (a + b)[1..] == a[1..] + b;
      CountCharAppend(a[1..], b, c);
    } else {
      assert a + b == b;
    }
  }

  /** A string whose characters all differ from `c` has none of them. */
  lemma NoCount(s: string, c: char)
    requires forall i :: 0 <= i < |s| ==> s[i] != c
    ensures CountChar(s, c) == 0
    decreases |s|
  {
    if |s| > 0 {
      NoCount(s[1..], c);
    }
  }

  lemma NoOccurrenceNoChar(s: string, c: char)
    requires !Contains(s, [c])
    ensures CountChar(s, c) == 0
    decreases |s|
  {
    if |s| > 0 {
      assert !OccursAt(s, [c], 0);
      assert s[0..1] == [s[0]];
      assert s[0] != c;
      forall j | 0 <= j && OccursAt(s[1..], [c], j) ensures false {
        OccursInSuffix(s, [c], 1, j);
      }
      NoOccurrenceNoChar(s[1..], c);
    }
  }

  /** Splitting on a one-character separator gives one more part than it has occurrences. */
  lemma {:induction false} SplitCharCount(s: string, c: char)
    ensures |Split(s, [c])| == CountChar(s, c) + 1
    decreases |s|
  {
    match IndexOf(s, [c])
    case None =>
      NoOccurrenceNoChar(s, c);
    case Some(i) =>
      var rest := s[i + 1..];
      SplitCharCount(rest, c);
      assert !Contains(s[..i], [c]) by {
        forall j | 0 <= j && OccursAt(s[..i], [c], j) ensures false {
          OccursInPrefix(s, [c], i, j);
        }
      }
      NoOccurrenceNoChar(s[..i], c);
      assert s[i..i + 1] == [c];
      assert s == s[..i] + [c] + rest;
      CountCharAppend(s[..i] + [c], rest, c);
      CountCharAppend(s[..i], [c], c);
  }

  // ---------------------------------------------------------------------------
  // Splitting on runs of a character class (`split(/\s+/)`)
  // ---------------------------------------------------------------------------

  /** Length of the longest prefix of `s` whose characters all have `p(c) == want`. */
  function PrefixLen(s: string, p: char -> bool, want: bool): (n: nat)
    ensures n <= |s|
    ensures n < |s| ==> p(s[n]) != want
    decreases |s|
  {
    if |s| == 0 || p(s[0]) != want then 0 else 1 + PrefixLen(s[1..], p, want)
  }

  /** Every character of the prefix `PrefixLen` counts has `p(c) == want`. */
  lemma {:induction false} PrefixLenAll(s: string, p: char -> bool, want: bool)
    ensures forall i :: 0 <= i < PrefixLen(s, p, want) ==> p(s[i]) == want
    decreases |s|
  {
    if |s| > 0 && p(s[0]) == want {
      PrefixLenAll(s[1..], p, want);
    }
  }

  /** The prefix counted by `PrefixLen` ends where the first part of a concatenation does, when the second part starts otherwise. */
  lemma {:induction false} PrefixLenAppend(a: string, t: string, p: char -> bool, want: bool)
    requires forall i :: 0 <= i < |a| ==> p(a[i]) == want
    requires |t| == 0 || p(t[0]) != want
    ensures PrefixLen(a + t, p, want) == |a|
    decreases |a|
  {
    if |a| > 0 {
      assert (a + t)[0] == a[0];
      assert (a + t)[1..] == a[1..] + t;
      PrefixLenAppend(a[1..], t, p, want);
    } else {
      assert a + t == t;
    }
  }

  /** Length of the longest suffix of `s` all of whose characters satisfy `p`. */
  function SuffixLen(s: string, p: char -> bool): (n: nat)
    ensures n <= |s|
    ensures n < |s| ==> !p(s[|s| - n - 1])
    decreases |s|
  {
    if |s| == 0 || !p(s[|s| - 1]) then 0 else 1 + SuffixLen(s[..|s| - 1], p)
  }

  /** Every character of the suffix `SuffixLen` counts satisfies `p`. */
  lemma {:induction false} SuffixLenAll(s: string, p: char -> bool)
    ensures forall i :: |s| - SuffixLen(s, p) <= i < |s| ==> p(s[i])
    decreases |s|
  {
    if |s| > 0 && p(s[|s| - 1]) {
      var init := s[..|s| - 1];
      SuffixLenAll(init, p);
      assert forall i :: 0 <= i < |init| ==> init[i] == s[i];
    }
  }

  /** The characters of `s` that do not satisfy `isSep`, in order. */
  function Remove(s: string, isSep: char -> bool): (r: string)
    ensures |r| <= |s|
    decreases |s|
  {
    if |s| == 0 then "" else (if isSep(s[0]) then "" else [s[0]]) + Remove(s[1..], isSep)
  }

  /** Nothing `Remove` keeps is a separator. */
  lemma {:induction false} RemoveClean(s: string, isSep: char -> bool)
    ensures forall i :: 0 <= i < |Remove(s, isSep)| ==> !isSep(Remove(s, isSep)[i])
    decreases |s|
  {
    if |s| > 0 {
      RemoveClean(s[1..], isSep);
    }
  }

  lemma RemoveAppend(a: string, b: string, isSep: char -> bool)
    ensures Remove(a + b, isSep) == Remove(a, isSep) + Remove(b, isSep)
    decreases |a|
  {
    if |a| > 0 {
      var x := if isSep(a[0]) then "" else [a[0]];
      assert (a + b)[0] == a[0];
      assert (a + b)[1..] == a[1..] + b;
      RemoveAppend(a[1..], b, isSep);
      calc {
        Remove(a + b, isSep);
        x + Remove(a[1..] + b, isSep);
        x + (Remove(a[1..], isSep) + Remove(b, isSep));
        (x + Remove(a[1..], isSep)) + Remove(b, isSep);
        Remove(a, isSep) + Remove(b, isSep);
      }
    } else {
      assert a + b == b;
    }
  }

  lemma RemoveAll(s: string, isSep: char -> bool)
    requires forall i :: 0 <= i < |s| ==> isSep(s[i])
    ensures Remove(s, isSep) == ""
    decreases |s|
  {}

  lemma RemoveNone(s: string, isSep: char -> bool)
    requires forall i :: 0 <= i < |s| ==> !isSep(s[i])
    ensures Remove(s, isSep) == s
    decreases |s|
  {
    if |s| > 0 {
      RemoveNone(s[1..], isSep);
    }
  }

  /** A prefix grows by the next element. */
  lemma PrefixStep<T>(s: seq<T>, i: nat)
    requires i < |s|
    ensures s[..i + 1] == s[..i] + [s[i]]
  {}

  lemma SliceParts(s: string, p: nat, q: nat)
    requires p <= q <= |s|
    ensures s == s[..p] + s[p..] && s[p..] == s[p..q] + s[q..]
    ensures s == s[..p] + (s[p..q] + s[q..])
  {}

  /** Concatenation of all parts. */
  function Concat(parts: seq<string>): string
    decreases |parts|
  {
    if |parts| == 0 then "" else parts[0] + Concat(parts[1..])
  }

  lemma ConcatAppend(a: seq<string>, b: seq<string>)
    ensures Concat(a + b) == Concat(a) + Concat(b)
    decreases |a|
  {
    if |a| == 0 {
      assert a + b == b;
    } else {
      assert (a + b)[1..] == a[1..] + b;
      ConcatAppend(a[1..], b);
    }
  }

  /**
   `s.split(re)` where `re` matches maximal runs of `isSep` characters (`/\s+/` for
   `isSep == IsJsSpace`). A leading run gives an empty first part, a trailing run an
   empty last part, and the empty string gives `[""]`.
   */
  function SplitRuns(s: string, isSep: char -> bool): (parts: seq<string>)
    ensures |parts| >= 1
    decreases |s|
  {
    var p := PrefixLen(s, isSep, false);
    if p == |s| then [s]
    else
      var q := p + PrefixLen(s[p..], isSep, true);
      var rest := SplitRuns(s[q..], isSep);
      [s[..p]] + rest
  }

  /** No part of a run split holds a separator. */
  lemma {:induction false} SplitRunsClean(s: string, isSep: char -> bool)
    ensures forall k, i :: 0 <= k < |SplitRuns(s, isSep)| && 0 <= i < |SplitRuns(s, isSep)[k]| ==> !isSep(SplitRuns(s, isSep)[k][i])
    decreases |s|
  {
    var p, q := SplitRunsAt(s, isSep);
    if p < |s| {
      var rest := s[q..];
      SplitRunsClean(rest, isSep);
      CleanCons(s[..p], SplitRuns(rest, isSep), isSep);
    }
  }

  /** A clean word in front of clean parts leaves every part clean. */
  lemma CleanCons(word: string, tail: seq<string>, isSep: char -> bool)
    requires forall i :: 0 <= i < |word| ==> !isSep(word[i])
    requires forall k, i :: 0 <= k < |tail| && 0 <= i < |tail[k]| ==> !isSep(tail[k][i])
    ensures forall k, i :: 0 <= k < |[word] + tail| && 0 <= i < |([word] + tail)[k]| ==> !isSep(([word] + tail)[k][i])
  {
    var parts := [word] + tail;
    forall k, i | 0 <= k < |parts| && 0 <= i < |parts[k]| ensures !isSep(parts[k][i]) {
      if k > 0 {
        assert parts[k] == tail[k - 1];
      }
    }
  }

  /** One step of a run split: the first word `s[..p]`, the separator run `s[p..q]` after it, and the split of the rest. */
  lemma SplitRunsAt(s: string, isSep: char -> bool) returns (p: nat, q: nat)
    ensures p <= q <= |s|
    ensures forall i :: 0 <= i < p ==> !isSep(s[i])
    ensures p == |s| ==> SplitRuns(s, isSep) == [s]
    ensures p < |s| ==> p < q && SplitRuns(s, isSep) == [s[..p]] + SplitRuns(s[q..], isSep)
    ensures forall i :: p <= i < q ==> isSep(s[i])
    ensures q < |s| ==> !isSep(s[q])
  {
    p := PrefixLen(s, isSep, false);
    q := if p == |s| then p else p + PrefixLen(s[p..], isSep, true);
    SplitRunsWord(s, isSep, p);
    SplitRunsGap(s, isSep, p, q);
  }

  /** The first word of a run split is the leading run of non-separators. */
  lemma SplitRunsWord(s: string, isSep: char -> bool, p: nat)
    requires p == PrefixLen(s, isSep, false)
    ensures forall i :: 0 <= i < p ==> !isSep(s[i])
    ensures p == |s| ==> SplitRuns(s, isSep) == [s]
  {
    PrefixLenAll(s, isSep, false);
  }

  /** After the first word of a run split comes a non-empty separator run, and the split goes on behind it. */
  lemma SplitRunsGap(s: string, isSep: char -> bool, p: nat, q: nat)
    requires p == PrefixLen(s, isSep, false)
    requires q == if p == |s| then p else p + PrefixLen(s[p..], isSep, true)
    ensures p <= q <= |s|
    ensures p < |s| ==> p < q && SplitRuns(s, isSep) == [s[..p]] + SplitRuns(s[q..], isSep)
    ensures forall i :: p <= i < q ==> isSep(s[i])
    ensures q < |s| ==> !isSep(s[q])
  {
    if p < |s| {
      var t := s[p..];
      SeparatorRun(s, isSep, p, t, q - p);
      SplitRunsUnfold(s, isSep, p, q);
    }
  }

  /** Where the first word of a run split ends and the rest begins. */
  lemma SplitRunsUnfold(s: string, isSep: char -> bool, p: nat, q: nat)
    requires p == PrefixLen(s, isSep, false) < |s|
    requires q == p + PrefixLen(s[p..], isSep, true)
    ensures SplitRuns(s, isSep) == [s[..p]] + SplitRuns(s[q..], isSep)
  {
  }

  /** The separator run that starts at `p`: the characters `PrefixLen` counts in `t == s[p..]`. */
  lemma SeparatorRun(s: string, isSep: char -> bool, p: nat, t: string, n: nat)
    requires p < |s| && t == s[p..] && isSep(s[p])
    requires n == PrefixLen(t, isSep, true)
    ensures 0 < n && p + n <= |s|
    ensures forall i :: p <= i < p + n ==> isSep(s[i])
    ensures p + n < |s| ==> !isSep(s[p + n])
  {
    PrefixLenAll(t, isSep, true);
    assert t[0] == s[p];
    assert forall i :: p <= i < p + n ==> s[i] == t[i - p];
    assert p + n < |s| ==> s[p + n] == t[n];
  }

  lemma ConcatCons(x: string, rest: seq<string>)
    ensures Concat([x] + rest) == x + Concat(rest)
  {
    assert ([x] + rest)[1..] == rest;
  }

  /** The parts of a run split are exactly the non-separator characters, in order. */
  lemma {:induction false} SplitRunsKeepsContent(s: string, isSep: char -> bool)
    ensures Concat(SplitRuns(s, isSep)) == Remove(s, isSep)
    decreases |s|
  {
    var p, q := SplitRunsAt(s, isSep);
    if p == |s| {
      RemoveNone(s, isSep);
      assert Concat([s]) == s + Concat([]);
    } else {
      SplitRunsKeepsContent(s[q..], isSep);
      KeepsContentAt(s, isSep, p, q, SplitRuns(s[q..], isSep));
    }
  }

  /** The first word `s[..p]` and the separator run `s[p..q]`, followed by the parts of `s[q..]`. */
  lemma KeepsContentAt(s: string, isSep: char -> bool, p: nat, q: nat, tail: seq<string>)
    requires p <= q <= |s|
    requires forall i :: 0 <= i < p ==> !isSep(s[i])
    requires forall i :: p <= i < q ==> isSep(s[i])
    requires Concat(tail) == Remove(s[q..], isSep)
    ensures Concat([s[..p]] + tail) == Remove(s, isSep)
  {
    var word, gap, rest := s[..p], s[p..q], s[q..];
    SliceParts(s, p, q);
    assert forall i :: 0 <= i < |word| ==> !isSep(word[i]);
    assert forall i :: 0 <= i < |gap| ==> isSep(gap[i]);
    KeepsContentStep(s, isSep, word, gap, rest, tail);
  }

  /** A word, then a separator run, then the rest: the word's characters come before those of the rest. */
  lemma KeepsContentStep(s: string, isSep: char -> bool, word: string, gap: string, rest: string, tail: seq<string>)
    requires s == word + (gap + rest)
    requires forall i :: 0 <= i < |word| ==> !isSep(word[i])
    requires forall i :: 0 <= i < |gap| ==> isSep(gap[i])
    requires Concat(tail) == Remove(rest, isSep)
    ensures Concat([word] + tail) == Remove(s, isSep)
  {
    RemoveNone(word, isSep);
    RemoveAll(gap, isSep);
    ConcatCons(word, tail);
    RemoveAppend(word, gap + rest, isSep);
    RemoveAppend(gap, rest, isSep);
    assert "" + Remove(rest, isSep) == Remove(rest, isSep);
  }

  /** Number of maximal runs of non-separator characters (words). `prevSep` says whether the character before `s` was a separator. */
  function RunStarts(s: string, isSep: char -> bool, prevSep: bool): nat
    decreases |s|
  {
    if |s| == 0 then 0
    else (if prevSep && !isSep(s[0]) then 1 else 0) + RunStarts(s[1..], isSep, isSep(s[0]))
  }

  lemma RunStartsAppend(a: string, b: string, isSep: char -> bool, prevSep: bool)
    requires |a| > 0
    ensures RunStarts(a + b, isSep, prevSep)
         == RunStarts(a, isSep, prevSep) + RunStarts(b, isSep, isSep(a[|a| - 1]))
    decreases |a|
  {
    if |a| > 1 {
      assert (a + b)[1..] == a[1..] + b;
      RunStartsAppend(a[1..], b, isSep, isSep(a[0]));
    }
  }

  lemma RunStartsWord(s: string, isSep: char -> bool, prevSep: bool)
    requires forall i :: 0 <= i < |s| ==> !isSep(s[i])
    ensures RunStarts(s, isSep, prevSep) == if |s| > 0 && prevSep then 1 else 0
    decreases |s|
  {
    if |s| > 0 {
      RunStartsWord(s[1..], isSep, false);
    }
  }

  lemma RunStartsGap(s: string, isSep: char -> bool, prevSep: bool)
    requires forall i :: 0 <= i < |s| ==> isSep(s[i])
    ensures RunStarts(s, isSep, prevSep) == 0
    decreases |s|
  {}

  /**
   On a string that neither starts nor ends with a separator, the run split has one
   part per word: the word count of `split(/\s+/)` agrees with counting word starts.
   */
  lemma {:induction false} SplitRunsCount(s: string, isSep: char -> bool)
    requires |s| > 0 && !isSep(s[0]) && !isSep(s[|s| - 1])
    ensures |SplitRuns(s, isSep)| == RunStarts(s, isSep, true)
    ensures forall k :: 0 <= k < |SplitRuns(s, isSep)| ==> |SplitRuns(s, isSep)[k]| > 0
    decreases |s|
  {
    var p, q := SplitRunsAt(s, isSep);
    if p == |s| {
      RunStartsWord(s, isSep, true);
    } else {
      assert q < |s|;
      var word, gap, rest := s[..p], s[p..q], s[q..];
      assert forall i :: 0 <= i < |word| ==> !isSep(word[i]);
      assert forall i :: 0 <= i < |gap| ==> isSep(gap[i]);
      assert |word| > 0 && |gap| > 0;
      assert !isSep(rest[0]) && !isSep(rest[|rest| - 1]);
      SplitRunsCount(rest, isSep);
      SliceParts(s, p, q);
      RunStartsStep(word, gap, rest, isSep);
      NonEmptyCons(word, SplitRuns(rest, isSep));
    }
  }

  /** A word and a separator run in front of `rest` add one word start. */
  lemma RunStartsStep(word: string, gap: string, rest: string, isSep: char -> bool)
    requires |word| > 0 && |gap| > 0
    requires forall i :: 0 <= i < |word| ==> !isSep(word[i])
    requires forall i :: 0 <= i < |gap| ==> isSep(gap[i])
    ensures RunStarts(word + (gap + rest), isSep, true) == 1 + RunStarts(rest, isSep, true)
  {
    RunStartsAppend(word, gap + rest, isSep, true);
    RunStartsWord(word, isSep, true);
    RunStartsAppend(gap, rest, isSep, false);
    RunStartsGap(gap, isSep, false);
  }

  /** A non-empty word in front of non-empty parts leaves every part non-empty. */
  lemma NonEmptyCons(word: string, tail: seq<string>)
    requires |word| > 0 && forall k :: 0 <= k < |tail| ==> |tail[k]| > 0
    ensures forall k :: 0 <= k < |[word] + tail| ==> |([word] + tail)[k]| > 0
  {
    var parts := [word] + tail;
    forall k | 0 <= k < |parts| ensures |parts[k]| > 0 {
      if k > 0 {
        assert parts[k] == tail[k - 1];
      }
    }
  }

  /** `s.split(/\s+/)`. */
  function SplitSpaces(s: string): (parts: seq<string>)
    ensures |parts| >= 1
  {
    SplitRuns(s, IsJsSpace)
  }

  // ---------------------------------------------------------------------------
  // Trimming
  // ---------------------------------------------------------------------------

  predicate IsTrimmed(s: string) {
    |s| == 0 || (!IsJsSpace(s[0]) && !IsJsSpace(s[|s| - 1]))
  }

  /** `trimStart`: remove leading white space and line terminators. */
  function TrimStart(s: string): (r: string)
    ensures |r| <= |s| && r == s[|s| - |r|..]
    ensures |r| > 0 ==> !IsJsSpace(r[0])
    ensures forall i :: 0 <= i < |s| - |r| ==> IsJsSpace(s[i])
  {
    PrefixLenAll(s, IsJsSpace, true);
    s[PrefixLen(s, IsJsSpace, true)..]
  }

  /** `trimEnd`: remove trailing white space and line terminators. */
  function TrimEnd(s: string): (r: string)
    ensures |r| <= |s| && r == s[..|r|]
    ensures |r| > 0 ==> !IsJsSpace(r[|r| - 1])
    ensures forall i :: |r| <= i < |s| ==> IsJsSpace(s[i])
  {
    SuffixLenAll(s, IsJsSpace);
    s[..|s| - SuffixLen(s, IsJsSpace)]
  }

  /** `trim`: remove leading and trailing white space and line terminators. */
  function Trim(s: string): (r: string)
    ensures IsTrimmed(r)
    ensures |r| <= |s|
    ensures Remove(r, IsJsSpace) == Remove(s, IsJsSpace)
  {
    var t := TrimStart(s);
    var r := TrimEnd(t);
    TrimKeepsContent(s, t, r);
    r
  }

  /** The trimmed string is a piece of the original. */
  lemma TrimOccurs(s: string)
    ensures exists i :: OccursAt(s, Trim(s), i)
  {
    var t := TrimStart(s);
    assert OccursAt(s, Trim(s), |s| - |t|);
  }

  lemma TrimKeepsContent(s: string, t: string, r: string)
    requires t == TrimStart(s) && r == TrimEnd(t)
    ensures IsTrimmed(r)
    ensures Remove(r, IsJsSpace) == Remove(s, IsJsSpace)
  {
    if |r| > 0 {
      assert r[0] == t[0];
    }
    TrimStartKeeps(s);
    TrimEndKeeps(t);
  }

  /** `trimStart` removes only white space. */
  lemma TrimStartKeeps(s: string)
    ensures Remove(TrimStart(s), IsJsSpace) == Remove(s, IsJsSpace)
  {
    var t := TrimStart(s);
    var lead := s[..|s| - |t|];
    assert s == lead + t;
    assert forall i :: 0 <= i < |lead| ==> IsJsSpace(lead[i]);
    RemoveAll(lead, IsJsSpace);
    RemoveAppend(lead, t, IsJsSpace);
  }

  /** `trimEnd` removes only white space. */
  lemma TrimEndKeeps(t: string)
    ensures Remove(TrimEnd(t), IsJsSpace) == Remove(t, IsJsSpace)
  {
    var r := TrimEnd(t);
    var trail := t[|r|..];
    assert t == r + trail;
    assert forall i :: 0 <= i < |trail| ==> IsJsSpace(trail[i]);
    RemoveAll(trail, IsJsSpace);
    RemoveAppend(r, trail, IsJsSpace);
  }

  /** Trimming a trimmed string changes nothing. */
  lemma TrimTrimmed(s: string)
    requires IsTrimmed(s)
    ensures Trim(s) == s
  {
    if |s| > 0 {
      assert TrimStart(s) == s;
    }
  }

  /** Only white space trims to the empty string. */
  lemma TrimEmptyIffBlank(s: string)
    ensures Trim(s) == "" <==> forall i :: 0 <= i < |s| ==> IsJsSpace(s[i])
  {
    if Trim(s) == "" {
      assert |TrimStart(s)| == 0;
    } else {
      assert exists i :: 0 <= i < |s| && !IsJsSpace(s[i]) by {
        var r := Trim(s);
        TrimOccurs(s);
        var k: nat :| OccursAt(s, r, k);
        assert s[k] == r[0];
      }
    }
  }

  // ---------------------------------------------------------------------------
  // Decimal numerals
  // ---------------------------------------------------------------------------

  /** The decimal numeral of `n`, as template literals print it. */
  function Decimal(n: nat): (r: string)
    ensures |r| > 0
    ensures forall i :: 0 <= i < |r| ==> IsDigit(r[i])
    decreases n
  {
    if n < 10 then [DigitChar(n)] else Decimal(n / 10) + [DigitChar(n % 10)]
  }

  /** The value of a string of decimal digits. */
  function DecimalValue(s: string): nat
    requires forall i :: 0 <= i < |s| ==> IsDigit(s[i])
    decreases |s|
  {
    if |s| == 0 then 0 else 10 * DecimalValue(s[..|s| - 1]) + DigitValue(s[|s| - 1])
  }

  /** Reading back a printed numeral gives the number. */
  lemma {:induction false} DecimalRoundTrip(n: nat)
    ensures DecimalValue(Decimal(n)) == n
    decreases n
  {
    if n >= 10 {
      DecimalRoundTrip(n / 10);
      var r := Decimal(n);
      assert r[..|r| - 1] == Decimal(n / 10);
    }
  }
}

=== FILE: summaries.dfy ===
/**
 The search summaries of the generation route: short search queries for Google,
 Wikipedia, YouTube and Amazon, read from labelled lines of a model reply, with
 fallbacks cut from the generated content when a label gives nothing.
 */
module SearchSummaries {
  import opened Wrappers
  import opened Strings

  const GOOGLE_LABEL: string := "GOOGLE_SUMMARY:"
  const WIKI_LABEL: string := "WIKI_SUMMARY:"
  const YOUTUBE_LABEL: string := "YOUTUBE_SUMMARY:"
  const AMAZON_LABEL: string := "AMAZON_SUMMARY:"

  /** Length of the Google fallback query. */
  const LONG_QUERY: nat := 100
  /** Length of the YouTube and Amazon fallback queries. */
  const SHORT_QUERY: nat := 50
  /** Number of words of a Wikipedia query. */
  const WIKI_WORDS: nat := 3

  datatype Summaries = Summaries(google: string, wikipedia: string, youtube: string, amazon: string)

  /** `summaries[platform]` when it is a non-empty string. */
  function Lookup(s: Summaries, platform: string): (r: Option<string>)
    ensures r.Some? ==> r.value != ""
    ensures platform !in {"google", "wikipedia", "youtube", "amazon"} ==> r.None?
  {
    var v :=
      if platform == "google" then s.google
      else if platform == "wikipedia" then s.wikipedia
      else if platform == "youtube" then s.youtube
      else if platform == "amazon" then s.amazon
      else "";
    if v != "" then Some(v) else None
  }

  // ---------------------------------------------------------------------------
  // `LABEL:\s*([^\n]+)`
  // ---------------------------------------------------------------------------

  /** The text from the start of `s` up to its first line feed. */
  function LineAt(s: string): (r: string)
    ensures StartsWith(s, r)
    ensures forall i :: 0 <= i < |r| ==> r[i] != '\n'
    ensures |r| < |s| ==> s[|r|] == '\n'
  {
    PrefixLenAll(s, IsNewline, false);
    s[..PrefixLen(s, IsNewline, false)]
  }

  /**
   The group the pattern `<label>\s*([^\n]+)` captures at its first match. Every match
   starts at an occurrence of the label, and only the first occurrence can match: when
   it fails, nothing but white space follows it. After the label, `\s*` takes all the
   white space; if something else follows, the capture is the rest of that line.
   If the text ends in white space, `\s*` gives back its last character that is not a
   line feed, which the capture then is; with only line feeds there is no match.
   */
  function Capture(s: string, tag: string): (r: Option<string>)
    ensures r.Some? ==> Contains(s, tag)
    ensures !Contains(s, tag) ==> r.None?
    ensures r.Some? ==> |r.value| > 0 && forall i :: 0 <= i < |r.value| ==> r.value[i] != '\n'
    ensures r.Some? && IsJsSpace(r.value[0]) ==> |r.value| == 1
  {
    match IndexOf(s, tag)
    case None => None
    case Some(i) =>
      var after := s[i + |tag|..];
      var w := PrefixLen(after, IsJsSpace, true);
      if w < |after| then
        Some(LineAt(after[w..]))
      else
        var k := SuffixLen(after, IsNewline);
        if k < |after| then Some([after[|after| - k - 1]]) else None
  }

  /** A reply that starts with the label, optional white space and a line gives that line back. */
  lemma CaptureOfLine(tag: string, space: string, v: string, rest: string)
    requires forall i :: 0 <= i < |space| ==> IsJsSpace(space[i])
    requires |v| > 0 && !IsJsSpace(v[0])
    requires forall i :: 0 <= i < |v| ==> v[i] != '\n'
    requires |rest| == 0 || rest[0] == '\n'
    ensures Capture(tag + space + v + rest, tag) == Some(v)
  {
    var s := tag + space + v + rest;
    assert OccursAt(s, tag, 0) by {
      assert s[..|tag|] == tag;
    }
    assert IndexOf(s, tag) == Some(0);
    var after := s[|tag|..];
    assert after == space + (v + rest);
    PrefixLenAppend(space, v + rest, IsJsSpace, true);
    assert after[|space|..] == v + rest;
    assert forall i :: 0 <= i < |v| ==> IsNewline(v[i]) == false;
    PrefixLenAppend(v, rest, IsNewline, false);
    assert (v + rest)[..|v|] == v;
  }

  /** The trimmed capture, when it is not blank: `match(...)?.[1]?.trim()` as a truthy value. */
  function LabelValue(s: string, tag: string): (r: Option<string>)
    ensures r.Some? ==> r.value != "" && IsTrimmed(r.value) && Contains(s, tag)
    ensures r.Some? ==> forall i :: 0 <= i < |r.value| ==> r.value[i] != '\n'
  {
    match Capture(s, tag)
    case None => None
    case Some(c) =>
      var t := Trim(c);
      assert forall i :: 0 <= i < |t| ==> t[i] != '\n' by {
        TrimOccurs(c);
        var k: nat :| OccursAt(c, t, k);
        assert forall i :: 0 <= i < |t| ==> t[i] == c[k + i];
      }
      if t != "" then Some(t) else None
  }

  // ---------------------------------------------------------------------------
  // Words
  // ---------------------------------------------------------------------------

  /** At most the first `n` elements. */
  function FirstN<T>(s: seq<T>, n: nat): (r: seq<T>)
    ensures |r| <= n && |r| <= |s|
    ensures r == s[..|r|]
    ensures |s| > 0 && n > 0 ==> |r| > 0
  {
    if |s| <= n then s else s[..n]
  }

  /** `s.split(" ").slice(0, n).join(" ")`: the first `n` space-separated pieces of `s`. */
  function FirstWords(s: string, n: nat): (r: string)
    ensures StartsWith(s, r)
    ensures CountChar(r, ' ') < n || n == 0
    ensures n == 0 ==> r == ""
    ensures CountChar(s, ' ') < n ==> r == s
    ensures n > 0 && CountChar(s, ' ') >= n ==> CountChar(r, ' ') == n - 1 && |r| < |s| && s[|r|] == ' '
  {
    var parts := Split(s, " ");
    var first := FirstN(parts, n);
    JoinSplit(s, " ");
    SplitClean(s, " ");
    SplitCharCount(s, ' ');
    JoinPrefix(" ", parts, |first|);
    var r := Join(" ", first);
    if n > 0 then
      JoinSpaces(first);
      if |parts| > n then JoinCut(" ", parts, n); r else r
    else r
  }

  /** Pieces without a space, joined by single spaces, hold one space fewer than there are pieces. */
  lemma {:induction false} JoinSpaces(parts: seq<string>)
    requires |parts| >= 1
    requires forall k :: 0 <= k < |parts| ==> !Contains(parts[k], " ")
    ensures CountChar(Join(" ", parts), ' ') == |parts| - 1
    decreases |parts|
  {
    NoOccurrenceNoChar(parts[0], ' ');
    if |parts| > 1 {
      var tail := parts[1..];
      assert forall k :: 0 <= k < |tail| ==> tail[k] == parts[k + 1];
      JoinSpaces(tail);
      var rest := Join(" ", tail);
      CountCharAppend(parts[0] + " ", rest, ' ');
      CountCharAppend(parts[0], " ", ' ');
    }
  }

  /**
   Words joined by single spaces: the only white space in the result is the spaces put
   between the words, one fewer than there are words.
   */
  lemma {:induction false} JoinWords(words: seq<string>)
    requires |words| >= 1
    requires forall k, i :: 0 <= k < |words| && 0 <= i < |words[k]| ==> !IsJsSpace(words[k][i])
    ensures CountChar(Join(" ", words), ' ') == |words| - 1
    ensures forall i :: 0 <= i < |Join(" ", words)| && IsJsSpace(Join(" ", words)[i]) ==> Join(" ", words)[i] == ' '
    decreases |words|
  {
    var w := words[0];
    assert forall i :: 0 <= i < |w| ==> w[i] != ' ';
    NoCount(w, ' ');
    if |words| > 1 {
      var tail := words[1..];
      assert forall k :: 0 <= k < |tail| ==> tail[k] == words[k + 1];
      JoinWords(tail);
      var rest := Join(" ", tail);
      assert Join(" ", words) == w + " " + rest;
      CountCharAppend(w + " ", rest, ' ');
      CountCharAppend(w, " ", ' ');
    }
  }

  /** A non-empty piece without white space. */
  predicate IsWord(w: string) {
    |w| > 0 && forall i :: 0 <= i < |w| ==> !IsJsSpace(w[i])
  }

  /** Words joined by single spaces split back, on white space, into the same words. */
  lemma {:induction false} SplitJoinWords(words: seq<string>)
    requires |words| >= 1
    requires forall k :: 0 <= k < |words| ==> IsWord(words[k])
    ensures SplitSpaces(Join(" ", words)) == words
    decreases |words|
  {
    var w := words[0];
    assert IsWord(w);
    if |words| == 1 {
      SplitOneWord(w);
    } else {
      var tail := words[1..];
      assert forall k :: 0 <= k < |tail| ==> tail[k] == words[k + 1];
      SplitJoinWords(tail);
      var rest := Join(" ", tail);
      assert IsWord(tail[0]);
      assert rest[0] == tail[0][0];
      assert Join(" ", words) == w + " " + rest;
      SplitWordStep(w, rest, Join(" ", words));
      assert [w] + tail == words;
    }
  }

  /** A single word splits into itself. */
  lemma SplitOneWord(w: string)
    requires IsWord(w)
    ensures SplitSpaces(w) == [w]
  {
    var p, q := SplitRunsAt(w, IsJsSpace);
  }

  /** A word, one space and text starting with a word split into the word and the split of that text. */
  lemma SplitWordStep(w: string, rest: string, s: string)
    requires s == w + " " + rest
    requires IsWord(w)
    requires |rest| > 0 && !IsJsSpace(rest[0])
    ensures SplitSpaces(s) == [w] + SplitSpaces(rest)
  {
    var p, q := SplitRunsAt(s, IsJsSpace);
    assert forall i :: 0 <= i < |w| ==> s[i] == w[i];
    assert IsJsSpace(s[|w|]);
    assert !IsJsSpace(s[|w| + 1]);
    assert p <= |w|;
    assert p < |s| ==> IsJsSpace(s[p]);
    assert p == |w|;
    assert q == |w| + 1;
    assert s[q..] == rest;
    assert s[..p] == w;
  }

  /**
   The Wikipedia value of a reply: the first three words of the trimmed capture, joined
   by single spaces. Split again on white space, it gives back exactly those words.
   */
  function WikiWords(s: string): (r: string)
    ensures r != "" ==> CountChar(r, ' ') < WIKI_WORDS
    ensures forall i :: 0 <= i < |r| && IsJsSpace(r[i]) ==> r[i] == ' '
    ensures Capture(s, WIKI_LABEL).None? ==> r == ""
    ensures Capture(s, WIKI_LABEL).Some? && Trim(Capture(s, WIKI_LABEL).value) == "" ==> r == ""
    ensures Capture(s, WIKI_LABEL).Some? && Trim(Capture(s, WIKI_LABEL).value) != "" ==>
      SplitSpaces(r) == FirstN(SplitSpaces(Trim(Capture(s, WIKI_LABEL).value)), WIKI_WORDS)
  {
    match Capture(s, WIKI_LABEL)
    case None => ""
    case Some(c) =>
      var t := Trim(c);
      SplitRunsClean(t, IsJsSpace);
      var words := FirstN(SplitSpaces(t), WIKI_WORDS);
      JoinWords(words);
      if t != "" then
        SplitRunsCount(t, IsJsSpace);
        assert forall k :: 0 <= k < |words| ==> IsWord(words[k]) by {
          forall k | 0 <= k < |words| ensures IsWord(words[k]) {
            assert words[k] == SplitSpaces(t)[k];
          }
        }
        SplitJoinWords(words);
        Join(" ", words)
      else
        Join(" ", words)
  }

  // ---------------------------------------------------------------------------
  // The summaries
  // ---------------------------------------------------------------------------

  /**
   The summaries sent with generated `content`, read from the model's `reply`: each
   value is the one its label gives, and when the label gives nothing, a piece of the
   content (its first 100 characters for Google, first 50 for YouTube and Amazon, first
   three space-separated pieces for Wikipedia).
   */
  function Parse(reply: string, content: string): (r: Summaries)
    ensures LabelValue(reply, GOOGLE_LABEL).Some? ==> r.google == LabelValue(reply, GOOGLE_LABEL).value
    ensures LabelValue(reply, YOUTUBE_LABEL).Some? ==> r.youtube == LabelValue(reply, YOUTUBE_LABEL).value
    ensures LabelValue(reply, AMAZON_LABEL).Some? ==> r.amazon == LabelValue(reply, AMAZON_LABEL).value
    ensures WikiWords(reply) != "" ==> r.wikipedia == WikiWords(reply)
    ensures LabelValue(reply, GOOGLE_LABEL).None? ==>
      |r.google| <= LONG_QUERY && StartsWith(content, r.google) && (|r.google| == LONG_QUERY || r.google == content)
    ensures LabelValue(reply, YOUTUBE_LABEL).None? ==>
      |r.youtube| <= SHORT_QUERY && StartsWith(content, r.youtube) && (|r.youtube| == SHORT_QUERY || r.youtube == content)
    ensures LabelValue(reply, AMAZON_LABEL).None? ==>
      |r.amazon| <= SHORT_QUERY && StartsWith(content, r.amazon) && (|r.amazon| == SHORT_QUERY || r.amazon == content)
    ensures WikiWords(reply) == "" ==> r.wikipedia == FirstWords(content, WIKI_WORDS)
    ensures WikiWords(reply) == "" ==> StartsWith(content, r.wikipedia)
    ensures CountChar(r.wikipedia, ' ') < WIKI_WORDS
  {
    var wiki := WikiWords(reply);
    Summaries(
      LabelValue(reply, GOOGLE_LABEL).GetOr(Take(content, LONG_QUERY)),
      if wiki != "" then wiki else FirstWords(content, WIKI_WORDS),
      LabelValue(reply, YOUTUBE_LABEL).GetOr(Take(content, SHORT_QUERY)),
      LabelValue(reply, AMAZON_LABEL).GetOr(Take(content, SHORT_QUERY)))
  }

  /** A reply without any of the labels gives the fallbacks, all cut from the content. */
  lemma UnlabelledReply(reply: string, content: string)
    requires !Contains(reply, GOOGLE_LABEL) && !Contains(reply, WIKI_LABEL)
    requires !Contains(reply, YOUTUBE_LABEL) && !Contains(reply, AMAZON_LABEL)
    ensures Parse(reply, content) == Summaries(
      Take(content, LONG_QUERY), FirstWords(content, WIKI_WORDS),
      Take(content, SHORT_QUERY), Take(content, SHORT_QUERY))
  {}
}

=== FILE: text_stats.dfy ===
/**
 The statistics the answer panel shows for a text: its word, character and space
 counts, and its ten most frequent words.
 */
module TextStats {
  import opened Strings
  import opened Sorting
  import opened SearchSummaries
  import Conversations

  /** The characters stripped from a word before it is counted. */
  const PUNCTUATION: string := ".,!?;:'\""

  /** Words of this length or shorter are not counted. */
  const SHORT_WORD: nat := 2

  /** How many of the most frequent words are shown. */
  const TOP_WORDS: nat := 10

  /** Property keys from 2^32 - 1 up are not array indices. */
  const ARRAY_INDEX_LIMIT: nat := 0xFFFF_FFFF

  /** A counted word and how often it occurs. */
  datatype Frequency = Frequency(word: string, count: nat)

  /** `calculateStats` without the floating-point densities. */
  datatype Stats = Stats(words: nat, chars: nat, spaces: nat, topWords: seq<Frequency>)

  predicate IsPunctuation(c: char) {
    c in PUNCTUATION
  }

  /** The word lower-cased and stripped of punctuation. */
  function Clean(w: string): (r: string)
    ensures forall i :: 0 <= i < |r| ==> !IsPunctuation(r[i]) && !('A' <= r[i] <= 'Z')
  {
    var lower := ToLower(w);
    var r := Remove(lower, IsPunctuation);
    RemoveClean(lower, IsPunctuation);
    assert forall i :: 0 <= i < |r| ==> !('A' <= r[i] <= 'Z') by {
      CleanNoUpper(lower);
    }
    r
  }

  lemma {:induction false} CleanNoUpper(s: string)
    requires forall i :: 0 <= i < |s| ==> !('A' <= s[i] <= 'Z')
    ensures forall i :: 0 <= i < |Remove(s, IsPunctuation)| ==> !('A' <= Remove(s, IsPunctuation)[i] <= 'Z')
    decreases |s|
  {
    if |s| > 0 {
      CleanNoUpper(s[1..]);
    }
  }

  predicate IsCounted(w: string) {
    |w| > SHORT_WORD
  }

  /** Each word cleaned, position by position. */
  function CleanAll(words: seq<string>): (r: seq<string>)
    ensures |r| == |words|
    ensures forall j :: 0 <= j < |words| ==> r[j] == Clean(words[j])
  {
    seq(|words|, j requires 0 <= j < |words| => Clean(words[j]))
  }

  /**
   The cleaned words that are counted, in order: each cleaned word longer than two
   characters, as many times as it occurs.
   */
  function Counted(words: seq<string>): (ws: seq<string>)
    ensures forall i :: 0 <= i < |ws| ==> |ws[i]| > SHORT_WORD && exists j :: 0 <= j < |words| && ws[i] == Clean(words[j])
    ensures forall j :: 0 <= j < |words| && |Clean(words[j])| > SHORT_WORD ==> Clean(words[j]) in ws
    ensures forall w :: multiset(ws)[w] == if |w| > SHORT_WORD then multiset(CleanAll(words))[w] else 0
  {
    var cleaned := CleanAll(words);
    var ws := Filter(cleaned, IsCounted, true);
    FilterMembers(cleaned, IsCounted, true);
    FilterCount(cleaned, IsCounted, true);
    assert forall i :: 0 <= i < |ws| ==> exists j :: 0 <= j < |words| && ws[i] == Clean(words[j]) by {
      forall i | 0 <= i < |ws| ensures exists j :: 0 <= j < |words| && ws[i] == Clean(words[j]) {
        var j :| 0 <= j < |cleaned| && cleaned[j] == ws[i];
      }
    }
    ws
  }

  // ---------------------------------------------------------------------------
  // Tallying
  // ---------------------------------------------------------------------------

  predicate DistinctWords(t: seq<Frequency>) {
    forall i, j :: 0 <= i < j < |t| ==> t[i].word != t[j].word
  }

  /** Every word of `ws` has an entry in `t`. */
  predicate Covers(t: seq<Frequency>, ws: seq<string>) {
    forall j :: 0 <= j < |ws| ==> exists i :: 0 <= i < |t| && t[i].word == ws[j]
  }

  /** `t` counts the words `ws`: one entry per word that occurs, with how often it occurs. */
  predicate Tallies(t: seq<Frequency>, ws: seq<string>) {
    && DistinctWords(t)
    && (forall i :: 0 <= i < |t| ==> t[i].word in ws && t[i].count == multiset(ws)[t[i].word])
    && Covers(t, ws)
  }

  /** `acc[w] = (acc[w] || 0) + 1` on entries kept in insertion order. */
  function Bump(t: seq<Frequency>, w: string): (r: seq<Frequency>)
    requires DistinctWords(t)
    ensures |r| == |t| || |r| == |t| + 1
    ensures forall i :: 0 <= i < |t| ==> r[i] == Frequency(t[i].word, t[i].count + if t[i].word == w then 1 else 0)
    ensures |r| == |t| + 1 ==> r[|t|] == Frequency(w, 1)
    decreases |t|
  {
    if |t| == 0 then [Frequency(w, 1)]
    else if t[0].word == w then [t[0].(count := t[0].count + 1)] + t[1..]
    else
      var tail := t[1..];
      assert forall i :: 0 <= i < |tail| ==> tail[i] == t[i + 1];
      [t[0]] + Bump(tail, w)
  }

  lemma DistinctTail(t: seq<Frequency>)
    requires |t| > 0 && DistinctWords(t)
    ensures DistinctWords(t[1..])
  {
    var tail := t[1..];
    assert forall i :: 0 <= i < |tail| ==> tail[i] == t[i + 1];
  }

  /** A new entry is added exactly when the word has none yet. */
  lemma {:induction false} BumpNew(t: seq<Frequency>, w: string)
    requires DistinctWords(t)
    ensures |Bump(t, w)| == |t| + 1 ==> forall i :: 0 <= i < |t| ==> t[i].word != w
    ensures (forall i :: 0 <= i < |t| ==> t[i].word != w) ==> |Bump(t, w)| == |t| + 1
    decreases |t|
  {
    if |t| > 0 && t[0].word != w {
      var tail := t[1..];
      DistinctTail(t);
      BumpNew(tail, w);
      assert |Bump(t, w)| == 1 + |Bump(tail, w)|;
      assert forall i :: 1 <= i < |t| ==> t[i] == tail[i - 1];
    }
  }

  /** Counting a word keeps the words of the entries distinct. */
  lemma {:induction false} BumpDistinct(t: seq<Frequency>, w: string)
    requires DistinctWords(t)
    ensures DistinctWords(Bump(t, w))
    decreases |t|
  {
    if |t| > 0 {
      var r := Bump(t, w);
      if t[0].word == w {
        assert forall i :: 0 <= i < |r| ==> r[i].word == t[i].word;
      } else {
        var tail := t[1..];
        DistinctTail(t);
        BumpDistinct(tail, w);
        var rest := Bump(tail, w);
        assert r == [t[0]] + rest;
        forall j | 0 <= j < |rest| ensures rest[j].word != t[0].word {
          if j < |tail| {
            assert rest[j].word == tail[j].word == t[j + 1].word;
          } else {
            assert rest[j] == Frequency(w, 1);
          }
        }
        forall i, j | 0 <= i < j < |r| ensures r[i].word != r[j].word {
          assert r[j] == rest[j - 1];
          if i > 0 {
            assert r[i] == rest[i - 1];
          }
        }
      }
    }
  }

  /** The word counts, in the order the words first occur. */
  function Tally(ws: seq<string>): (t: seq<Frequency>)
    ensures Tallies(t, ws)
    decreases |ws|
  {
    if |ws| == 0 then []
    else
      var init := ws[..|ws| - 1];
      var w := ws[|ws| - 1];
      assert ws == init + [w];
      TallyStep(init, w, Tally(init));
      Bump(Tally(init), w)
  }

  /** Counting one more word keeps the tally right. */
  lemma TallyStep(init: seq<string>, w: string, before: seq<Frequency>)
    requires Tallies(before, init)
    ensures Tallies(Bump(before, w), init + [w])
  {
    var ws := init + [w];
    var t := Bump(before, w);
    BumpDistinct(before, w);
    TallyStepCounts(init, w, before, ws, t);
    TallyStepCovers(init, w, before, ws, t);
  }

  /** Every entry counts its word, the new word's entry included. */
  lemma TallyStepCounts(init: seq<string>, w: string, before: seq<Frequency>, ws: seq<string>, t: seq<Frequency>)
    requires DistinctWords(before)
    requires forall i :: 0 <= i < |before| ==> before[i].word in init && before[i].count == multiset(init)[before[i].word]
    requires Covers(before, init)
    requires ws == init + [w] && t == Bump(before, w)
    ensures forall i :: 0 <= i < |t| ==> t[i].word in ws && t[i].count == multiset(ws)[t[i].word]
  {
    TallyStepOld(init, w, before, ws, t);
    if |t| == |before| + 1 {
      TallyStepNew(init, w, before, ws, t);
    }
    forall i | 0 <= i < |t| ensures t[i].word in ws && t[i].count == multiset(ws)[t[i].word] {
      if i < |before| {
        assert t[i].word in ws && t[i].count == multiset(ws)[t[i].word];
      } else {
        assert i == |before|;
      }
    }
  }

  /** The words seen before keep their entries, with the new word counted in. */
  lemma TallyStepOld(init: seq<string>, w: string, before: seq<Frequency>, ws: seq<string>, t: seq<Frequency>)
    requires DistinctWords(before)
    requires forall i :: 0 <= i < |before| ==> before[i].word in init && before[i].count == multiset(init)[before[i].word]
    requires ws == init + [w] && t == Bump(before, w)
    ensures forall i :: 0 <= i < |before| ==> t[i].word in ws && t[i].count == multiset(ws)[t[i].word]
  {
    assert multiset(ws) == multiset(init) + multiset{w};
    forall i | 0 <= i < |before| ensures t[i].word in ws && t[i].count == multiset(ws)[t[i].word] {
      assert t[i].word == before[i].word;
    }
  }

  /** A word seen for the first time gets an entry counting one. */
  lemma TallyStepNew(init: seq<string>, w: string, before: seq<Frequency>, ws: seq<string>, t: seq<Frequency>)
    requires DistinctWords(before)
    requires Covers(before, init)
    requires ws == init + [w] && t == Bump(before, w)
    requires |t| == |before| + 1
    ensures t[|before|].word in ws && t[|before|].count == multiset(ws)[t[|before|].word]
  {
    BumpNew(before, w);
    assert |Bump(before, w)| == |before| + 1;
    assert forall i :: 0 <= i < |before| ==> before[i].word != w;
    UnseenWord(init, w, before);
    assert multiset(ws) == multiset(init) + multiset{w};
    assert t[|before|] == Frequency(w, 1);
    assert ws[|init|] == w;
  }

  /** A word without an entry has not occurred yet. */
  lemma UnseenWord(init: seq<string>, w: string, before: seq<Frequency>)
    requires Covers(before, init)
    requires forall i :: 0 <= i < |before| ==> before[i].word != w
    ensures multiset(init)[w] == 0
  {
    forall j | 0 <= j < |init| ensures init[j] != w {
      var k :| 0 <= k < |before| && before[k].word == init[j];
    }
    assert w !in init;
  }

  /** Every word seen so far, the new one included, has an entry. */
  lemma TallyStepCovers(init: seq<string>, w: string, before: seq<Frequency>, ws: seq<string>, t: seq<Frequency>)
    requires DistinctWords(before)
    requires Covers(before, init)
    requires ws == init + [w] && t == Bump(before, w)
    ensures Covers(t, ws)
  {
    BumpNew(before, w);
    forall j | 0 <= j < |ws| ensures exists i :: 0 <= i < |t| && t[i].word == ws[j] {
      if j < |init| {
        assert ws[j] == init[j];
        var i :| 0 <= i < |before| && before[i].word == init[j];
        assert t[i].word == ws[j];
      } else if |t| == |before| + 1 {
        assert t[|before|].word == ws[j];
      } else {
        var i :| 0 <= i < |before| && before[i].word == w;
        assert t[i].word == ws[j];
      }
    }
  }

  // ---------------------------------------------------------------------------
  // The tally as written: a plain object with a prototype
  // ---------------------------------------------------------------------------

  /** What adding 1 to the function `Object` gives: its source text followed by "1". */
  const OBJECT_SOURCE: string := "function Object() { [native code] }"

  /** A property value of the tally object: a number, or a string once `+` has concatenated. */
  datatype Value = Num(n: int) | Str(s: string)

  datatype Property = Property(key: string, value: Value)

  /** `v + 1`. */
  function Plus1(v: Value): (r: Value)
    ensures v.Num? ==> r == Num(v.n + 1)
    ensures v.Str? ==> r.Str? && r.s == v.s + "1"
  {
    match v
    case Num(n) => Num(n + 1)
    case Str(s) => Str(s + "1")
  }

  /**
   `acc[w] = (acc[w] || 0) + 1` on an object made by `{}`. Without an own property
   `acc[w]` reads `Object.prototype`: for `constructor` the function `Object`, which
   `+ 1` turns into a string; for `__proto__` the prototype itself, and assigning a
   string to `__proto__` does nothing.
   */
  function BumpAsWritten(props: seq<Property>, w: string): (r: seq<Property>)
    ensures w == "__proto__" ==> r == props
    ensures w != "__proto__" ==> |r| == |props| || |r| == |props| + 1
  {
    if w == "__proto__" then props else BumpOwn(props, w)
  }

  function BumpOwn(props: seq<Property>, w: string): (r: seq<Property>)
    ensures |r| == |props| || |r| == |props| + 1
    ensures forall k :: 0 <= k < |r| ==> r[k].key == w || r[k] in props
    decreases |props|
  {
    if |props| == 0 then [Property(w, if w == "constructor" then Str(OBJECT_SOURCE + "1") else Num(1))]
    else if props[0].key == w then [props[0].(value := Plus1(props[0].value))] + props[1..]
    else [props[0]] + BumpOwn(props[1..], w)
  }

  /**
   The tally object as the reduction builds it, own properties in insertion order: at
   most one per word, every one named by a word of the text, and none named `__proto__`.
   */
  function TallyAsWritten(ws: seq<string>): (props: seq<Property>)
    ensures |props| <= |ws|
    ensures forall k :: 0 <= k < |props| ==> props[k].key in ws && props[k].key != "__proto__"
    decreases |ws|
  {
    if |ws| == 0 then []
    else
      var init := ws[..|ws| - 1];
      var prev := TallyAsWritten(init);
      assert forall x :: x in init ==> x in ws;
      BumpAsWritten(prev, ws[|ws| - 1])
  }

  /** The corrected tally as property values. */
  function AsProperties(t: seq<Frequency>): (props: seq<Property>)
    ensures |props| == |t|
    ensures forall i :: 0 <= i < |t| ==> props[i] == Property(t[i].word, Num(t[i].count))
  {
    seq(|t|, i requires 0 <= i < |t| => Property(t[i].word, Num(t[i].count)))
  }

  /** On words other than `constructor` and `__proto__` the object counts correctly. */
  lemma {:induction false} TallyAsWrittenAgrees(ws: seq<string>)
    requires forall j :: 0 <= j < |ws| ==> ws[j] != "constructor" && ws[j] != "__proto__"
    ensures TallyAsWritten(ws) == AsProperties(Tally(ws))
    decreases |ws|
  {
    if |ws| > 0 {
      var init := ws[..|ws| - 1];
      TallyAsWrittenAgrees(init);
      BumpAgrees(Tally(init), ws[|ws| - 1]);
    }
  }

  lemma {:induction false} BumpAgrees(t: seq<Frequency>, w: string)
    requires DistinctWords(t) && w != "constructor" && w != "__proto__"
    ensures BumpAsWritten(AsProperties(t), w) == AsProperties(Bump(t, w))
    decreases |t|
  {
    var props := AsProperties(t);
    if |t| == 0 {
      assert BumpOwn(props, w) == [Property(w, Num(1))];
    } else {
      var tail := t[1..];
      assert t == [t[0]] + tail;
      AsPropertiesCons(t[0], tail);
      if t[0].word == w {
        var bumped := t[0].(count := t[0].count + 1);
        assert Bump(t, w) == [bumped] + tail;
        AsPropertiesCons(bumped, tail);
      } else {
        DistinctTail(t);
        BumpAgrees(tail, w);
        assert Bump(t, w) == [t[0]] + Bump(tail, w);
        AsPropertiesCons(t[0], Bump(tail, w));
        assert BumpOwn(props, w) == [props[0]] + BumpOwn(props[1..], w);
      }
    }
  }

  lemma AsPropertiesCons(f: Frequency, t: seq<Frequency>)
    ensures AsProperties([f] + t) == [Property(f.word, Num(f.count))] + AsProperties(t)
  {
    var l := AsProperties([f] + t);
    var r := [Property(f.word, Num(f.count))] + AsProperties(t);
    assert forall i :: 1 <= i < |l| ==> l[i] == r[i] by {
      assert forall i :: 1 <= i < |l| ==> ([f] + t)[i] == t[i - 1];
    }
  }

  /**
   The word "constructor" twice is counted as a string, not 2, and "__proto__" is not
   counted at all; the corrected tally counts both.
   */
  lemma PrototypeWordsMiscounted()
    ensures TallyAsWritten(["constructor", "constructor"]) == [Property("constructor", Str(OBJECT_SOURCE + "11"))]
    ensures Tally(["constructor", "constructor"]) == [Frequency("constructor", 2)]
    ensures TallyAsWritten(["__proto__"]) == []
    ensures Tally(["__proto__"]) == [Frequency("__proto__", 1)]
  {
    var c: seq<string> := ["constructor", "constructor"];
    assert c[..1] == ["constructor"];
    assert c[..1][..0] == [];
    assert ["__proto__"][..0] == [];
    assert (OBJECT_SOURCE + "1") + "1" == OBJECT_SOURCE + "11";
  }

  // ---------------------------------------------------------------------------
  // The order of `Object.entries`
  // ---------------------------------------------------------------------------

  /** A canonical decimal numeral below 2^32 - 1: a property key that is an array index. */
  predicate IsArrayIndex(s: string) {
    && |s| > 0
    && (forall i :: 0 <= i < |s| ==> IsDigit(s[i]))
    && (s[0] != '0' || |s| == 1)
    && DecimalValue(s) < ARRAY_INDEX_LIMIT
  }

  function IndexValue(s: string): int {
    if forall i :: 0 <= i < |s| ==> IsDigit(s[i]) then DecimalValue(s) else 0
  }

  predicate IsIndexEntry(e: Frequency) {
    IsArrayIndex(e.word)
  }

  function IndexKey(e: Frequency): int {
    IndexValue(e.word)
  }

  /**
   `Object.entries`: the entries whose keys are array indices first, in ascending
   numeric order, then the others in the order they were added.
   */
  function Entries(t: seq<Frequency>): (r: seq<Frequency>)
    ensures multiset(r) == multiset(t)
    ensures forall i, j :: 0 <= i < j < |r| && IsArrayIndex(r[j].word) ==>
      IsArrayIndex(r[i].word) && IndexValue(r[i].word) <= IndexValue(r[j].word)
    ensures Filter(r, IsIndexEntry, false) == Filter(t, IsIndexEntry, false)
  {
    var sorted := SortBy(Filter(t, IsIndexEntry, true), IndexKey);
    var others := Filter(t, IsIndexEntry, false);
    EntriesPermute(t, sorted, others);
    EntriesOrder(t, sorted, others);
    EntriesKeepOthers(t, sorted, others);
    sorted + others
  }

  /** Reordering index entries leaves them index entries. */
  lemma SortedIndices(indices: seq<Frequency>, sorted: seq<Frequency>)
    requires multiset(sorted) == multiset(indices)
    requires forall i :: 0 <= i < |indices| ==> IsIndexEntry(indices[i])
    ensures forall i :: 0 <= i < |sorted| ==> IsIndexEntry(sorted[i])
  {
    forall i | 0 <= i < |sorted| ensures IsIndexEntry(sorted[i]) {
      assert sorted[i] in multiset(indices);
      var k :| 0 <= k < |indices| && indices[k] == sorted[i];
    }
  }

  lemma EntriesPermute(t: seq<Frequency>, sorted: seq<Frequency>, others: seq<Frequency>)
    requires sorted == SortBy(Filter(t, IsIndexEntry, true), IndexKey)
    requires others == Filter(t, IsIndexEntry, false)
    ensures multiset(sorted + others) == multiset(t)
  {
    FilterPartition(t, IsIndexEntry);
  }

  lemma EntriesOrder(t: seq<Frequency>, sorted: seq<Frequency>, others: seq<Frequency>)
    requires sorted == SortBy(Filter(t, IsIndexEntry, true), IndexKey)
    requires others == Filter(t, IsIndexEntry, false)
    ensures forall i, j :: 0 <= i < j < |sorted + others| && IsArrayIndex((sorted + others)[j].word) ==>
      IsArrayIndex((sorted + others)[i].word) && IndexValue((sorted + others)[i].word) <= IndexValue((sorted + others)[j].word)
  {
    SortedIndices(Filter(t, IsIndexEntry, true), sorted);
    IndicesFirst(sorted, others, sorted + others);
  }

  lemma IndicesFirst(sorted: seq<Frequency>, others: seq<Frequency>, r: seq<Frequency>)
    requires r == sorted + others && SortedBy(sorted, IndexKey)
    requires forall i :: 0 <= i < |sorted| ==> IsIndexEntry(sorted[i])
    requires forall i :: 0 <= i < |others| ==> !IsIndexEntry(others[i])
    ensures forall i, j :: 0 <= i < j < |r| && IsArrayIndex(r[j].word) ==>
      IsArrayIndex(r[i].word) && IndexValue(r[i].word) <= IndexValue(r[j].word)
  {
    assert forall k :: |sorted| <= k < |r| ==> r[k] == others[k - |sorted|];
    assert forall k :: 0 <= k < |sorted| ==> r[k] == sorted[k];
    forall i, j | 0 <= i < j < |r| && IsArrayIndex(r[j].word)
      ensures IsArrayIndex(r[i].word) && IndexValue(r[i].word) <= IndexValue(r[j].word)
    {
      assert IndexKey(sorted[i]) <= IndexKey(sorted[j]);
    }
  }

  lemma EntriesKeepOthers(t: seq<Frequency>, sorted: seq<Frequency>, others: seq<Frequency>)
    requires sorted == SortBy(Filter(t, IsIndexEntry, true), IndexKey)
    requires others == Filter(t, IsIndexEntry, false)
    ensures Filter(sorted + others, IsIndexEntry, false) == others
  {
    SortedIndices(Filter(t, IsIndexEntry, true), sorted);
    FilterAppend(sorted, others, IsIndexEntry, false);
    FilterNone(sorted, IsIndexEntry, false);
    FilterAll(others, IsIndexEntry, false);
    assert [] + others == others;
  }

  // ---------------------------------------------------------------------------
  // The most frequent words
  // ---------------------------------------------------------------------------

  function CountKey(e: Frequency): int {
    -(e.count as int)
  }

  /** A permutation of entries with distinct words has distinct words. */
  lemma PermutationDistinct(a: seq<Frequency>, b: seq<Frequency>)
    requires multiset(a) == multiset(b) && DistinctWords(a)
    ensures DistinctWords(b)
  {
    forall i, j | 0 <= i < j < |b| ensures b[i].word != b[j].word {
      if b[i].word == b[j].word {
        assert b[i] in multiset(a) && b[j] in multiset(a);
        var p :| 0 <= p < |a| && a[p] == b[i];
        var q :| 0 <= q < |a| && a[q] == b[j];
        assert p == q;
        RepeatCount(b, i, j);
        SingleCount(a, p);
        assert false;
      }
    }
  }

  /**
   The most frequent counted words of `words`, most frequent first, ties in the order of
   `Object.entries`: at most ten distinct counted words with their true counts, and a
   word left out is outnumbered by every word listed.
   */
  function TopWords(words: seq<string>): (r: seq<Frequency>)
    ensures |r| <= TOP_WORDS
    ensures forall i, j :: 0 <= i < j < |r| ==> r[i].count >= r[j].count
    ensures DistinctWords(r)
    ensures forall i :: 0 <= i < |r| ==>
      r[i].word in Counted(words) && r[i].count == multiset(Counted(words))[r[i].word]
    ensures forall w :: w in Counted(words) ==>
      (exists i :: 0 <= i < |r| && r[i].word == w) ||
      (|r| == TOP_WORDS && forall i :: 0 <= i < |r| ==> r[i].count >= multiset(Counted(words))[w])
  {
    var ws := Counted(words);
    var t := Tally(ws);
    var sorted := SortBy(Entries(t), CountKey);
    var r := FirstN(sorted, TOP_WORDS);
    TopWordsFacts(ws, t, sorted, r);
    r
  }

  lemma TopWordsFacts(ws: seq<string>, t: seq<Frequency>, sorted: seq<Frequency>, r: seq<Frequency>)
    requires Tallies(t, ws) && multiset(sorted) == multiset(t) && SortedBy(sorted, CountKey)
    requires r == FirstN(sorted, TOP_WORDS)
    ensures forall i, j :: 0 <= i < j < |r| ==> r[i].count >= r[j].count
    ensures DistinctWords(r)
    ensures forall i :: 0 <= i < |r| ==> r[i].word in ws && r[i].count == multiset(ws)[r[i].word]
    ensures forall w :: w in ws ==>
      (exists i :: 0 <= i < |r| && r[i].word == w) ||
      (|r| == TOP_WORDS && forall i :: 0 <= i < |r| ==> r[i].count >= multiset(ws)[w])
  {
    TopSorted(sorted, r);
    TopDistinct(t, sorted, r);
    TopCounts(ws, t, sorted, r);
    forall w | w in ws ensures
      (exists i :: 0 <= i < |r| && r[i].word == w) ||
      (|r| == TOP_WORDS && forall i :: 0 <= i < |r| ==> r[i].count >= multiset(ws)[w])
    {
      TopComplete(ws, t, sorted, r, w);
    }
  }

  /** The entries kept are in order of decreasing count. */
  lemma TopSorted(sorted: seq<Frequency>, r: seq<Frequency>)
    requires SortedBy(sorted, CountKey) && r == FirstN(sorted, TOP_WORDS)
    ensures forall i, j :: 0 <= i < j < |r| ==> r[i].count >= r[j].count
  {
    forall i, j | 0 <= i < j < |r| ensures r[i].count >= r[j].count {
      assert r[i] == sorted[i] && r[j] == sorted[j];
      assert CountKey(sorted[i]) <= CountKey(sorted[j]);
    }
  }

  /** The entries kept have distinct words, as the tally's do. */
  lemma TopDistinct(t: seq<Frequency>, sorted: seq<Frequency>, r: seq<Frequency>)
    requires DistinctWords(t) && multiset(sorted) == multiset(t) && r == FirstN(sorted, TOP_WORDS)
    ensures DistinctWords(r)
  {
    PermutationDistinct(t, sorted);
    assert forall i :: 0 <= i < |r| ==> r[i] == sorted[i];
  }

  /** The entries kept are entries of the tally. */
  lemma TopCounts(ws: seq<string>, t: seq<Frequency>, sorted: seq<Frequency>, r: seq<Frequency>)
    requires forall i :: 0 <= i < |t| ==> t[i].word in ws && t[i].count == multiset(ws)[t[i].word]
    requires multiset(sorted) == multiset(t)
    requires r == FirstN(sorted, TOP_WORDS)
    ensures forall i :: 0 <= i < |r| ==> r[i].word in ws && r[i].count == multiset(ws)[r[i].word]
  {
    forall i | 0 <= i < |r| ensures r[i].word in ws && r[i].count == multiset(ws)[r[i].word] {
      assert r[i] == sorted[i];
      assert r[i] in multiset(t);
      var k :| 0 <= k < |t| && t[k] == r[i];
    }
  }

  /** A word left out is no more frequent than any word kept, and ten are kept. */
  lemma TopComplete(ws: seq<string>, t: seq<Frequency>, sorted: seq<Frequency>, r: seq<Frequency>, w: string)
    requires Tallies(t, ws) && multiset(sorted) == multiset(t) && SortedBy(sorted, CountKey)
    requires r == FirstN(sorted, TOP_WORDS)
    requires w in ws
    ensures (exists i :: 0 <= i < |r| && r[i].word == w) ||
      (|r| == TOP_WORDS && forall i :: 0 <= i < |r| ==> r[i].count >= multiset(ws)[w])
  {
    var j :| 0 <= j < |ws| && ws[j] == w;
    var k :| 0 <= k < |t| && t[k].word == ws[j];
    assert t[k] in multiset(sorted);
    var p :| 0 <= p < |sorted| && sorted[p] == t[k];
    if p < |r| {
      assert r[p] == sorted[p];
    } else {
      forall i | 0 <= i < |r| ensures r[i].count >= multiset(ws)[w] {
        assert r[i] == sorted[i];
        assert CountKey(sorted[i]) <= CountKey(sorted[p]);
      }
    }
  }

  // ---------------------------------------------------------------------------
  // The statistics
  // ---------------------------------------------------------------------------

  /** `text.split(' ').length - 1`: the number of spaces in the text. */
  function SpaceCount(text: string): (n: nat)
    ensures n == CountChar(text, ' ')
  {
    SplitCharCount(text, ' ');
    |Split(text, " ")| - 1
  }

  /**
   `calculateStats`: the white-space separated pieces of the trimmed text, its length,
   the pieces `split(" ")` makes less one, and the most frequent words.
   */
  function Calculate(text: string): (s: Stats)
    ensures s.chars == |text|
    ensures s.spaces == CountChar(text, ' ')
    ensures s.words == Conversations.WordCount(text)
    ensures s.topWords == TopWords(SplitSpaces(Trim(text)))
  {
    var words := SplitSpaces(Trim(text));
    Stats(|words|, |text|, SpaceCount(text), TopWords(words))
  }
}

=== FILE: wrappers.dfy ===
/** Optional values, standing in for JavaScript's `undefined`/`null` results. */
module Wrappers {

  datatype Option<+T> = None | Some(value: T) {

    /** The wrapped value, or `default` when there is none (JavaScript's `x ?? default`). */
    function GetOr(default: T): T {
      match this
      case Some(v) => v
      case None => default
    }
  }
}
